=== FILE: README.md ===
# tasterj catalog search and recipe rules, modelled in Dafny

This project models the product-search and recipe back end of *tasterj*, a
Spring Boot service over a MongoDB product catalog and a relational recipe
store. It covers:

- the in-memory two-tier product search (`ProductSearchService`): query spans
  (every contiguous run of query words), a STRICT tier, and a name-only
  fallback;
- the paginated production search (`ProductService.searchProducts`): longest
  brand span, brand-word removal, the filter document, and skip/limit paging;
- the repository lookups and the document-to-product decoding
  (`ProductRepository`);
- the query guard at the search endpoint (`ProductController`);
- ingredient→product matching (`ProductMatchService.findMatches`,
  `ProductService.findMatches`, `fetchProductsForIngredients`);
- recipe pricing (totals, HALF_UP rounding to cents, the five-percent
  stored-price rule), partial update, the owner checks, and sort and query
  selection (`RecipeService`);
- the per-(user, recipe) vote state machine and vote counts (`VoteService`);
- the favorites table (`FavoriteService`);
- the image-URL helpers (`ImageService`).

The catalog is an immutable `seq<Doc>`. `Doc` is a document whose fields may
each be missing. Every database query is restated as a predicate over that
sequence. The filter documents the production search builds are a small
syntax tree (`Filters.Bson`) with a meaning (`Filters.Eval`), and
`ProductSearch.CombinedFilterMeaning` ties that meaning to a field-by-field
reference predicate. Collaborators the code cannot see become parameters:

- the authenticated caller (an `Option<string>`, `None` for a request
  without a JWT);
- the clock (`now: int`);
- fresh UUIDs (`recipeId`, `ingredientIds`, `uuid`);
- the brand and vendor lists of `ProductMatchService`;
- the database's regular-expression engine in `findByNameContaining`
  (`Catalog.RegexEngine`: which patterns compile, and what a compiled pattern
  matches);
- the sets of existing users and recipes.

Lower-casing is ASCII-only (`Text.Lower`). `split("\\s+")` is modelled exactly
(`Text.Split`): a leading separator gives an empty first word, trailing empty
pieces are dropped, and a string of separators only gives no words at all.
Java `int` arithmetic in paging wraps around explicitly (`ProductSearch.Wrap32`).
The `(int) Math.ceil(...)` cast saturates (`ProductSearch.TotalPages`).

Where the code and its documentation differ, the model follows the code:

- `ProductService` uses the `StringBuilder` variant of `generateSubstrings`.
  The `String.join` variant differs from it only for a query with leading
  white space, whose first word is empty. `Spans.GluesDisagreeOnLeadingSpace`
  shows the difference, and `Spans.QueryGluesAgree` proves that the two agree
  for every other query.
- A query of white space only is not "empty" to `searchProducts`. It splits
  into no words, so the brand lookup is an `$or` with no entries, which the
  database refuses (`ProductSearch.SearchFailures`).
- A `page` below 1 makes the skip negative, which the database refuses too.
- The anchored brand pattern `^…$` also matches a brand followed by one line
  feed (`Filters.PatternMatches`).
- The empty query is not refused by the in-memory search: it splits into the
  single word "", whose one span is contained in every field, so the STRICT
  tier takes the whole catalog (`MemorySearch.EmptyQueryAcceptsAll`). Only the
  production search answers an empty query with an empty page.
- An ingredient without a store code is looked up with `store.code` equal to
  null, which the database reads as "the document has no store code". It is
  not a lookup by EAN alone.
- The `recipe == null` and `user == null` checks in `VoteService.vote` cannot
  fire, because the lookups they follow throw NOT_FOUND themselves. The model
  keeps the order of the two lookups: the recipe first, then the user.

## Model

| member | source | states |
|---|---|---|
| Text.Lower | src/main/java/com/example/tasterj/service/ProductSearchService.java:41 | lower-casing keeps the length and maps each character on its own |
| Text.LowerIdempotent | src/main/java/com/example/tasterj/service/ProductService.java:71-72 | lower-casing an already lower-cased brand changes nothing, so a lower-case span compares equal to itself |
| Text.SplitEmpty | src/main/java/com/example/tasterj/service/ProductService.java:50 | `split("\\s+")` returns no words exactly for a non-empty string made only of separators |
| Text.SplitWellSplit | src/main/java/com/example/tasterj/service/ProductService.java:50 | every word `split` returns is free of separators, and only the first can be empty |
| Text.SplitJoin | src/main/java/com/example/tasterj/service/ProductService.java:50 | splitting the single-space join of non-empty words gives the words back |
| Text.ContainsTransitive | src/main/java/com/example/tasterj/service/ProductSearchService.java:74 | `contains` is transitive |
| Text.JoinSpanContained | src/main/java/com/example/tasterj/service/ProductSearchService.java:45 | every run of consecutive words, joined, is contained in the whole joined query |
| Seqs.Filter | src/main/java/com/example/tasterj/service/ProductSearchService.java:57-59 | a stream filter keeps exactly the elements satisfying the predicate, in order |
| Seqs.FilterCount | src/main/java/com/example/tasterj/service/ProductMatchService.java:31-40 | an element occurs in a filtered list as often as in the original if it passes, and never otherwise |
| Seqs.RemoveFirst | src/main/java/com/example/tasterj/service/ProductService.java:86 | `List.remove` deletes exactly the first occurrence if there is one, and otherwise leaves the list unchanged |
| Seqs.RemoveEach | src/main/java/com/example/tasterj/service/ProductService.java:84-87 | removing each brand word leaves the multiset difference of the words, in their original order |
| Seqs.RemoveEachLength | src/main/java/com/example/tasterj/service/ProductService.java:84-87 | each removal deletes at most one word |
| Seqs.Dedupe | src/main/java/com/example/tasterj/service/ProductService.java:63-64 | `distinct` returns every value once and nothing else |
| Seqs.Slice | src/main/java/com/example/tasterj/service/ProductService.java:120-123 | skip then limit returns at most `len` elements, which are the elements starting at the skip |
| Spans.SubstringsCount | src/main/java/com/example/tasterj/service/ProductSearchService.java:40-49 | n words give exactly n(n+1)/2 spans |
| Spans.SubstringsAt | src/main/java/com/example/tasterj/service/ProductSearchService.java:43-46 | the span for (i, j) sits at position T(n)-T(n-i)+(j-i), where T(k)=k(k+1)/2, so spans are ordered by start and then by end; it is words i..j joined |
| Spans.SubstringsMembers | src/main/java/com/example/tasterj/service/ProductSearchService.java:43-46 | every span is the join of some run of words i..j |
| Spans.WordsAndWholeAreSubstrings | src/main/java/com/example/tasterj/service/ProductSearchService.java:41-48 | every single word, and the whole query joined by single spaces, is a span |
| Spans.SubstringsInWhole | src/main/java/com/example/tasterj/service/ProductSearchService.java:45 | every span is contained in the whole joined query |
| Spans.SubstringsEmpty | src/main/java/com/example/tasterj/service/ProductService.java:53 | there are no spans exactly when there are no words |
| Spans.EmptyQuerySubstrings | src/main/java/com/example/tasterj/service/ProductSearchService.java:41-45 | the empty query gives the single span "" |
| Spans.GluesAgree | src/main/java/com/example/tasterj/service/ProductService.java:152-165 | the `StringBuilder` and `String.join` spans agree when no word is empty |
| Spans.QueryGluesAgree | src/main/java/com/example/tasterj/service/ProductService.java:152-165 | for every query that does not start with white space, the empty query included, the `StringBuilder` spans equal the `String.join` spans |
| Spans.GluesDisagreeOnLeadingSpace | src/main/java/com/example/tasterj/service/ProductService.java:186-198 | for " a" the join variant yields " a" where the builder variant yields "a" |
| Spans.GenerateJoined | src/main/java/com/example/tasterj/service/ProductService.java:186-198 | the nested loop of the join variant builds exactly the span list |
| Spans.GenerateBuilt | src/main/java/com/example/tasterj/service/ProductService.java:152-165 | the nested loop of the builder variant builds exactly the span list |
| MemorySearch.SearchProducts | src/main/java/com/example/tasterj/service/ProductSearchService.java:52-70 | the result keeps catalog order and holds only catalog products |
| MemorySearch.SearchProductsTiers | src/main/java/com/example/tasterj/service/ProductSearchService.java:57-69 | when some product passes STRICT, the result is non-empty and holds exactly the STRICT products; otherwise it holds exactly the products whose name contains the whole joined query; in either case each such product occurs as often as in the catalog |
| MemorySearch.SpansPartition | src/main/java/com/example/tasterj/service/ProductSearchService.java:94-102 | the spans found outside the name and the remaining spans are disjoint, and together they are all the spans |
| MemorySearch.StrictAcceptsDirect | src/main/java/com/example/tasterj/service/ProductSearchService.java:105-108 | STRICT accepts iff some span hits brand, vendor, store or a category, and either every span does or some span that does not is in the name |
| MemorySearch.FallbackIsWholeQuery | src/main/java/com/example/tasterj/service/ProductSearchService.java:72-75 | the name contains every span iff it contains the whole lower-cased query joined by single spaces |
| MemorySearch.EmptyQueryAcceptsAll | src/main/java/com/example/tasterj/service/ProductSearchService.java:41-45 | the empty query returns the whole catalog |
| MemorySearch.MissingFieldsNeverHit | src/main/java/com/example/tasterj/service/ProductSearchService.java:78-91 | null brand, vendor and store name, a null category list and absent category names read as "" and are hit by no non-empty span |
| Catalog.DocumentToProduct | src/main/java/com/example/tasterj/repository/ProductRepository.java:62-111 | missing strings become "" and missing numbers 0; ean and name stay nullable; a missing store or category list stays unset; categories are decoded in order with defaults |
| Catalog.DecodeProductMap | src/main/java/com/example/tasterj/service/ProductService.java:209-248 | the map carries the product's id under "id", and reading the map back gives the product, except that an empty category list comes back as none |
| Catalog.FindByEan | src/main/java/com/example/tasterj/repository/ProductRepository.java:32-35 | returns the first product with that ean priced at 1 or more, and none if there is no such product |
| Catalog.FindByEanAndStoreCode | src/main/java/com/example/tasterj/repository/ProductRepository.java:56-59 | returns the first product with that ean and store code priced at 1 or more, and none if there is no such product |
| Catalog.FindByStoreCode | src/main/java/com/example/tasterj/repository/ProductRepository.java:47-53 | the result holds one decoded product per catalog document with that store code and a price of 1 or more, in catalog order, and nothing else |
| Catalog.FindByNameContaining | src/main/java/com/example/tasterj/repository/ProductRepository.java:38-44 | a pattern the server does not compile is refused; otherwise the result holds one decoded product per catalog document whose name the pattern matches and whose price is 1 or more, in catalog order, and nothing else |
| Filters.CategoryRegex | src/main/java/com/example/tasterj/service/ProductService.java:96 | a pattern on `category.name` matches iff some category's name contains the word, ignoring case |
| ProductSearch.Wrap32 | src/main/java/com/example/tasterj/service/ProductService.java:121 | the result is the `int` congruent to the exact value modulo 2^32 |
| ProductSearch.BrandQueryWellFormed | src/main/java/com/example/tasterj/service/ProductService.java:56-60 | the brand `$or` is acceptable to the database iff there is at least one span |
| ProductSearch.BrandQueryMeaning | src/main/java/com/example/tasterj/service/ProductService.java:56-60 | a product passes the brand lookup iff its brand equals some span ignoring case (or such a span followed by one line feed) |
| ProductSearch.MatchingBrands | src/main/java/com/example/tasterj/service/ProductService.java:63-64 | the distinct brands are duplicate-free, each is the brand of a product passing the lookup, and every such brand is present |
| ProductSearch.Longest | src/main/java/com/example/tasterj/service/ProductService.java:67-79 | the pick has the highest score among eligible brands and is the first eligible brand with that score; nothing is picked iff the best score is 0 |
| ProductSearch.ChosenBrand | src/main/java/com/example/tasterj/service/ProductService.java:67-79 | a chosen brand equals a span when lower-cased, has a word, is some product's brand, and no eligible catalog brand has more words |
| ProductSearch.RemainingWordsBound | src/main/java/com/example/tasterj/service/ProductService.java:81-88 | the remaining words are a sub-multiset and a subsequence of the query words; at most as many words are dropped as the brand has; with no brand nothing is dropped |
| ProductSearch.WordFilterMeaning | src/main/java/com/example/tasterj/service/ProductService.java:93-98 | a word filter passes iff the name or some category name contains the word, ignoring case |
| ProductSearch.CombinedFilterMeaning | src/main/java/com/example/tasterj/service/ProductService.java:101-116 | the combined filter is always acceptable, and a product passes it iff every remaining word is in its name or a category name, its brand contains the chosen brand, and its store is selected (when stores are given) |
| ProductSearch.NoFiltersMatchAll | src/main/java/com/example/tasterj/service/ProductService.java:116 | with no word, brand or store filter every product matches |
| ProductSearch.Window | src/main/java/com/example/tasterj/service/ProductService.java:120-123 | the page is the matches after the skip; a positive page size limits it to that many, 0 means no limit, and a negative size limits it to its magnitude |
| ProductSearch.TotalPages | src/main/java/com/example/tasterj/service/ProductService.java:145 | 0 pages for no items and `MAX_VALUE` for a zero page size; for a positive size the ceiling of total/pageSize, or `MAX_VALUE` exactly when that ceiling reaches it; for a negative size the ceiling of the negative quotient, or `MIN_VALUE` exactly when that ceiling reaches it |
| ProductSearch.TotalPagesSaturatesCeiling | src/main/java/com/example/tasterj/service/ProductService.java:145 | for any non-zero page size, the page count is the exact ceiling of total/pageSize clamped to the `int` range, as `(int) Math.ceil` clamps it |
| ProductSearch.SearchProducts | src/main/java/com/example/tasterj/service/ProductService.java:38-149 | a null or empty query gives an empty page with 0 items and 0 pages echoing `page`; otherwise `currentPage` echoes `page`, the page holds no more than the total, which holds no more than the catalog; a positive page size bounds the page |
| ProductSearch.SearchFailures | src/main/java/com/example/tasterj/service/ProductService.java:50-60 | a non-empty query fails iff it is all white space (empty `$or`) or the skip wraps negative |
| ProductSearch.SearchPageContents | src/main/java/com/example/tasterj/service/ProductService.java:120-146 | `totalItems` counts every matching product before slicing, and the page holds, in order, the product maps of the matches starting at the skip, each carrying its product's id |
| ProductSearch.FetchMeaning | src/main/java/com/example/tasterj/service/ProductService.java:201-207 | every product found is the one some ingredient resolves to, every resolved ingredient's product is found, and the list is as long as the ingredient list iff every ingredient resolves (so only unresolved ingredients are dropped) |
| ProductSearch.FetchAppend | src/main/java/com/example/tasterj/service/ProductService.java:201-207 | fetching distributes over concatenation of ingredient lists, so ingredient order is kept |
| ProductSearch.FindMatchesMeaning | src/main/java/com/example/tasterj/service/ProductService.java:168-184 | fails iff some ingredient name is null or a pattern the server refuses, reporting the first such name; otherwise the keys are exactly the names, and each list holds, in catalog order, one map per product whose name the pattern matches and whose price is 1 or more, and nothing else |
| ProductEndpoint.SearchEndpoint | src/main/java/com/example/tasterj/controller/ProductController.java:30-49 | more than 50 characters gives 400 and nothing else does; otherwise an empty page gives 404, a non-empty one 200 with the service result unchanged; missing page and page size default to 1 and 12 |
| ProductEndpoint.EmptyQueryNotFound | src/main/java/com/example/tasterj/controller/ProductController.java:44-46 | the empty query answers 404 |
| ProductEndpoint.PagePastEndNotFound | src/main/java/com/example/tasterj/controller/ProductController.java:44-46 | a page past the last one answers 404 however many products matched |
| IngredientMatch.MatchOne | src/main/java/com/example/tasterj/service/ProductMatchService.java:31-41 | fails iff some product name is null; otherwise it is the products whose lower-cased name contains the ingredient name and whose raw brand or raw vendor is listed |
| IngredientMatch.FindMatchesMeaning | src/main/java/com/example/tasterj/service/ProductMatchService.java:17-45 | fails iff some ingredient name is null, or there is an ingredient and some product name is null; otherwise a product is in the result iff some ingredient matches it |
| IngredientMatch.FindMatchesAppend | src/main/java/com/example/tasterj/service/ProductMatchService.java:24-42 | output is ingredient-major: the matches of a longer request are those of its first part followed by those of the rest |
| IngredientMatch.MatchMultiplicity | src/main/java/com/example/tasterj/service/ProductMatchService.java:31-40 | for one ingredient a product appears as often as in the catalog if matched, and not otherwise |
| IngredientMatch.UnlistedCategoryMatchesNothing | src/main/java/com/example/tasterj/service/ProductMatchService.java:28-29 | a category with no brand and no vendor list contributes no products |
| Recipes.CalculateCurrentPrice | src/main/java/com/example/tasterj/service/RecipeService.java:390-401 | the loop returns the sum of the products' current prices |
| Recipes.TotalIsFetchedSum | src/main/java/com/example/tasterj/service/RecipeService.java:115-138 | the running total built while mapping ingredients equals the sum over the products `fetchProductsForIngredients` finds; unresolved ingredients add 0 |
| Recipes.FetchedSumAtLeastCount | src/main/java/com/example/tasterj/service/RecipeService.java:128-135 | each resolved ingredient adds at least 1 to the total |
| Recipes.Round2 | src/main/java/com/example/tasterj/service/RecipeService.java:385-388 | the result is a whole number of cents within half a cent of the input, with a tie rounded away from zero |
| Recipes.Round2Unique | src/main/java/com/example/tasterj/service/RecipeService.java:385-388 | these three properties determine the result, so `Round2` is exactly HALF_UP at scale 2 |
| Recipes.Round2Idempotent | src/main/java/com/example/tasterj/service/RecipeService.java:385-388 | rounding twice equals rounding once |
| Recipes.Round2KeepsCents | src/main/java/com/example/tasterj/service/RecipeService.java:385-388 | a whole number of cents is left unchanged |
| Recipes.RefreshedWithinTolerance | src/main/java/com/example/tasterj/service/RecipeService.java:212-214 | after the rule runs, the stored price equals the new total or is a non-zero price within 5% of it |
| Recipes.RefreshedIdempotent | src/main/java/com/example/tasterj/service/RecipeService.java:212-214 | applying the rule again with the same total leaves the stored price unchanged |
| Recipes.CreateRecipe | src/main/java/com/example/tasterj/service/RecipeService.java:99-150 | an anonymous caller gets UNAUTHORIZED and is the only caller refused: every signed-in caller succeeds and owns the new recipe, which is stored under its id; its name, description, instructions and tags are the request's; each ingredient is built from its request entry with a fresh id; its current and stored prices both equal the ingredient total; it is created now and is not public; and its image URL is the given one when that is non-empty, and none otherwise |
| Recipes.Authorize | src/main/java/com/example/tasterj/service/RecipeService.java:155-166 | UNAUTHORIZED without a caller, then NOT_FOUND for a missing recipe, then FORBIDDEN for another user's recipe; success exactly for the owner |
| Recipes.ApplyUpdate | src/main/java/com/example/tasterj/service/RecipeService.java:168-221 | null fields keep their value; null ingredients keep ingredients and prices; new ingredients are built one per request entry with fresh ids, set the current price to their total, and move the stored price iff the five-percent rule says so; the image URL changes only for a non-empty value |
| Recipes.UpdateRecipe | src/main/java/com/example/tasterj/service/RecipeService.java:154-224 | fails exactly as the owner check does; on success only that recipe's entry changes |
| Recipes.EmptyUpdateIsIdentity | src/main/java/com/example/tasterj/service/RecipeService.java:168-181 | a request with every field null leaves the recipe unchanged |
| Recipes.UpdateIdempotent | src/main/java/com/example/tasterj/service/RecipeService.java:168-221 | sending the same update twice has the effect of sending it once |
| Recipes.DeleteRecipe | src/main/java/com/example/tasterj/service/RecipeService.java:228-253 | fails exactly as the owner check does; on success that recipe, and nothing else, leaves the table |
| Recipes.CreateThenDelete | src/main/java/com/example/tasterj/service/RecipeService.java:99-150 | the creator can delete what they created, which restores the table when the id was unused |
| Recipes.GetRecipeById | src/main/java/com/example/tasterj/service/RecipeService.java:61-70 | NOT_FOUND for a missing recipe; otherwise only the prices and the update time change: the current price is the rounded sum, and the stored price becomes that rounding iff the five-percent rule on the unrounded sum says so |
| Recipes.RepriceStable | src/main/java/com/example/tasterj/service/RecipeService.java:371-383 | repricing again against the same catalog changes nothing |
| Recipes.ChooseSort | src/main/java/com/example/tasterj/service/RecipeService.java:348-358 | "price" and "date" (ignoring case) select stored price and creation time, descending iff the direction is "desc"; any other value is refused |
| Recipes.ChooseSortIgnoresCase | src/main/java/com/example/tasterj/service/RecipeService.java:348-358 | the choice depends only on the lower-cased parameters |
| Recipes.TrimEmptyIffBlank | src/main/java/com/example/tasterj/service/RecipeService.java:363 | `trim()` leaves nothing iff every character is at most U+0020 |
| Recipes.ChooseQuery | src/main/java/com/example/tasterj/service/RecipeService.java:363-365 | a null or blank query uses the price-only query; any other uses the name/tags query with the query unchanged |
| Votes.Requested | src/main/java/com/example/tasterj/service/VoteService.java:51 | null, true and false map to NONE, UPVOTE and DOWNVOTE |
| Votes.Vote | src/main/java/com/example/tasterj/service/VoteService.java:36-72 | a missing recipe fails first, then a missing user; afterwards the pair has the requested vote, or none for null, and every other pair is unchanged; the action is create, update, delete or nothing according to whether a vote existed and whether null was sent |
| Votes.VoteKeepsNoneFree | src/main/java/com/example/tasterj/service/VoteService.java:56-70 | no stored vote is ever NONE, and `vote` preserves this |
| Votes.VoteIdempotent | src/main/java/com/example/tasterj/service/VoteService.java:36-72 | repeating a vote changes nothing more |
| Votes.VoteThenWithdraw | src/main/java/com/example/tasterj/service/VoteService.java:54-70 | casting a first vote and then sending null restores the table |
| Votes.RecipeWithVotes | src/main/java/com/example/tasterj/service/VoteService.java:81-103 | fails for a missing recipe; the counts are the recipe's UPVOTE and DOWNVOTE votes; the caller's vote is NONE for an anonymous caller or one with no vote, and otherwise the stored one |
| Votes.VoteMovesScore | src/main/java/com/example/tasterj/service/VoteService.java:36-72 | a vote changes its recipe's upvotes minus downvotes by the new vote's value minus the old one's, and leaves every other recipe's counts alone |
| Favorites.CreateFavorite | src/main/java/com/example/tasterj/service/FavoriteService.java:22-30 | an existing pair gives BAD_REQUEST; otherwise exactly that pair is added, after which the check is true |
| Favorites.DeleteFavorite | src/main/java/com/example/tasterj/service/FavoriteService.java:32-37 | a missing pair gives NOT_FOUND; otherwise the pair is gone and every other pair is kept as often as before |
| Favorites.CreateKeepsNoDuplicates | src/main/java/com/example/tasterj/service/FavoriteService.java:22-30 | creating keeps every pair stored at most once |
| Favorites.DeleteKeepsNoDuplicates | src/main/java/com/example/tasterj/service/FavoriteService.java:32-37 | deleting keeps every pair stored at most once |
| Favorites.CreateThenDelete | src/main/java/com/example/tasterj/service/FavoriteService.java:22-37 | creating a new pair and then deleting it restores the original rows |
| Images.LastIndexOf | src/main/java/com/example/tasterj/service/ImageService.java:92 | `lastIndexOf` finds the character iff it occurs, at an index after which it does not occur again |
| Images.ExtractFilename | src/main/java/com/example/tasterj/service/ImageService.java:90-96 | fails for a null URL or one without '/'; otherwise the result has no '/' and is what follows some '/' of the URL |
| Images.UploadThenExtract | src/main/java/com/example/tasterj/service/ImageService.java:34-57 | when neither the UUID nor the original name holds a '/', extracting from the uploaded URL gives back `uuid + "_" + original` |
| Images.TrailingSlashGivesEmptyName | src/main/java/com/example/tasterj/service/ImageService.java:92 | a URL ending in '/' gives the empty file name |
| Images.SlashInOriginalIsLost | src/main/java/com/example/tasterj/service/ImageService.java:34 | for every original name holding a '/', extracting from the uploaded URL gives only the part after its last '/', which is not the stored file name |

## Left out

- Catalog ingestion (`ProductDataService`), `ProductCacheService` and `ProductFetchService`: HTTP paging, caching and pass-through I/O, with no rules of their own.
- `ProductSearchService.init`/`loadJson`: classpath JSON loading; the catalog is a parameter instead.
- The HTTP calls of `ImageService.uploadImage`/`deleteImage`: only the URL strings are modelled.
- Security, Redis and Mongo configuration, the JWT filter, and the other controllers: framework wiring and HTTP mapping.
- The JPA repositories, and the JPQL queries behind `searchRecipes` (`findAllWithPriceFilter`, `findByNameOrTagsWithPriceFilter`): the model chooses the sort and the query but does not run them.
- Bean Validation annotations on the DTOs: the framework enforces them before the services run.
- `getRecipes`, `getUserRecipes`, the saved-recipe operations and `saveRecipe`: repository pass-through.
- Floating point: prices are exact reals. `double` addition, `BigDecimal.valueOf` string conversion and the double division in the page count are not modelled.
- Unicode: lower-casing, `equalsIgnoreCase` and `\s` are modelled on ASCII, and string lengths count characters rather than UTF-16 units.
- Catalog.FindByNameContaining: the regular-expression language is a parameter (`RegexEngine`), not interpreted; the model only knows that the pattern goes to the server unquoted, so one that does not compile fails the lookup.
- The catalog sequence stands for the database's natural order. `find().first()`, the result lists of `findByStoreCode` and `findByNameContaining`, and the skip/limit page are all read in that order. MongoDB promises no order without a sort, so in the running system the first hit and the page boundaries may differ between calls.
- ProductSearch.MatchingBrands: the order of `distinct` is taken to be the order of first appearance in the catalog, which the database does not promise; only the brand tie-break depends on it.
- MemorySearch.StoreText: a `store` key that is present with a null value makes the source throw; the model reads it like an absent store.
- Votes.RecipeWithVotes: the counts are unbounded naturals, not Java `int`.
- Votes.RecipeWithVotes: `getRecipeWithVotes` also calls `getRecipeById`, which reprices and saves the recipe, and the returned DTO carries that repriced recipe; the model returns only the counts and the caller's vote, and the repricing is `Recipes.GetRecipeById`.
- Votes.Vote: `getRecipeById` also reprices and saves the recipe on the way; the vote model sees only whether the recipe exists, and the repricing is `Recipes.GetRecipeById`.
- Recipe timestamps set by the persistence layer (`updatedAt`) are not modelled; `createdAt` and `priceLastUpdated` take the `now` parameter.
- `Ingredient` and `CreateIngredientDto` have no `storeCode`, `CreateRecipeDto` and `UpdateRecipeDto` have no `imageUrl`, and `VoteRepository` has no `findByUser_SupabaseUserIdAndRecipe_Id`, although the services call them. The model gives the data those fields would hold.
- `deleteRecipe`'s second look-up of the user id and its null check cannot change the outcome, because `toString()` never returns null; they are not modelled.

=== FILE: catalog.dfy ===
/** The product catalog as stored documents, their decoding into products,
    and the repository's lookups, each a pure function over the catalog. */
module Catalog {
  import opened Wrappers
  import opened Text
  import opened Seqs

  /** The `_id` of a stored document. */
  datatype IdField = NoId | ObjectId(hex: string) | TextId(text: string) | OtherId

  /** The `store` sub-document; `None` is a missing or null key. */
  datatype StoreDoc = StoreDoc(name: Option<string>, code: Option<string>, url: Option<string>, logo: Option<string>)

  /** One entry of the `category` array. */
  datatype CategoryDoc = CategoryDoc(id: Option<int>, depth: Option<int>, name: Option<string>)

  /** A product document as the catalog holds it, every field possibly missing. */
  datatype Doc = Doc(
    id: IdField,
    ean: Option<string>,
    name: Option<string>,
    brand: Option<string>,
    vendor: Option<string>,
    url: Option<string>,
    image: Option<string>,
    description: Option<string>,
    currentPrice: Option<real>,
    currentUnitPrice: Option<real>,
    weight: Option<real>,
    weightUnit: Option<string>,
    store: Option<StoreDoc>,
    category: Option<seq<CategoryDoc>>)

  datatype Store = Store(name: string, code: string, url: string, logo: string)

  datatype Category = Category(id: int, depth: int, name: string)

  /** The `Product` entity: only id, ean, name, store and category may be null. */
  datatype Product = Product(
    id: Option<string>,
    ean: Option<string>,
    name: Option<string>,
    brand: string,
    vendor: string,
    url: string,
    image: string,
    description: string,
    currentPrice: real,
    currentUnitPrice: real,
    weight: real,
    weightUnit: string,
    store: Option<Store>,
    category: Option<seq<Category>>)

  /** A string field that is `""` when missing. */
  predicate DefaultsTo(field: Option<string>, decoded: string) {
    if field.Some? then decoded == field.value else decoded == ""
  }

  /** A numeric field that is `0` when missing. */
  predicate DefaultsToZero(field: Option<real>, decoded: real) {
    if field.Some? then decoded == field.value else decoded == 0.0
  }

  function DecodeId(id: IdField): (r: Option<string>)
    ensures r.Some? <==> id.ObjectId? || id.TextId?
  {
    match id
    case ObjectId(hex) => Some(hex)
    case TextId(text) => Some(text)
    case _ => None
  }

  function DecodeStore(s: StoreDoc): (r: Store)
    ensures DefaultsTo(s.name, r.name) && DefaultsTo(s.code, r.code)
    ensures DefaultsTo(s.url, r.url) && DefaultsTo(s.logo, r.logo)
  {
    Store(s.name.GetOr(""), s.code.GetOr(""), s.url.GetOr(""), s.logo.GetOr(""))
  }

  function DecodeCategory(c: CategoryDoc): (r: Category)
    ensures (if c.id.Some? then r.id == c.id.value else r.id == 0)
    ensures (if c.depth.Some? then r.depth == c.depth.value else r.depth == 0)
    ensures DefaultsTo(c.name, r.name)
  {
    Category(c.id.GetOr(0), c.depth.GetOr(0), c.name.GetOr(""))
  }

  /** `documentToProduct`: missing strings become "", missing numbers 0;
      ean and name stay nullable; a missing store or category list stays unset,
      and each category entry is decoded in order. */
  function DocumentToProduct(d: Doc): (p: Product)
    ensures p.id == DecodeId(d.id) && p.ean == d.ean && p.name == d.name
    ensures DefaultsTo(d.brand, p.brand) && DefaultsTo(d.vendor, p.vendor)
    ensures DefaultsTo(d.url, p.url) && DefaultsTo(d.image, p.image)
    ensures DefaultsTo(d.description, p.description) && DefaultsTo(d.weightUnit, p.weightUnit)
    ensures DefaultsToZero(d.currentPrice, p.currentPrice)
    ensures DefaultsToZero(d.currentUnitPrice, p.currentUnitPrice)
    ensures DefaultsToZero(d.weight, p.weight)
    ensures p.store.Some? <==> d.store.Some?
    ensures d.store.Some? ==> p.store.value == DecodeStore(d.store.value)
    ensures p.category.Some? <==> d.category.Some?
    ensures d.category.Some? ==> |p.category.value| == |d.category.value|
    ensures d.category.Some? ==>
      forall k :: 0 <= k < |d.category.value| ==> p.category.value[k] == DecodeCategory(d.category.value[k])
  {
    Product(
      DecodeId(d.id), d.ean, d.name,
      d.brand.GetOr(""), d.vendor.GetOr(""), d.url.GetOr(""), d.image.GetOr(""),
      d.description.GetOr(""),
      d.currentPrice.GetOr(0.0), d.currentUnitPrice.GetOr(0.0), d.weight.GetOr(0.0),
      d.weightUnit.GetOr(""),
      if d.store.Some? then Some(DecodeStore(d.store.value)) else None,
      if d.category.Some? then Some(MapSeq(d.category.value, DecodeCategory)) else None)
  }

  /** A product written out as a response map: the product's id under the key
      "id", and the other entries in document form with no `_id` key. */
  datatype ProductMap = ProductMap(id: Option<string>, fields: Doc)

  /** `convertProductToMap`: the id goes under "id" (not "_id"), every other
      field is written, the store only when set, and an empty category list
      is left out. */
  function ProductToMap(p: Product): ProductMap {
    ProductMap(p.id, Doc(
      NoId, p.ean, p.name,
      Some(p.brand), Some(p.vendor), Some(p.url), Some(p.image), Some(p.description),
      Some(p.currentPrice), Some(p.currentUnitPrice), Some(p.weight), Some(p.weightUnit),
      if p.store.Some? then
        var s := p.store.value;
        Some(StoreDoc(Some(s.name), Some(s.code), Some(s.url), Some(s.logo)))
      else None,
      if p.category.Some? && |p.category.value| > 0 then
        Some(MapSeq(p.category.value, (c: Category) => CategoryDoc(Some(c.id), Some(c.depth), Some(c.name))))
      else None))
  }

  /** Reading a response map back: its "id" entry, and the other entries decoded
      as `documentToProduct` decodes a document. */
  function MapToProduct(m: ProductMap): Product {
    DocumentToProduct(m.fields).(id := m.id)
  }

  /** Reading back the map a product is written to recovers the product, id
      included, except that an empty category list comes back as none. */
  lemma {:induction false} DecodeProductMap(p: Product)
    ensures ProductToMap(p).id == p.id
    ensures MapToProduct(ProductToMap(p))
      == p.(category := if p.category == Some([]) then None else p.category)
  {
    var q := DocumentToProduct(ProductToMap(p).fields);
    if p.category.Some? && |p.category.value| > 0 {
      assert q.category.value == p.category.value;
    }
  }

  /** An empty category list does not survive the round trip. */
  lemma EmptyCategoryListLost(p: Product)
    requires p.category == Some([])
    ensures MapToProduct(ProductToMap(p)).category == None
  {
  }

  /** The repository's `gte("current_price", 1.0)`: a missing price never passes. */
  predicate PricedAtLeastOne(d: Doc) {
    d.currentPrice.Some? && d.currentPrice.value >= 1.0
  }

  /** The value the database sees at `store.code`; a missing store reads as null. */
  function StoreCode(d: Doc): Option<string> {
    if d.store.Some? then d.store.value.code else None
  }

  /** The first document satisfying `p`, in catalog order. */
  function FirstWhere(catalog: seq<Doc>, p: Doc -> bool): (r: Option<nat>)
    ensures r.Some? ==> r.value < |catalog| && p(catalog[r.value])
    ensures r.Some? ==> forall k :: 0 <= k < r.value ==> !p(catalog[k])
    ensures r.None? ==> forall k :: 0 <= k < |catalog| ==> !p(catalog[k])
    decreases |catalog|
  {
    if |catalog| == 0 then None
    else if p(catalog[0]) then Some(0)
    else
      var rest := FirstWhere(catalog[1..], p);
      if rest.Some? then Some(rest.value + 1) else None
  }

  /** The document passes `eq("ean", ean)` and the price floor; an equality
      test against null matches a missing or null field. */
  predicate EanMatches(d: Doc, ean: Option<string>) {
    d.ean == ean && PricedAtLeastOne(d)
  }

  predicate EanAndStoreMatch(d: Doc, ean: Option<string>, storeCode: Option<string>) {
    d.ean == ean && StoreCode(d) == storeCode && PricedAtLeastOne(d)
  }

  /** `findByEan`: the first product with that ean priced at 1 or more. */
  function FindByEan(catalog: seq<Doc>, ean: Option<string>): (r: Option<Product>)
    ensures r.None? <==> forall k :: 0 <= k < |catalog| ==> !EanMatches(catalog[k], ean)
    ensures r.Some? ==> (exists i :: 0 <= i < |catalog| && EanMatches(catalog[i], ean)
                                && (forall k :: 0 <= k < i ==> !EanMatches(catalog[k], ean))
                                && r.value == DocumentToProduct(catalog[i]))
    ensures r.Some? ==> r.value.ean == ean && r.value.currentPrice >= 1.0
  {
    var i := FirstWhere(catalog, d => EanMatches(d, ean));
    if i.Some? then Some(DocumentToProduct(catalog[i.value])) else None
  }

  /** `findByEanAndStoreCode`: the first product with that ean and store code
      priced at 1 or more. */
  function FindByEanAndStoreCode(catalog: seq<Doc>, ean: Option<string>, storeCode: Option<string>): (r: Option<Product>)
    ensures r.None? <==> forall k :: 0 <= k < |catalog| ==> !EanAndStoreMatch(catalog[k], ean, storeCode)
    ensures r.Some? ==> (exists i :: 0 <= i < |catalog| && EanAndStoreMatch(catalog[i], ean, storeCode)
                                && (forall k :: 0 <= k < i ==> !EanAndStoreMatch(catalog[k], ean, storeCode))
                                && r.value == DocumentToProduct(catalog[i]))
    ensures r.Some? ==> r.value.ean == ean && r.value.currentPrice >= 1.0
    ensures r.Some? && storeCode.Some? ==> r.value.store.Some? && r.value.store.value.code == storeCode.value
  {
    var i := FirstWhere(catalog, d => EanAndStoreMatch(d, ean, storeCode));
    if i.Some? then Some(DocumentToProduct(catalog[i.value])) else None
  }

  predicate StoreCodeMatches(d: Doc, storeCode: string) {
    StoreCode(d) == Some(storeCode) && PricedAtLeastOne(d)
  }

  /** `StoreCodeMatches` for one store code, as a test on documents. */
  function StoreCodeTest(storeCode: string): Doc -> bool {
    d => StoreCodeMatches(d, storeCode)
  }

  /** `r` holds the products of the documents at the positions `pos`, in that order. */
  predicate DecodedAt(r: seq<Product>, catalog: seq<Doc>, pos: seq<nat>) {
    |r| == |pos| && forall k :: 0 <= k < |r| ==> pos[k] < |catalog| && r[k] == DocumentToProduct(catalog[pos[k]])
  }

  /** Decoding the documents a test keeps gives the products at the test's positions. */
  lemma {:induction false} DecodeFiltered(catalog: seq<Doc>, test: Doc -> bool)
    ensures DecodedAt(MapSeq(Filter(catalog, test), DocumentToProduct), catalog, Positions(catalog, test))
  {
    FilterAtPositions(catalog, test);
  }

  /** Products decoded at the passing positions include every passing document's product. */
  lemma {:induction false} DecodedAtComplete(r: seq<Product>, catalog: seq<Doc>, test: Doc -> bool)
    requires DecodedAt(r, catalog, Positions(catalog, test))
    ensures forall i :: 0 <= i < |catalog| && test(catalog[i]) ==> DocumentToProduct(catalog[i]) in r
  {
    var pos := Positions(catalog, test);
    forall i | 0 <= i < |catalog| && test(catalog[i])
      ensures DocumentToProduct(catalog[i]) in r
    {
      var k :| 0 <= k < |pos| && pos[k] == i;
      assert r[k] == DocumentToProduct(catalog[i]);
    }
  }

  /** `findByStoreCode`: every product of that store priced at 1 or more, one
      per matching document, in catalog order. */
  function FindByStoreCode(catalog: seq<Doc>, storeCode: string): (r: seq<Product>)
    ensures forall k :: 0 <= k < |r| ==>
      r[k].store.Some? && r[k].store.value.code == storeCode && r[k].currentPrice >= 1.0
    ensures forall k :: 0 <= k < |catalog| && StoreCodeMatches(catalog[k], storeCode) ==>
      DocumentToProduct(catalog[k]) in r
    ensures DecodedAt(r, catalog, Positions(catalog, StoreCodeTest(storeCode)))
  {
    var test := StoreCodeTest(storeCode);
    var r := MapSeq(Filter(catalog, test), DocumentToProduct);
    DecodeFiltered(catalog, test);
    DecodedAtComplete(r, catalog, test);
    r
  }

  /** The database's case-insensitive regular expressions: `compiles(pattern)`
      says whether the server accepts a pattern, and `matches(pattern, name)`
      whether an accepted pattern matches a name. */
  datatype RegexEngine = RegexEngine(compiles: string -> bool, matches: (string, string) -> bool)

  /** The server refuses a query whose pattern does not compile. */
  datatype QueryError = InvalidPattern

  /** The document passes `regex("name", pattern, "i")` and the price floor;
      a missing name never matches. */
  predicate NameMatches(d: Doc, pattern: string, regex: RegexEngine) {
    d.name.Some? && regex.matches(pattern, d.name.value) && PricedAtLeastOne(d)
  }

  /** `NameMatches` for one pattern, as a test on documents. */
  function NameTest(pattern: string, regex: RegexEngine): Doc -> bool {
    d => NameMatches(d, pattern, regex)
  }

  /** `findByNameContaining`: the pattern is passed to the server unquoted, so
      one that does not compile is refused; otherwise every product whose name
      the pattern matches, priced at 1 or more, one per matching document, in
      catalog order. */
  function FindByNameContaining(catalog: seq<Doc>, pattern: string, regex: RegexEngine)
    : (r: Result<seq<Product>, QueryError>)
    ensures r.Failure? <==> !regex.compiles(pattern)
    ensures r.Success? ==> forall k :: 0 <= k < |r.value| ==>
      r.value[k].name.Some? && regex.matches(pattern, r.value[k].name.value) && r.value[k].currentPrice >= 1.0
    ensures r.Success? ==> forall k :: 0 <= k < |catalog| && NameMatches(catalog[k], pattern, regex) ==>
      DocumentToProduct(catalog[k]) in r.value
    ensures r.Success? ==> DecodedAt(r.value, catalog, Positions(catalog, NameTest(pattern, regex)))
  {
    if !regex.compiles(pattern) then Failure(InvalidPattern)
    else
      var test := NameTest(pattern, regex);
      var r := MapSeq(Filter(catalog, test), DocumentToProduct);
      DecodeFiltered(catalog, test);
      DecodedAtComplete(r, catalog, test);
      Success(r)
  }
}

=== FILE: favorites.dfy ===
/** `FavoriteService`: the favorites table as a sequence of (user id, recipe
    id) rows, with the check, create and delete operations. */
module Favorites {
  import opened Wrappers
  import opened Seqs

  /** A favorite row: (user id, recipe id). */
  type Row = (string, string)

  datatype FavoriteError =
    /** BAD_REQUEST: the favorite already exists. */
    | AlreadyExists
    /** NOT_FOUND: there is no such favorite. */
    | NoSuchFavorite

  /** `checkFavorite`. */
  predicate CheckFavorite(rows: seq<Row>, user: string, recipe: string) {
    (user, recipe) in rows
  }

  /** `createFavorite`: refuses an existing pair, otherwise saves one new row. */
  function CreateFavorite(rows: seq<Row>, user: string, recipe: string): (r: Result<seq<Row>, FavoriteError>)
    ensures r.Failure? <==> CheckFavorite(rows, user, recipe)
    ensures r.Failure? ==> r.error == AlreadyExists
    ensures r.Success? ==> multiset(r.value) == multiset(rows) + multiset{(user, recipe)}
    ensures r.Success? ==> CheckFavorite(r.value, user, recipe)
  {
    if CheckFavorite(rows, user, recipe) then Failure(AlreadyExists)
    else
      var after := rows + [(user, recipe)];
      assert after[|rows|] == (user, recipe);
      Success(after)
  }

  /** `deleteFavorite`: refuses a missing pair, otherwise deletes every row of the pair. */
  function DeleteFavorite(rows: seq<Row>, user: string, recipe: string): (r: Result<seq<Row>, FavoriteError>)
    ensures r.Failure? <==> !CheckFavorite(rows, user, recipe)
    ensures r.Failure? ==> r.error == NoSuchFavorite
    ensures r.Success? ==> !CheckFavorite(r.value, user, recipe)
    ensures r.Success? ==> forall x :: x != (user, recipe) ==> multiset(r.value)[x] == multiset(rows)[x]
  {
    if !CheckFavorite(rows, user, recipe) then Failure(NoSuchFavorite)
    else
      var p := (x: Row) => x != (user, recipe);
      var after := Filter(rows, p);
      assert forall x :: x != (user, recipe) ==> multiset(after)[x] == multiset(rows)[x] by {
        forall x | x != (user, recipe)
          ensures multiset(after)[x] == multiset(rows)[x]
        {
          FilterCount(rows, p, x);
        }
      }
      Success(after)
  }

  /** No pair is stored twice. */
  predicate NoDuplicates(rows: seq<Row>) {
    Distinct(rows)
  }

  lemma {:induction false} CreateKeepsNoDuplicates(rows: seq<Row>, user: string, recipe: string)
    requires NoDuplicates(rows)
    requires CreateFavorite(rows, user, recipe).Success?
    ensures NoDuplicates(CreateFavorite(rows, user, recipe).value)
  {
    var after := rows + [(user, recipe)];
    assert forall i :: 0 <= i < |rows| ==> after[i] == rows[i];
  }

  lemma {:induction false} DeleteKeepsNoDuplicates(rows: seq<Row>, user: string, recipe: string)
    requires NoDuplicates(rows)
    requires DeleteFavorite(rows, user, recipe).Success?
    ensures NoDuplicates(DeleteFavorite(rows, user, recipe).value)
  {
    var p := (x: Row) => x != (user, recipe);
    FilterKeepsDistinct(rows, p);
  }

  lemma {:induction false} FilterKeepsDistinct<T>(xs: seq<T>, p: T -> bool)
    requires Distinct(xs)
    ensures Distinct(Filter(xs, p))
    decreases |xs|
  {
    if |xs| > 0 {
      assert Distinct(xs[1..]) by {
        forall i, j | 0 <= i < j < |xs[1..]|
          ensures xs[1..][i] != xs[1..][j]
        {
          assert xs[1..][i] == xs[i + 1] && xs[1..][j] == xs[j + 1];
        }
      }
      FilterKeepsDistinct(xs[1..], p);
      var rest := Filter(xs[1..], p);
      assert xs[0] !in xs[1..];
    }
  }

  /** Adding a new pair and deleting it again gives back the original rows. */
  lemma {:induction false} CreateThenDelete(rows: seq<Row>, user: string, recipe: string)
    requires !CheckFavorite(rows, user, recipe)
    ensures var created := CreateFavorite(rows, user, recipe).value;
      DeleteFavorite(created, user, recipe) == Success(rows)
  {
    var created := rows + [(user, recipe)];
    var p := (x: Row) => x != (user, recipe);
    assert created[|rows|] == (user, recipe);
    assert CheckFavorite(created, user, recipe);
    FilterAppendOne(rows, (user, recipe), p);
    assert forall k :: 0 <= k < |rows| ==> p(rows[k]);
    FilterAll(rows, p);
    assert CreateFavorite(rows, user, recipe).value == created;
    assert Filter(created, p) == rows + [];
    assert rows + [] == rows;
  }

  lemma {:induction false} FilterAppendOne<T>(xs: seq<T>, x: T, p: T -> bool)
    ensures Filter(xs + [x], p) == Filter(xs, p) + (if p(x) then [x] else [])
    decreases |xs|
  {
    if |xs| == 0 {
      assert xs + [x] == [x];
      assert [x][1..] == [];
    } else {
      assert (xs + [x])[1..] == xs[1..] + [x];
      assert (xs + [x])[0] == xs[0];
      FilterAppendOne(xs[1..], x, p);
    }
  }
}

=== FILE: filters.dfy ===
/** The few database filters the production search builds, as a small syntax
    tree with its meaning over one catalog document: case-insensitive regular
    expressions on a quoted literal, `$or`, `$and`, `$in` and the empty filter. */
module Filters {
  import opened Wrappers
  import opened Text
  import opened Seqs
  import opened Catalog

  /** The document paths the search filters on. */
  datatype Path = NamePath | BrandPath | CategoryNamePath | StoreNamePath

  /** A case-insensitive pattern around `Pattern.quote(literal)`: anchored as
      `^…$`, or unanchored. */
  datatype Pattern = WholeValue(literal: string) | Anywhere(literal: string)

  datatype Bson =
    | Regex(path: Path, pattern: Pattern)
    | AnyOf(alts: seq<Bson>)
    | AllOf(parts: seq<Bson>)
    | In(path: Path, values: seq<string>)
    | Everything

  /** The names of the category entries that have one, in order. */
  function CategoryNames(cs: seq<CategoryDoc>): (r: seq<string>)
    ensures forall k :: 0 <= k < |r| ==> exists j :: 0 <= j < |cs| && cs[j].name == Some(r[k])
    ensures forall j :: 0 <= j < |cs| && cs[j].name.Some? ==> cs[j].name.value in r
  {
    var named := Filter(cs, (c: CategoryDoc) => c.name.Some?);
    var r := MapSeq(named, (c: CategoryDoc) => c.name.GetOr(""));
    assert forall j :: 0 <= j < |cs| && cs[j].name.Some? ==>
      exists i :: 0 <= i < |named| && named[i] == cs[j] && r[i] == cs[j].name.value;
    r
  }

  /** The string values a path reaches in a document; a missing or null field
      reaches none. */
  function ValuesAt(d: Doc, path: Path): seq<string> {
    match path
    case NamePath => if d.name.Some? then [d.name.value] else []
    case BrandPath => if d.brand.Some? then [d.brand.value] else []
    case StoreNamePath =>
      if d.store.Some? && d.store.value.name.Some? then [d.store.value.name.value] else []
    case CategoryNamePath => if d.category.Some? then CategoryNames(d.category.value) else []
  }

  /** Case-insensitive matching of a quoted literal. The anchored form also
      accepts one trailing line feed, which `$` lets through. */
  predicate PatternMatches(p: Pattern, v: string) {
    match p
    case WholeValue(s) => Lower(v) == Lower(s) || Lower(v) == Lower(s) + "\n"
    case Anywhere(s) => Contains(Lower(v), Lower(s))
  }

  /** The database refuses `$or` and `$and` with no entries. */
  predicate WellFormed(f: Bson)
    decreases f
  {
    match f
    case AnyOf(alts) => |alts| > 0 && forall k :: 0 <= k < |alts| ==> WellFormed(alts[k])
    case AllOf(parts) => |parts| > 0 && forall k :: 0 <= k < |parts| ==> WellFormed(parts[k])
    case _ => true
  }

  /** The document passes the filter. */
  predicate Eval(f: Bson, d: Doc)
    decreases f
  {
    match f
    case Regex(path, p) =>
      exists k :: 0 <= k < |ValuesAt(d, path)| && PatternMatches(p, ValuesAt(d, path)[k])
    case AnyOf(alts) => exists k :: 0 <= k < |alts| && Eval(alts[k], d)
    case AllOf(parts) => forall k :: 0 <= k < |parts| ==> Eval(parts[k], d)
    case In(path, values) => exists k :: 0 <= k < |ValuesAt(d, path)| && ValuesAt(d, path)[k] in values
    case Everything => true
  }

  /** Every filter of the list passes; `$and` over the list. */
  predicate AllPass(fs: seq<Bson>, d: Doc) {
    forall k :: 0 <= k < |fs| ==> Eval(fs[k], d)
  }

  predicate AllWellFormed(fs: seq<Bson>) {
    forall k :: 0 <= k < |fs| ==> WellFormed(fs[k])
  }

  /** `$and` over two lists joined is `$and` over each. */
  lemma {:induction false} AllPassConcat(a: seq<Bson>, b: seq<Bson>, d: Doc)
    ensures AllPass(a + b, d) <==> AllPass(a, d) && AllPass(b, d)
    ensures AllWellFormed(a + b) <==> AllWellFormed(a) && AllWellFormed(b)
  {
    assert forall k :: 0 <= k < |a| ==> (a + b)[k] == a[k];
    assert forall k :: 0 <= k < |b| ==> (a + b)[|a| + k] == b[k];
    if AllPass(a, d) && AllPass(b, d) {
      forall k | 0 <= k < |a + b|
        ensures Eval((a + b)[k], d)
      {
        if k >= |a| {
          assert (a + b)[k] == b[k - |a|];
        }
      }
    }
    if AllWellFormed(a) && AllWellFormed(b) {
      forall k | 0 <= k < |a + b|
        ensures WellFormed((a + b)[k])
      {
        if k >= |a| {
          assert (a + b)[k] == b[k - |a|];
        }
      }
    }
  }

  /** A regular expression on a path that reaches exactly one value tests that
      value; on a path that reaches none it fails. */
  lemma {:induction false} RegexOnValues(d: Doc, path: Path, p: Pattern)
    ensures |ValuesAt(d, path)| == 1 ==>
      (Eval(Regex(path, p), d) <==> PatternMatches(p, ValuesAt(d, path)[0]))
    ensures |ValuesAt(d, path)| == 0 ==> !Eval(Regex(path, p), d)
  {
  }

  /** `$in` on a path that reaches exactly one value tests that value; on a
      path that reaches none it fails. */
  lemma {:induction false} InOnValues(d: Doc, path: Path, values: seq<string>)
    ensures |ValuesAt(d, path)| == 1 ==> (Eval(In(path, values), d) <==> ValuesAt(d, path)[0] in values)
    ensures |ValuesAt(d, path)| == 0 ==> !Eval(In(path, values), d)
  {
  }

  /** An unanchored pattern on the category names matches when some named
      category contains the literal. */
  lemma {:induction false} CategoryRegex(d: Doc, s: string)
    ensures Eval(Regex(CategoryNamePath, Anywhere(s)), d) <==>
      d.category.Some? &&
      exists j :: 0 <= j < |d.category.value| && CategoryHas(d.category.value[j], s)
  {
    if d.category.Some? {
      var cs := d.category.value;
      var names := CategoryNames(cs);
      assert ValuesAt(d, CategoryNamePath) == names;
      if Eval(Regex(CategoryNamePath, Anywhere(s)), d) {
        CategoryRegexSound(cs, s);
      }
      if exists j :: 0 <= j < |cs| && CategoryHas(cs[j], s) {
        CategoryRegexComplete(cs, s);
      }
    }
  }

  lemma {:induction false} CategoryRegexSound(cs: seq<CategoryDoc>, s: string)
    requires exists k :: 0 <= k < |CategoryNames(cs)| && PatternMatches(Anywhere(s), CategoryNames(cs)[k])
    ensures exists j :: 0 <= j < |cs| && CategoryHas(cs[j], s)
  {
    var names := CategoryNames(cs);
    var k :| 0 <= k < |names| && PatternMatches(Anywhere(s), names[k]);
    var j :| 0 <= j < |cs| && cs[j].name == Some(names[k]);
    assert CategoryHas(cs[j], s);
  }

  lemma {:induction false} CategoryRegexComplete(cs: seq<CategoryDoc>, s: string)
    requires exists j :: 0 <= j < |cs| && CategoryHas(cs[j], s)
    ensures exists k :: 0 <= k < |CategoryNames(cs)| && PatternMatches(Anywhere(s), CategoryNames(cs)[k])
  {
    var names := CategoryNames(cs);
    var j :| 0 <= j < |cs| && CategoryHas(cs[j], s);
    var v := cs[j].name.value;
    assert v in names;
    var k :| 0 <= k < |names| && names[k] == v;
    assert PatternMatches(Anywhere(s), names[k]);
  }

  /** The category entry has a name that contains `s`, ignoring case. */
  predicate CategoryHas(c: CategoryDoc, s: string) {
    c.name.Some? && Contains(Lower(c.name.value), Lower(s))
  }
}

=== FILE: images.dfy ===
/** `ImageService`: the public URL an upload returns and the file name that a
    delete recovers from such a URL. The HTTP calls are not modelled. */
module Images {
  import opened Wrappers

  datatype ImageError = InvalidImageUrl(url: Option<string>)

  /** `String.lastIndexOf(c)`. */
  function LastIndexOf(s: string, c: char): (r: Option<nat>)
    ensures r.None? <==> c !in s
    ensures r.Some? ==> r.value < |s| && s[r.value] == c && c !in s[r.value + 1..]
    decreases |s|
  {
    if |s| == 0 then None
    else if s[|s| - 1] == c then
      assert s[|s|..] == [];
      Some(|s| - 1)
    else
      var init := s[..|s| - 1];
      var r := LastIndexOf(init, c);
      assert s == init + [s[|s| - 1]];
      if r.Some? then
        assert s[r.value + 1..] == init[r.value + 1..] + [s[|s| - 1]];
        r
      else r
  }

  /** `extractFilenameFromUrl`: what follows the last '/'. */
  function ExtractFilename(url: Option<string>): (r: Result<string, ImageError>)
    ensures r.Failure? <==> url.None? || '/' !in url.value
    ensures r.Success? ==> '/' !in r.value
    ensures r.Success? ==> exists i :: 0 <= i < |url.value| && url.value[i] == '/' && url.value[i + 1..] == r.value
  {
    if url.None? then Failure(InvalidImageUrl(url))
    else
      var slash := LastIndexOf(url.value, '/');
      if slash.None? then Failure(InvalidImageUrl(url)) else Success(url.value[slash.value + 1..])
  }

  /** `UUID + "_" + originalFilename`; a null original name prints as "null". */
  function GeneratedFilename(uuid: string, original: Option<string>): string {
    uuid + "_" + original.GetOr("null")
  }

  /** The URL `uploadImage` returns on success. */
  function UploadedUrl(baseUrl: string, bucket: string, uuid: string, original: Option<string>): string {
    baseUrl + "/storage/v1/object/" + bucket + "/" + GeneratedFilename(uuid, original)
  }

  /** If neither the UUID nor the original name holds a '/', the delete path
      recovers exactly the stored file name from the returned URL. */
  lemma {:induction false} UploadThenExtract(baseUrl: string, bucket: string, uuid: string, original: Option<string>)
    requires '/' !in uuid
    requires original.Some? ==> '/' !in original.value
    ensures ExtractFilename(Some(UploadedUrl(baseUrl, bucket, uuid, original)))
      == Success(GeneratedFilename(uuid, original))
  {
    var name := GeneratedFilename(uuid, original);
    var prefix := baseUrl + "/storage/v1/object/" + bucket;
    var url := UploadedUrl(baseUrl, bucket, uuid, original);
    assert url == prefix + "/" + name;
    assert '/' !in "null";
    assert '/' !in name by {
      forall i | 0 <= i < |name|
        ensures name[i] != '/'
      {
        if i < |uuid| {
          assert name[i] == uuid[i];
        } else if i > |uuid| {
          assert name[i] == original.GetOr("null")[i - |uuid| - 1];
        }
      }
    }
    var slash := LastIndexOf(url, '/');
    assert url[|prefix|] == '/';
    assert slash.value == |prefix|;
    assert url[|prefix| + 1..] == name;
  }

  /** A URL ending in '/' gives the empty file name. */
  lemma {:induction false} TrailingSlashGivesEmptyName(url: string)
    requires |url| > 0 && url[|url| - 1] == '/'
    ensures ExtractFilename(Some(url)) == Success("")
  {
  }

  /** An original name holding a '/' does not survive the round trip: only
      the part after its last '/' comes back, which is not the stored name. */
  lemma {:induction false} SlashInOriginalIsLost(baseUrl: string, bucket: string, uuid: string, original: string)
    requires '/' in original
    ensures var slash := LastIndexOf(original, '/');
      && slash.Some?
      && ExtractFilename(Some(UploadedUrl(baseUrl, bucket, uuid, Some(original))))
         == Success(original[slash.value + 1..])
    ensures ExtractFilename(Some(UploadedUrl(baseUrl, bucket, uuid, Some(original))))
      != Success(GeneratedFilename(uuid, Some(original)))
  {
    var i := LastIndexOf(original, '/').value;
    var head, tail := original[..i], original[i + 1..];
    assert original == head + "/" + tail;
    var prefix := baseUrl + "/storage/v1/object/" + bucket + "/" + uuid + "_" + head;
    var url := UploadedUrl(baseUrl, bucket, uuid, Some(original));
    assert url == prefix + "/" + tail;
    ExtractAfterLastSlash(prefix, tail);
    assert |tail| < |GeneratedFilename(uuid, Some(original))|;
  }

  /** The file name is everything after a '/' that is the last one. */
  lemma {:induction false} ExtractAfterLastSlash(prefix: string, tail: string)
    requires '/' !in tail
    ensures ExtractFilename(Some(prefix + "/" + tail)) == Success(tail)
  {
    var url := prefix + "/" + tail;
    var slash := LastIndexOf(url, '/');
    assert url[|prefix|] == '/';
    assert url[|prefix| + 1..] == tail;
    assert slash.value == |prefix|;
  }
}

=== FILE: ingredient_match.dfy ===
/** `ProductMatchService.findMatches`: products of the bundled catalog whose
    name contains an ingredient's name and whose brand or vendor is listed for
    the ingredient's category. The brand and vendor lists are parameters. */
module IngredientMatch {
  import opened Wrappers
  import opened Text
  import opened Seqs
  import opened Catalog

  /** One request entry: its `ingredient` and `category` values, either possibly missing. */
  datatype IngredientQuery = IngredientQuery(name: Option<string>, category: Option<string>)

  /** Brand or vendor lists per category; the category key itself may be null. */
  type Listing = map<Option<string>, seq<Option<string>>>

  /** A null ingredient name or a null product name is dereferenced. */
  datatype MatchError = NullDereference

  /** `getOrDefault(category, new ArrayList<>())`. */
  function Listed(m: Listing, category: Option<string>): seq<Option<string>> {
    if category in m then m[category] else []
  }

  /** The product is emitted for the ingredient: its lower-cased name contains
      the lower-cased ingredient name, and its raw brand or raw vendor is listed. */
  predicate Emitted(d: Doc, name: string, brands: seq<Option<string>>, vendors: seq<Option<string>>) {
    d.name.Some? && Contains(Lower(d.name.value), Lower(name)) && (d.brand in brands || d.vendor in vendors)
  }

  /** The inner loop over the products for one ingredient. */
  function MatchOne(products: seq<Doc>, name: string, brands: seq<Option<string>>, vendors: seq<Option<string>>)
    : (r: Result<seq<Doc>, MatchError>)
    ensures r.Failure? <==> exists k :: 0 <= k < |products| && products[k].name.None?
    ensures r.Success? ==> r.value == Filter(products, (d: Doc) => Emitted(d, name, brands, vendors))
    decreases |products|
  {
    if |products| == 0 then Success([])
    else if products[0].name.None? then Failure(NullDereference)
    else
      var rest := MatchOne(products[1..], name, brands, vendors);
      assert forall k :: 1 <= k < |products| ==> products[k] == products[1..][k - 1];
      if rest.Failure? then rest
      else if Emitted(products[0], name, brands, vendors) then Success([products[0]] + rest.value)
      else rest
  }

  /** The outer loop over the ingredients. */
  function FindMatches(products: seq<Doc>, brands: Listing, vendors: Listing, ings: seq<IngredientQuery>)
    : Result<seq<Doc>, MatchError>
    decreases |ings|
  {
    if |ings| == 0 then Success([])
    else if ings[0].name.None? then Failure(NullDereference)
    else
      var ing := ings[0];
      var here := MatchOne(products, ing.name.value, Listed(brands, ing.category), Listed(vendors, ing.category));
      if here.Failure? then Failure(NullDereference)
      else
        var rest := FindMatches(products, brands, vendors, ings[1..]);
        if rest.Failure? then rest else Success(here.value + rest.value)
  }

  /** Some entry has a null name. */
  predicate SomeNullName(ings: seq<IngredientQuery>) {
    exists i :: 0 <= i < |ings| && ings[i].name.None?
  }

  /** Some product has a null name. */
  predicate SomeNullProduct(products: seq<Doc>) {
    exists k :: 0 <= k < |products| && products[k].name.None?
  }

  /** Some entry of the request matches the product. */
  predicate MatchedByAny(d: Doc, ings: seq<IngredientQuery>, brands: Listing, vendors: Listing) {
    exists i :: 0 <= i < |ings| && Matched(d, ings[i], brands, vendors)
  }

  /** The request fails exactly on a null ingredient name, or on a null
      product name once there is an ingredient to look for; otherwise a
      product is in the result exactly when it is in the catalog and some
      ingredient matches it. */
  lemma {:induction false} FindMatchesMeaning(products: seq<Doc>, brands: Listing, vendors: Listing,
                                              ings: seq<IngredientQuery>)
    ensures var r := FindMatches(products, brands, vendors, ings);
      r.Failure? <==> SomeNullName(ings) || (|ings| > 0 && SomeNullProduct(products))
    ensures var r := FindMatches(products, brands, vendors, ings);
      r.Success? ==> forall d :: d in r.value <==> d in products && MatchedByAny(d, ings, brands, vendors)
    decreases |ings|
  {
    var r := FindMatches(products, brands, vendors, ings);
    if |ings| > 0 {
      var ing := ings[0];
      var tail := ings[1..];
      assert forall i :: 1 <= i < |ings| ==> ings[i] == tail[i - 1];
      assert SomeNullName(ings) <==> ing.name.None? || SomeNullName(tail);
      if ing.name.Some? {
        var p := (x: Doc) => Emitted(x, ing.name.value, Listed(brands, ing.category), Listed(vendors, ing.category));
        var here := MatchOne(products, ing.name.value, Listed(brands, ing.category), Listed(vendors, ing.category));
        if here.Success? {
          FindMatchesMeaning(products, brands, vendors, tail);
          var rest := FindMatches(products, brands, vendors, tail);
          if rest.Success? {
            forall d
              ensures d in r.value <==> d in products && MatchedByAny(d, ings, brands, vendors)
            {
              FilterMember(products, p, d);
              assert MatchedByAny(d, ings, brands, vendors) <==>
                Matched(d, ing, brands, vendors) || MatchedByAny(d, tail, brands, vendors);
            }
          }
        }
      }
    }
  }

  /** The product is emitted for this request entry. */
  predicate Matched(d: Doc, ing: IngredientQuery, brands: Listing, vendors: Listing) {
    ing.name.Some? && Emitted(d, ing.name.value, Listed(brands, ing.category), Listed(vendors, ing.category))
  }

  /** Output is ingredient-major: the matches for a longer request are those
      for its first part followed by those for the rest. */
  lemma {:induction false} FindMatchesAppend(products: seq<Doc>, brands: Listing, vendors: Listing,
                                             a: seq<IngredientQuery>, b: seq<IngredientQuery>)
    requires FindMatches(products, brands, vendors, a).Success?
    requires FindMatches(products, brands, vendors, b).Success?
    ensures FindMatches(products, brands, vendors, a + b)
      == Success(FindMatches(products, brands, vendors, a).value + FindMatches(products, brands, vendors, b).value)
    decreases |a|
  {
    if |a| == 0 {
      assert a + b == b;
      assert FindMatches(products, brands, vendors, a).value == [];
      assert [] + FindMatches(products, brands, vendors, b).value == FindMatches(products, brands, vendors, b).value;
    } else {
      var ing := a[0];
      var here := MatchOne(products, ing.name.value, Listed(brands, ing.category), Listed(vendors, ing.category));
      assert (a + b)[1..] == a[1..] + b;
      assert (a + b)[0] == ing;
      FindMatchesAppend(products, brands, vendors, a[1..], b);
      var ra := FindMatches(products, brands, vendors, a[1..]).value;
      var rb := FindMatches(products, brands, vendors, b).value;
      assert FindMatches(products, brands, vendors, a).value == here.value + ra;
      assert FindMatches(products, brands, vendors, a + b).Success?;
      assert FindMatches(products, brands, vendors, a + b).value == here.value + (ra + rb);
      ConcatAssoc(here.value, ra, rb);
    }
  }

  /** For one ingredient, each product appears as often as it occurs in the
      catalog if emitted, and not at all otherwise; a product matched by two
      ingredients therefore appears twice. */
  lemma {:induction false} MatchMultiplicity(products: seq<Doc>, brands: Listing, vendors: Listing, ing: IngredientQuery, d: Doc)
    requires FindMatches(products, brands, vendors, [ing]).Success?
    ensures multiset(FindMatches(products, brands, vendors, [ing]).value)[d]
      == if Matched(d, ing, brands, vendors) then multiset(products)[d] else 0
  {
    var name := ing.name.value;
    var p := (x: Doc) => Emitted(x, name, Listed(brands, ing.category), Listed(vendors, ing.category));
    assert FindMatches(products, brands, vendors, [ing]).value == Filter(products, p) + [];
    assert Filter(products, p) + [] == Filter(products, p);
    FilterCount(products, p, d);
  }

  /** An ingredient whose category has no brand and no vendor list gets no products. */
  lemma {:induction false} UnlistedCategoryMatchesNothing(products: seq<Doc>, brands: Listing, vendors: Listing, ing: IngredientQuery)
    requires ing.name.Some?
    requires ing.category !in brands && ing.category !in vendors
    requires forall k :: 0 <= k < |products| ==> products[k].name.Some?
    ensures FindMatches(products, brands, vendors, [ing]) == Success([])
  {
    var p := (d: Doc) => Emitted(d, ing.name.value, Listed(brands, ing.category), Listed(vendors, ing.category));
    FilterNone(products, p);
    assert [ing][1..] == [];
    assert FindMatches(products, brands, vendors, []) == Success([]);
    assert FindMatches(products, brands, vendors, [ing]).Success?;
    assert FindMatches(products, brands, vendors, [ing]).value == [];
  }
}

=== FILE: memory_search.dfy ===
/** The in-memory two-tier product search over the bundled catalog
    (`ProductSearchService`). A query is cut into word spans; the STRICT tier
    wants some span on the brand, vendor, store or a category and one of the
    spans left over in the name; when nothing passes that, the fallback wants
    every span in the name. */
module MemorySearch {
  import opened Wrappers
  import opened Text
  import opened Seqs
  import opened Catalog
  import opened Spans

  /** A nullable string field, with null read as "", lower-cased. */
  function Field(f: Option<string>): string {
    Lower(f.GetOr(""))
  }

  function NameText(d: Doc): string {
    Field(d.name)
  }

  function BrandText(d: Doc): string {
    Field(d.brand)
  }

  function VendorText(d: Doc): string {
    Field(d.vendor)
  }

  /** The store's name; no store reads as "". */
  function StoreText(d: Doc): string {
    if d.store.Some? then Field(d.store.value.name) else ""
  }

  /** The category names in order; no category list reads as no names. */
  function CategoryTexts(d: Doc): (r: seq<string>)
    ensures d.category.None? ==> r == []
    ensures d.category.Some? ==> |r| == |d.category.value|
    ensures d.category.Some? ==>
      forall k :: 0 <= k < |r| ==> r[k] == Field(d.category.value[k].name)
  {
    if d.category.Some? then MapSeq(d.category.value, (c: CategoryDoc) => Field(c.name)) else []
  }

  /** The span occurs in the brand, vendor, store name or some category name. */
  predicate HitsNonName(d: Doc, sub: string) {
    Contains(BrandText(d), sub) || Contains(VendorText(d), sub) || Contains(StoreText(d), sub)
    || exists k :: 0 <= k < |CategoryTexts(d)| && Contains(CategoryTexts(d)[k], sub)
  }

  /** The `HashSet` of the query's spans. */
  function QuerySet(query: string): (r: set<string>)
    ensures forall x :: x in r <==> x in QuerySubstrings(query)
  {
    set x | x in QuerySubstrings(query)
  }

  /** `nonNameSubstrings`: the spans that land outside the name. */
  function NonNameSubstrings(d: Doc, subs: set<string>): set<string> {
    set x | x in subs && HitsNonName(d, x)
  }

  /** `remainingSubstrings`: the spans not in `NonNameSubstrings`. */
  function RemainingSubstrings(d: Doc, subs: set<string>): set<string> {
    set x | x in subs && x !in NonNameSubstrings(d, subs)
  }

  /** `filterByBrandVendorCategoryAndStore`. */
  predicate StrictAccepts(d: Doc, subs: set<string>) {
    var nonName := NonNameSubstrings(d, subs);
    var remaining := RemainingSubstrings(d, subs);
    nonName != {} && (remaining == {} || exists x :: x in remaining && Contains(NameText(d), x))
  }

  /** `productMatchesName`: the name contains every span. */
  predicate NameHasAll(d: Doc, subs: set<string>) {
    forall x :: x in subs ==> Contains(NameText(d), x)
  }

  /** Some document of the catalog passes the STRICT tier. */
  predicate AnyStrict(catalog: seq<Doc>, subs: set<string>) {
    exists k :: 0 <= k < |catalog| && StrictAccepts(catalog[k], subs)
  }

  /** `searchProducts`: the STRICT tier if it is non-empty, otherwise the fallback. */
  function SearchProducts(catalog: seq<Doc>, query: string): (r: seq<Doc>)
    ensures IsSubseq(r, catalog)
  {
    var subs := QuerySet(query);
    var strict := Filter(catalog, d => StrictAccepts(d, subs));
    if |strict| > 0 then strict else Filter(catalog, d => NameHasAll(d, subs))
  }

  /** The result keeps catalog order; it is every STRICT match when there is
      one, and otherwise every document whose name contains the whole query,
      lower-cased and joined by single spaces. Each such document occurs in the
      result as often as in the catalog. */
  lemma {:induction false} SearchProductsTiers(catalog: seq<Doc>, query: string)
    ensures AnyStrict(catalog, QuerySet(query)) ==>
      var r := SearchProducts(catalog, query);
      |r| > 0 && forall d :: d in r <==> d in catalog && StrictAccepts(d, QuerySet(query))
    ensures AnyStrict(catalog, QuerySet(query)) ==> forall d ::
      multiset(SearchProducts(catalog, query))[d]
        == if StrictAccepts(d, QuerySet(query)) then multiset(catalog)[d] else 0
    ensures !AnyStrict(catalog, QuerySet(query)) ==>
      forall d :: d in SearchProducts(catalog, query) <==>
        d in catalog && Contains(NameText(d), Join(QueryWords(query)))
    ensures !AnyStrict(catalog, QuerySet(query)) ==> forall d ::
      multiset(SearchProducts(catalog, query))[d]
        == if Contains(NameText(d), Join(QueryWords(query))) then multiset(catalog)[d] else 0
  {
    var subs := QuerySet(query);
    var strictTest := (d: Doc) => StrictAccepts(d, subs);
    var fallbackTest := (d: Doc) => NameHasAll(d, subs);
    var strict := Filter(catalog, strictTest);
    if AnyStrict(catalog, subs) {
      var k :| 0 <= k < |catalog| && StrictAccepts(catalog[k], subs);
      assert catalog[k] in strict;
      forall d
        ensures multiset(strict)[d] == if StrictAccepts(d, subs) then multiset(catalog)[d] else 0
      {
        FilterCount(catalog, strictTest, d);
      }
    } else {
      FallbackIsWholeQuery(query);
      forall d
        ensures multiset(Filter(catalog, fallbackTest))[d] == if NameHasAll(d, subs) then multiset(catalog)[d] else 0
      {
        FilterCount(catalog, fallbackTest, d);
      }
    }
  }

  /** The two sets split the query's spans: disjoint, and together all of them. */
  lemma {:induction false} SpansPartition(d: Doc, subs: set<string>)
    ensures NonNameSubstrings(d, subs) * RemainingSubstrings(d, subs) == {}
    ensures NonNameSubstrings(d, subs) + RemainingSubstrings(d, subs) == subs
  {
  }

  /** STRICT acceptance without the intermediate sets: some span lands outside
      the name, and either every span does or some span that does not is in the name. */
  lemma {:induction false} StrictAcceptsDirect(d: Doc, subs: set<string>)
    ensures StrictAccepts(d, subs) <==>
      (exists x :: x in subs && HitsNonName(d, x))
      && ((forall x :: x in subs ==> HitsNonName(d, x))
          || exists x :: x in subs && !HitsNonName(d, x) && Contains(NameText(d), x))
  {
    var nonName := NonNameSubstrings(d, subs);
    var remaining := RemainingSubstrings(d, subs);
    assert forall x :: x in remaining <==> x in subs && !HitsNonName(d, x);
    assert forall x :: x in nonName <==> x in subs && HitsNonName(d, x);
    assert remaining == {} <==> forall x :: x in subs ==> HitsNonName(d, x) by {
      if remaining != {} {
        var y :| y in remaining;
        assert y in subs && !HitsNonName(d, y);
      }
    }
    assert nonName != {} <==> exists x :: x in subs && HitsNonName(d, x) by {
      if nonName != {} {
        var y :| y in nonName;
        assert y in subs && HitsNonName(d, y);
      }
    }
  }

  /** The fallback tier asks exactly that the name contain the whole query. */
  lemma {:induction false} FallbackIsWholeQuery(query: string)
    ensures forall d :: NameHasAll(d, QuerySet(query)) <==> Contains(NameText(d), Join(QueryWords(query)))
  {
    var ws := QueryWords(query);
    var subs := QuerySet(query);
    forall d
      ensures NameHasAll(d, subs) <==> Contains(NameText(d), Join(ws))
    {
      var name := NameText(d);
      if |ws| == 0 {
        ContainsEmpty(name);
      } else {
        WordsAndWholeAreSubstrings(ws);
        assert Join(ws) in subs;
      }
      if Contains(name, Join(ws)) {
        forall x | x in subs
          ensures Contains(name, x)
        {
          SubstringsInWhole(ws, x);
          ContainsTransitive(name, Join(ws), x);
        }
      }
    }
  }

  /** The empty query is the single span "", found in every field, so the
      STRICT tier takes the whole catalog. */
  lemma {:induction false} EmptyQueryAcceptsAll(catalog: seq<Doc>)
    ensures SearchProducts(catalog, "") == catalog
  {
    EmptyQuerySubstrings();
    var subs := QuerySet("");
    assert subs == {""};
    forall d | d in catalog
      ensures StrictAccepts(d, subs)
    {
      ContainsEmpty(BrandText(d));
      assert NonNameSubstrings(d, subs) == {""};
      assert RemainingSubstrings(d, subs) == {};
    }
    var p := (d: Doc) => StrictAccepts(d, subs);
    FilterAll(catalog, p);
    if |catalog| > 0 {
      assert AnyStrict(catalog, subs);
    }
  }

  /** Missing brand, vendor, store name and category names are read as "" and
      no categories, which no non-empty span hits. */
  lemma {:induction false} MissingFieldsNeverHit(d: Doc, sub: string)
    requires sub != ""
    requires d.brand.None? && d.vendor.None?
    requires d.store.None? || d.store.value.name.None?
    requires d.category.Some? ==> forall k :: 0 <= k < |d.category.value| ==> d.category.value[k].name.None?
    ensures !HitsNonName(d, sub)
  {
    ContainsInEmpty(sub);
    assert Lower("") == "";
    var cats := CategoryTexts(d);
    forall k | 0 <= k < |cats|
      ensures !Contains(cats[k], sub)
    {
      assert cats[k] == "";
    }
  }
}

=== FILE: product_endpoint.dfy ===
/** `ProductController.searchProducts`: the query-length guard, the defaults
    for the page parameters, and the mapping of the service's answer onto a
    response status. */
module ProductEndpoint {
  import opened Wrappers
  import opened Catalog
  import opened ProductSearch

  /** The longest query the endpoint passes on. */
  const QueryCharLimit := 50

  const DefaultPage: Int32 := 1
  const DefaultPageSize: Int32 := 12

  datatype Response =
    | Ok(page: SearchPage)
    | BadRequest(message: string)
    | NotFound(message: string)
    /** The service threw: the database refused the search. */
    | ServerError(error: SearchError)

  /** The endpoint; a missing `page` or `pageSize` takes its default. */
  function SearchEndpoint(catalog: seq<Doc>, query: string, page: Option<Int32>, pageSize: Option<Int32>, stores: seq<string>)
    : (r: Response)
    ensures r.BadRequest? <==> |query| > QueryCharLimit
    ensures |query| <= QueryCharLimit ==>
      var s := SearchProducts(catalog, Some(query), stores, page.GetOr(DefaultPage), pageSize.GetOr(DefaultPageSize));
      && (r.ServerError? <==> s.Failure?)
      && (r.NotFound? <==> s.Success? && s.value.products == [])
      && (r.Ok? <==> s.Success? && s.value.products != [])
      && (r.Ok? ==> r.page == s.value)
  {
    if |query| > QueryCharLimit then
      BadRequest("Search query exceeds character limit of 50 characters.")
    else
      var s := SearchProducts(catalog, Some(query), stores, page.GetOr(DefaultPage), pageSize.GetOr(DefaultPageSize));
      if s.Failure? then ServerError(s.error)
      else if s.value.products == [] then NotFound("No products found for the given query.")
      else Ok(s.value)
  }

  /** The empty query answers an empty page, hence 404. */
  lemma {:induction false} EmptyQueryNotFound(catalog: seq<Doc>, page: Option<Int32>, pageSize: Option<Int32>, stores: seq<string>)
    ensures SearchEndpoint(catalog, "", page, pageSize, stores).NotFound?
  {
  }

  /** A page past the last one is empty and answers 404, however many
      products matched. */
  lemma {:induction false} PagePastEndNotFound(catalog: seq<Doc>, query: string, page: Int32, pageSize: Int32, stores: seq<string>)
    requires 0 < |query| <= QueryCharLimit
    requires SearchProducts(catalog, Some(query), stores, page, pageSize).Success?
    requires Skip(page, pageSize) >= SearchProducts(catalog, Some(query), stores, page, pageSize).value.totalItems
    ensures SearchEndpoint(catalog, query, Some(page), Some(pageSize), stores).NotFound?
  {
    SearchPageContents(catalog, query, stores, page, pageSize);
  }
}

=== FILE: product_search.dfy ===
/** `ProductService`: the paginated production search, the ingredient lookups
    and the name-pattern matches. The search picks the query span that is a
    brand with the most words, drops that brand's words from the query, and
    asks the database for products whose name or some category name holds every
    remaining word, whose brand holds the chosen brand, and whose store is one of
    the selected stores. */
module ProductSearch {
  import opened Wrappers
  import opened Text
  import opened Seqs
  import opened Catalog
  import opened Spans
  import opened Filters

  /** Java's `int`. */
  type Int32 = x: int | -0x8000_0000 <= x < 0x8000_0000

  const IntMax: Int32 := 0x7fff_ffff
  const IntMin: Int32 := -0x8000_0000

  /** Two's-complement wrap-around of an `int` computation. */
  function Wrap32(x: int): (r: Int32)
    ensures (r - x) % 0x1_0000_0000 == 0
  {
    var m := x % 0x1_0000_0000;
    if m < 0x8000_0000 then m else m - 0x1_0000_0000
  }

  /** The response map: the page of product maps and its metadata. */
  datatype SearchPage = SearchPage(products: seq<ProductMap>, totalItems: nat, totalPages: Int32, currentPage: Int32)

  /** What the database refuses: an `$or` with no entries (a query of white
      space only), and a negative `skip`. */
  datatype SearchError = EmptyOr | NegativeSkip

  /** The number of `\s+`-separated pieces of the lower-cased brand. */
  function WordCount(brand: string): nat {
    |Split(Lower(brand))|
  }

  /** The brand lookup: the brand equals one of the spans, ignoring case. */
  function BrandQuery(subs: seq<string>): Bson {
    AnyOf(MapSeq(subs, (s: string) => Regex(BrandPath, WholeValue(s))))
  }

  /** The brand lookup is refused exactly when there are no spans. */
  lemma {:induction false} BrandQueryWellFormed(subs: seq<string>)
    ensures WellFormed(BrandQuery(subs)) <==> |subs| > 0
  {
    var alts := MapSeq(subs, (s: string) => Regex(BrandPath, WholeValue(s)));
    assert forall k :: 0 <= k < |alts| ==> WellFormed(alts[k]);
  }

  /** A document passes the brand lookup when it has a brand equal to some
      span up to case, or to such a span followed by one line feed. */
  lemma {:induction false} BrandQueryMeaning(subs: seq<string>, d: Doc)
    ensures Eval(BrandQuery(subs), d) <==>
      d.brand.Some? && exists k :: 0 <= k < |subs| && PatternMatches(WholeValue(subs[k]), d.brand.value)
  {
    var alts := MapSeq(subs, (s: string) => Regex(BrandPath, WholeValue(s)));
    if Eval(BrandQuery(subs), d) {
      var k :| 0 <= k < |alts| && Eval(alts[k], d);
      assert alts[k] == Regex(BrandPath, WholeValue(subs[k]));
    }
    if d.brand.Some? && exists k :: 0 <= k < |subs| && PatternMatches(WholeValue(subs[k]), d.brand.value) {
      var k :| 0 <= k < |subs| && PatternMatches(WholeValue(subs[k]), d.brand.value);
      assert alts[k] == Regex(BrandPath, WholeValue(subs[k]));
      RegexOnValues(d, BrandPath, WholeValue(subs[k]));
      assert Eval(alts[k], d);
    }
  }

  /** The brand values of the given documents, in order. */
  function BrandValues(docs: seq<Doc>): (r: seq<string>)
    ensures forall k :: 0 <= k < |r| ==> exists i :: 0 <= i < |docs| && docs[i].brand == Some(r[k])
    ensures forall i :: 0 <= i < |docs| && docs[i].brand.Some? ==> docs[i].brand.value in r
    decreases |docs|
  {
    if |docs| == 0 then []
    else
      var rest := BrandValues(docs[1..]);
      assert forall i :: 1 <= i < |docs| ==> docs[i] == docs[1..][i - 1];
      (if docs[0].brand.Some? then [docs[0].brand.value] else []) + rest
  }

  /** `distinct("brand", brandQuery)`: every brand of a document passing the
      brand lookup, once each, in order of first appearance in the catalog. */
  function MatchingBrands(catalog: seq<Doc>, subs: seq<string>): (r: seq<string>)
    ensures Distinct(r)
    ensures forall k :: 0 <= k < |r| ==>
      exists i :: 0 <= i < |catalog| && catalog[i].brand == Some(r[k]) && Eval(BrandQuery(subs), catalog[i])
    ensures forall i :: 0 <= i < |catalog| && Eval(BrandQuery(subs), catalog[i]) ==>
      catalog[i].brand.Some? && catalog[i].brand.value in r
  {
    var passing := Filter(catalog, (d: Doc) => Eval(BrandQuery(subs), d));
    forall i | 0 <= i < |catalog| && Eval(BrandQuery(subs), catalog[i])
      ensures catalog[i].brand.Some?
    {
      BrandQueryMeaning(subs, catalog[i]);
    }
    Dedupe(BrandValues(passing))
  }

  /** The outcome of a loop that keeps the first element of the highest score. */
  datatype Pick<T> = Pick(best: Option<T>, score: nat)

  /** An eligible element replaces the current pick only with a strictly higher score. */
  function Longest<T>(xs: seq<T>, eligible: T -> bool, score: T -> nat): (r: Pick<T>)
    ensures forall k :: 0 <= k < |xs| && eligible(xs[k]) ==> score(xs[k]) <= r.score
    ensures r.best.None? <==> r.score == 0
    ensures r.best.Some? ==>
      exists i :: 0 <= i < |xs| && FirstLongest(xs, eligible, score, i) && xs[i] == r.best.value
                  && score(xs[i]) == r.score
    decreases |xs|
  {
    if |xs| == 0 then Pick(None, 0)
    else
      var n := |xs| - 1;
      var init := xs[..n];
      var prev := Longest(init, eligible, score);
      var x := xs[n];
      assert forall k :: 0 <= k < n ==> xs[k] == init[k];
      if eligible(x) && score(x) > prev.score then
        assert FirstLongest(xs, eligible, score, n);
        Pick(Some(x), score(x))
      else
        assert forall i :: 0 <= i < n && FirstLongest(init, eligible, score, i) ==>
          FirstLongest(xs, eligible, score, i);
        prev
  }

  /** Element `i` is eligible and every eligible element before it scores lower. */
  predicate FirstLongest<T>(xs: seq<T>, eligible: T -> bool, score: T -> nat, i: nat)
    requires i < |xs|
  {
    eligible(xs[i]) && forall k :: 0 <= k < i && eligible(xs[k]) ==> score(xs[k]) < score(xs[i])
  }

  /** The brand passes the loop's `substrings.contains(brand.toLowerCase())`. */
  predicate Eligible(brand: string, subs: seq<string>) {
    Lower(brand) in subs
  }

  /** The brand loop: the first eligible brand with the most words, if any
      eligible brand has a word at all. */
  function LongestBrand(brands: seq<string>, subs: seq<string>): Pick<string> {
    Longest(brands, (b: string) => Eligible(b, subs), WordCount)
  }

  /** The query words minus the first occurrence of each word of the chosen brand. */
  function RemainingWords(words: seq<string>, brand: Option<string>): seq<string> {
    if brand.Some? then RemoveEach(words, Split(Lower(brand.value))) else words
  }

  /** Removing the brand's words keeps a sub-multiset of the query words and
      drops at most as many words as the brand has. */
  lemma {:induction false} RemainingWordsBound(words: seq<string>, brand: Option<string>)
    ensures multiset(RemainingWords(words, brand)) <= multiset(words)
    ensures IsSubseq(RemainingWords(words, brand), words)
    ensures brand.Some? ==>
      |words| - WordCount(brand.value) <= |RemainingWords(words, brand)| <= |words|
    ensures brand.None? ==> RemainingWords(words, brand) == words
  {
    if brand.Some? {
      RemoveEachLength(words, Split(Lower(brand.value)));
    } else {
      SubseqRefl(words);
    }
  }

  /** One remaining word: in the name or in some category name, ignoring case. */
  function WordFilter(w: string): Bson {
    AnyOf([Regex(NamePath, Anywhere(w)), Regex(CategoryNamePath, Anywhere(w))])
  }

  /** The combined filter; with no word, brand or store filter it is the empty
      document, which every product passes. */
  function CombinedFilter(remaining: seq<string>, brand: Option<string>, stores: seq<string>): Bson {
    var filters := WordsPart(remaining) + BrandPart(brand) + StorePart(stores);
    if |filters| == 0 then Everything else AllOf(filters)
  }

  /** The name contains `w`, ignoring case; a missing name contains nothing. */
  predicate NameHas(d: Doc, w: string) {
    d.name.Some? && Contains(Lower(d.name.value), Lower(w))
  }

  predicate SomeCategoryHas(d: Doc, w: string) {
    d.category.Some? && exists j :: 0 <= j < |d.category.value| && CategoryHas(d.category.value[j], w)
  }

  /** What the combined filter asks of a product, field by field. */
  predicate Matches(d: Doc, remaining: seq<string>, brand: Option<string>, stores: seq<string>) {
    && (forall k :: 0 <= k < |remaining| ==> NameHas(d, remaining[k]) || SomeCategoryHas(d, remaining[k]))
    && (brand.Some? ==> d.brand.Some? && Contains(Lower(d.brand.value), Lower(brand.value)))
    && (|stores| > 0 ==> d.store.Some? && d.store.value.name.Some? && d.store.value.name.value in stores)
  }

  lemma {:induction false} WordFilterMeaning(w: string, d: Doc)
    ensures WellFormed(WordFilter(w))
    ensures Eval(WordFilter(w), d) <==> NameHas(d, w) || SomeCategoryHas(d, w)
  {
    CategoryRegex(d, w);
    RegexOnValues(d, NamePath, Anywhere(w));
    var f := WordFilter(w);
    assert f.alts[0] == Regex(NamePath, Anywhere(w));
    assert f.alts[1] == Regex(CategoryNamePath, Anywhere(w));
    assert Eval(f, d) <==> Eval(f.alts[0], d) || Eval(f.alts[1], d);
  }

  lemma {:induction false} WordsFilterMeaning(remaining: seq<string>, d: Doc)
    requires |remaining| > 0
    ensures WellFormed(AllOf(MapSeq(remaining, WordFilter)))
    ensures Eval(AllOf(MapSeq(remaining, WordFilter)), d) <==>
      forall k :: 0 <= k < |remaining| ==> NameHas(d, remaining[k]) || SomeCategoryHas(d, remaining[k])
  {
    var fs := MapSeq(remaining, WordFilter);
    forall k | 0 <= k < |fs|
      ensures WellFormed(fs[k])
      ensures Eval(fs[k], d) <==> NameHas(d, remaining[k]) || SomeCategoryHas(d, remaining[k])
    {
      WordFilterMeaning(remaining[k], d);
    }
  }

  /** The combined filter is always accepted, and a product passes it exactly
      when it matches field by field. */
  lemma {:induction false} CombinedFilterMeaning(remaining: seq<string>, brand: Option<string>, stores: seq<string>, d: Doc)
    ensures WellFormed(CombinedFilter(remaining, brand, stores))
    ensures Eval(CombinedFilter(remaining, brand, stores), d) <==> Matches(d, remaining, brand, stores)
  {
    var words := WordsPart(remaining);
    var brands := BrandPart(brand);
    var shops := StorePart(stores);
    WordsPartMeaning(remaining, d);
    BrandPartMeaning(brand, d);
    StorePartMeaning(stores, d);
    AllPassConcat(words, brands, d);
    AllPassConcat(words + brands, shops, d);
    var filters := words + brands + shops;
    assert CombinedFilter(remaining, brand, stores) == if |filters| == 0 then Everything else AllOf(filters);
  }

  function WordsPart(remaining: seq<string>): seq<Bson> {
    if |remaining| > 0 then [AllOf(MapSeq(remaining, WordFilter))] else []
  }

  function BrandPart(brand: Option<string>): seq<Bson> {
    if brand.Some? then [Regex(BrandPath, Anywhere(brand.value))] else []
  }

  function StorePart(stores: seq<string>): seq<Bson> {
    if |stores| > 0 then [In(StoreNamePath, stores)] else []
  }

  lemma {:induction false} WordsPartMeaning(remaining: seq<string>, d: Doc)
    ensures AllWellFormed(WordsPart(remaining))
    ensures AllPass(WordsPart(remaining), d) <==>
      forall k :: 0 <= k < |remaining| ==> NameHas(d, remaining[k]) || SomeCategoryHas(d, remaining[k])
  {
    if |remaining| > 0 {
      WordsFilterMeaning(remaining, d);
      assert WordsPart(remaining)[0] == AllOf(MapSeq(remaining, WordFilter));
    }
  }

  lemma {:induction false} BrandPartMeaning(brand: Option<string>, d: Doc)
    ensures AllWellFormed(BrandPart(brand))
    ensures AllPass(BrandPart(brand), d) <==>
      (brand.Some? ==> d.brand.Some? && Contains(Lower(d.brand.value), Lower(brand.value)))
  {
    if brand.Some? {
      RegexOnValues(d, BrandPath, Anywhere(brand.value));
      assert BrandPart(brand)[0] == Regex(BrandPath, Anywhere(brand.value));
    }
  }

  lemma {:induction false} StorePartMeaning(stores: seq<string>, d: Doc)
    ensures AllWellFormed(StorePart(stores))
    ensures AllPass(StorePart(stores), d) <==>
      (|stores| > 0 ==> d.store.Some? && d.store.value.name.Some? && d.store.value.name.value in stores)
  {
    if |stores| > 0 {
      InOnValues(d, StoreNamePath, stores);
      assert StorePart(stores)[0] == In(StoreNamePath, stores);
    }
  }

  /** Everything the search decides before it reads a page. */
  datatype Plan = Plan(words: seq<string>, subs: seq<string>, brand: Option<string>, remaining: seq<string>)

  function MakePlan(catalog: seq<Doc>, query: string): (r: Plan)
    ensures r.words == QueryWords(query)
    ensures r.subs == Substrings(AppendToBuilder, r.words)
    ensures r.remaining == RemainingWords(r.words, r.brand)
  {
    var words := QueryWords(query);
    var subs := Substrings(AppendToBuilder, words);
    var brand := LongestBrand(MatchingBrands(catalog, subs), subs).best;
    Plan(words, subs, brand, RemainingWords(words, brand))
  }

  /** A brand of the catalog whose lower case is one of the spans passes the
      brand lookup, so the brand loop sees it. */
  lemma {:induction false} EligibleBrandIsSeen(catalog: seq<Doc>, subs: seq<string>, i: nat)
    requires i < |catalog| && catalog[i].brand.Some? && Eligible(catalog[i].brand.value, subs)
    ensures catalog[i].brand.value in MatchingBrands(catalog, subs)
  {
    var b := catalog[i].brand.value;
    var k :| 0 <= k < |subs| && subs[k] == Lower(b);
    LowerIdempotent(b);
    assert PatternMatches(WholeValue(subs[k]), b);
    BrandQueryMeaning(subs, catalog[i]);
  }

  /** A chosen brand is eligible, has at least one word, is the brand of some
      product, and no eligible brand of the catalog has more words. */
  lemma {:induction false} ChosenBrand(catalog: seq<Doc>, query: string)
    ensures var plan := MakePlan(catalog, query);
      plan.brand.Some? ==>
        && Eligible(plan.brand.value, plan.subs)
        && WordCount(plan.brand.value) > 0
        && (exists i :: 0 <= i < |catalog| && catalog[i].brand == plan.brand)
        && forall i :: 0 <= i < |catalog| && catalog[i].brand.Some? && Eligible(catalog[i].brand.value, plan.subs) ==>
             WordCount(catalog[i].brand.value) <= WordCount(plan.brand.value)
  {
    var plan := MakePlan(catalog, query);
    var brands := MatchingBrands(catalog, plan.subs);
    var pick := LongestBrand(brands, plan.subs);
    var eligible := (b: string) => Eligible(b, plan.subs);
    assert pick == Longest(brands, eligible, WordCount);
    forall i | 0 <= i < |catalog| && catalog[i].brand.Some? && Eligible(catalog[i].brand.value, plan.subs)
      ensures WordCount(catalog[i].brand.value) <= pick.score
    {
      EligibleBrandIsSeen(catalog, plan.subs, i);
      var j :| 0 <= j < |brands| && brands[j] == catalog[i].brand.value;
      assert eligible(brands[j]);
    }
    if pick.best.Some? {
      var j :| 0 <= j < |brands| && FirstLongest(brands, eligible, WordCount, j) && brands[j] == pick.best.value
               && WordCount(brands[j]) == pick.score;
      var i :| 0 <= i < |catalog| && catalog[i].brand == Some(brands[j]) && Eval(BrandQuery(plan.subs), catalog[i]);
    }
  }

  /** `(page - 1) * pageSize` in `int` arithmetic. */
  function Skip(page: Int32, pageSize: Int32): Int32 {
    Wrap32(Wrap32(page - 1) * pageSize)
  }

  /** `skip(skip).limit(pageSize)`: a zero limit is no limit, and a negative one
      returns at most its magnitude. */
  function Window<T>(xs: seq<T>, skip: nat, pageSize: Int32): (r: seq<T>)
    ensures forall k :: 0 <= k < |r| ==> skip + k < |xs| && r[k] == xs[skip + k]
    ensures pageSize > 0 ==> |r| == if skip >= |xs| then 0 else Min(pageSize, |xs| - skip)
    ensures pageSize == 0 ==> |r| == if skip >= |xs| then 0 else |xs| - skip
    ensures pageSize < 0 ==> |r| == if skip >= |xs| then 0 else Min(-(pageSize as int), |xs| - skip)
  {
    var limit: nat := if pageSize == 0 then |xs| else if pageSize > 0 then pageSize else -(pageSize as int);
    Slice(xs, skip, limit)
  }

  /** `(int) Math.ceil((double) total / pageSize)`: the cast saturates, an
      infinite quotient becomes `IntMax` and a not-a-number quotient 0. */
  function TotalPages(total: nat, pageSize: Int32): (r: Int32)
    ensures total == 0 ==> r == 0
    ensures pageSize > 0 ==> 0 <= r
    ensures pageSize > 0 && r < IntMax ==> total <= r * pageSize && (r == 0 || (r - 1) * pageSize < total)
    ensures pageSize > 0 && r == IntMax ==> (IntMax - 1) * pageSize < total
    ensures pageSize == 0 && total > 0 ==> r == IntMax
    ensures pageSize < 0 ==> r <= 0
    ensures pageSize < 0 && r > IntMin ==> r * pageSize <= total < (r - 1) * pageSize
    ensures pageSize < 0 && r == IntMin ==> IntMin * pageSize <= total
  {
    if pageSize > 0 then
      var q := (total + pageSize - 1) / pageSize;
      CeilDivBounds(total, pageSize);
      if q > IntMax then
        MulMonotone(IntMax - 1, q - 1, pageSize);
        IntMax
      else q
    else if pageSize == 0 then
      if total == 0 then 0 else IntMax
    else
      var m := -(pageSize as int);
      var q := -(total / m);
      NegCeilBounds(total, m);
      if q < IntMin then
        MulMonotone(-(IntMin as int), -q, m);
        IntMin
      else q
  }

  /** `c` is the ceiling of `total / p`: the least integer at or above the quotient. */
  predicate IsCeiling(total: nat, p: int, c: int) {
    (p > 0 && total <= c * p && (c - 1) * p < total)
    || (p < 0 && c * p <= total && total < (c - 1) * p)
  }

  /** For a non-zero page size the page count is the exact ceiling of
      `total / pageSize`, clamped to the `int` range as the cast clamps it. */
  lemma {:induction false} TotalPagesSaturatesCeiling(total: nat, pageSize: Int32, c: int)
    requires IsCeiling(total, pageSize, c)
    ensures TotalPages(total, pageSize) == if c > IntMax then IntMax else if c < IntMin then IntMin else c
  {
    var r := TotalPages(total, pageSize);
    if pageSize > 0 {
      if r < IntMax {
        CeilingUnique(total, pageSize, r, c);
      } else {
        LessBelow(IntMax - 1, c, pageSize, total - 1);
      }
    } else {
      var m := -(pageSize as int);
      if r > IntMin {
        CeilingUnique(total, pageSize, r, c);
      } else {
        NegativeCeiling(total, pageSize as int, c);
        LessBelow(-(IntMin as int), 1 - c, m, total);
      }
    }
  }

  /** If `a * p` stays at or below `t` and `b * p` exceeds it, then `a < b`. */
  lemma {:induction false} LessBelow(a: int, b: int, p: int, t: int)
    requires p > 0 && a * p <= t < b * p
    ensures a < b
  {
    assert (b - a) * p == b * p - a * p;
    assert (b - a) * p > 0;
  }

  /** The ceiling of a quotient is unique. */
  lemma {:induction false} CeilingUnique(total: nat, p: int, c: int, d: int)
    requires IsCeiling(total, p, c) && IsCeiling(total, p, d)
    ensures c == d
  {
    if p > 0 {
      LessBelow(c - 1, d, p, total - 1);
      LessBelow(d - 1, c, p, total - 1);
    } else {
      var m := -p;
      NegativeCeiling(total, p, c);
      NegativeCeiling(total, p, d);
      LessBelow(-c, 1 - d, m, total);
      LessBelow(-d, 1 - c, m, total);
    }
  }

  /** A ceiling for a negative divisor `p`, restated with the positive divisor `-p`. */
  lemma {:induction false} NegativeCeiling(total: nat, p: int, c: int)
    requires p < 0 && IsCeiling(total, p, c)
    ensures (-c) * -p <= total < (1 - c) * -p
  {
    assert (-c) * -p == c * p;
    assert (1 - c) * -p == (c - 1) * p;
  }

  /** Multiplying by a positive factor keeps the order. */
  lemma {:induction false} MulMonotone(a: int, b: int, p: int)
    requires a <= b && p > 0
    ensures a * p <= b * p
  {
    assert b * p - a * p == (b - a) * p;
  }

  /** For a negative divisor `-m`, the negated floor quotient is the ceiling of
      `total / -m`: the least `q` with `q * -m <= total`. */
  lemma {:induction false} NegCeilBounds(total: nat, m: int)
    requires m > 0
    ensures var q := -(total / m);
      q * -m <= total < (q - 1) * -m
  {
    var d := total / m;
    var rem := total % m;
    assert total == d * m + rem && 0 <= rem < m;
    assert -d * -m == d * m;
    assert (-d - 1) * -m == d * m + m;
  }

  lemma {:induction false} CeilDivBounds(total: nat, p: int)
    requires p > 0
    ensures var q := (total + p - 1) / p;
      q >= 0 && total <= q * p && (q == 0 || (q - 1) * p < total) && (total == 0 ==> q == 0)
  {
    var q := (total + p - 1) / p;
    var m := (total + p - 1) % p;
    assert total + p - 1 == q * p + m;
    assert 0 <= m < p;
  }

  /** `searchProducts`. A null or empty query answers an empty first page
      without reading the catalog. */
  function SearchProducts(catalog: seq<Doc>, query: Option<string>, stores: seq<string>, page: Int32, pageSize: Int32)
    : (r: Result<SearchPage, SearchError>)
    ensures query.None? || query.value == "" ==> r == Success(SearchPage([], 0, 0, page))
    ensures r.Success? ==> r.value.currentPage == page
    ensures r.Success? ==> |r.value.products| <= r.value.totalItems <= |catalog|
    ensures r.Success? && pageSize > 0 ==> |r.value.products| <= pageSize
    ensures r.Success? ==> r.value.totalPages == TotalPages(r.value.totalItems, pageSize)
  {
    if query.None? || query.value == "" then Success(SearchPage([], 0, 0, page))
    else
      var plan := MakePlan(catalog, query.value);
      if !WellFormed(BrandQuery(plan.subs)) then Failure(EmptyOr)
      else
        var skip := Skip(page, pageSize);
        if skip < 0 then Failure(NegativeSkip)
        else
          var hits := Hits(catalog, CombinedFilter(plan.remaining, plan.brand, stores));
          Success(SearchPage(PageMaps(Window(hits, skip, pageSize)), |hits|, TotalPages(|hits|, pageSize), page))
  }

  /** The catalog documents that pass the filter, in catalog order. */
  function Hits(catalog: seq<Doc>, filter: Bson): seq<Doc> {
    Filter(catalog, (d: Doc) => Eval(filter, d))
  }

  /** The product maps of a page of documents. */
  function PageMaps(window: seq<Doc>): (r: seq<ProductMap>)
    ensures |r| == |window|
    ensures forall k :: 0 <= k < |window| ==> r[k] == ProductToMap(DocumentToProduct(window[k]))
    ensures forall k :: 0 <= k < |window| ==> r[k].id == DecodeId(window[k].id)
  {
    MapSeq(window, (d: Doc) => ProductToMap(DocumentToProduct(d)))
  }

  /** The catalog documents with every remaining word, the brand and a
      selected store, in catalog order. */
  function Matching(catalog: seq<Doc>, remaining: seq<string>, brand: Option<string>, stores: seq<string>): seq<Doc> {
    Filter(catalog, (d: Doc) => Matches(d, remaining, brand, stores))
  }

  /** The combined filter selects exactly the matching documents. */
  lemma {:induction false} HitsAreMatching(catalog: seq<Doc>, remaining: seq<string>, brand: Option<string>, stores: seq<string>)
    ensures Hits(catalog, CombinedFilter(remaining, brand, stores)) == Matching(catalog, remaining, brand, stores)
  {
    var filter := CombinedFilter(remaining, brand, stores);
    var p := (d: Doc) => Eval(filter, d);
    var q := (d: Doc) => Matches(d, remaining, brand, stores);
    forall d | d in catalog
      ensures p(d) == q(d)
    {
      CombinedFilterMeaning(remaining, brand, stores, d);
    }
    FilterCongruent(catalog, p, q);
  }

  /** The query has characters and all of them are white space. */
  predicate Blank(query: string) {
    |query| > 0 && forall i :: 0 <= i < |query| ==> IsSpace(query[i])
  }

  /** The search fails exactly for a query of white space only (the brand
      lookup becomes an empty `$or`) and for a page whose skip wraps negative. */
  lemma {:induction false} SearchFailures(catalog: seq<Doc>, query: string, stores: seq<string>, page: Int32, pageSize: Int32)
    requires query != ""
    ensures var r := SearchProducts(catalog, Some(query), stores, page, pageSize);
      && (r.Failure? <==> Blank(query) || Skip(page, pageSize) < 0)
      && (Blank(query) ==> r == Failure(EmptyOr))
  {
    var plan := MakePlan(catalog, query);
    SplitEmpty(Lower(query));
    LowerKeepsSpaces(query);
    SubstringsEmpty(AppendToBuilder, plan.words);
    BrandQueryWellFormed(plan.subs);
  }

  /** A successful search of a non-empty query: the page holds, in catalog
      order, the maps of the matching products after the skip, and the total
      counts every matching product. */
  lemma {:induction false} SearchPageContents(catalog: seq<Doc>, query: string, stores: seq<string>, page: Int32, pageSize: Int32)
    requires query != ""
    requires SearchProducts(catalog, Some(query), stores, page, pageSize).Success?
    ensures var plan := MakePlan(catalog, query);
      var res := SearchProducts(catalog, Some(query), stores, page, pageSize).value;
      var matching := Matching(catalog, plan.remaining, plan.brand, stores);
      && res.totalItems == |matching|
      && 0 <= Skip(page, pageSize)
      && |res.products| == |Window(matching, Skip(page, pageSize), pageSize)|
      && (forall k :: 0 <= k < |res.products| ==>
           res.products[k] == ProductToMap(DocumentToProduct(matching[Skip(page, pageSize) + k])))
      && forall k :: 0 <= k < |res.products| ==>
           res.products[k].id == DecodeId(matching[Skip(page, pageSize) + k].id)
  {
    var plan := MakePlan(catalog, query);
    SearchProductsShape(catalog, query, stores, page, pageSize);
    HitsAreMatching(catalog, plan.remaining, plan.brand, stores);
  }

  /** A successful search of a non-empty query is the page of the filter's hits. */
  lemma {:induction false} SearchProductsShape(catalog: seq<Doc>, query: string, stores: seq<string>, page: Int32, pageSize: Int32)
    requires query != ""
    requires SearchProducts(catalog, Some(query), stores, page, pageSize).Success?
    ensures var plan := MakePlan(catalog, query);
      var hits := Hits(catalog, CombinedFilter(plan.remaining, plan.brand, stores));
      && Skip(page, pageSize) >= 0
      && SearchProducts(catalog, Some(query), stores, page, pageSize).value
         == SearchPage(PageMaps(Window(hits, Skip(page, pageSize), pageSize)), |hits|, TotalPages(|hits|, pageSize), page)
  {
  }

  /** With no remaining word, no brand and no store selected, every product passes. */
  lemma {:induction false} NoFiltersMatchAll(catalog: seq<Doc>)
    ensures Hits(catalog, CombinedFilter([], None, [])) == catalog
  {
    FilterAll(catalog, (d: Doc) => Eval(CombinedFilter([], None, []), d));
  }

  /** An ingredient's lookup keys; either may be null. */
  datatype IngredientRef = IngredientRef(ean: Option<string>, storeCode: Option<string>)

  function Resolve(catalog: seq<Doc>, ing: IngredientRef): Option<Product> {
    FindByEanAndStoreCode(catalog, ing.ean, ing.storeCode)
  }

  /** The loop of `fetchProductsForIngredients` with the lookup `resolve`:
      each ingredient's product, in ingredient order, skipping ingredients
      that do not resolve. */
  function FetchWith(ings: seq<IngredientRef>, resolve: IngredientRef -> Option<Product>): (r: seq<Product>)
    ensures |r| <= |ings|
    decreases |ings|
  {
    if |ings| == 0 then []
    else
      var rest := FetchWith(ings[1..], resolve);
      var head := resolve(ings[0]);
      if head.Some? then [head.value] + rest else rest
  }

  /** `fetchProductsForIngredients`, looking each ingredient up by EAN and store code. */
  function FetchProductsForIngredients(catalog: seq<Doc>, ings: seq<IngredientRef>): (r: seq<Product>)
    ensures |r| <= |ings|
  {
    FetchWith(ings, ing => Resolve(catalog, ing))
  }

  /** Every ingredient resolves. */
  predicate AllResolve(catalog: seq<Doc>, ings: seq<IngredientRef>) {
    forall i :: 0 <= i < |ings| ==> Resolve(catalog, ings[i]).Some?
  }

  /** Some ingredient resolves to `p`. */
  predicate ResolvesTo(catalog: seq<Doc>, ings: seq<IngredientRef>, p: Product) {
    exists i :: 0 <= i < |ings| && Resolve(catalog, ings[i]) == Some(p)
  }

  /** Nothing is dropped unless it fails to resolve, every product found is
      some ingredient's, and every resolved ingredient's product is found. */
  lemma {:induction false} FetchMeaning(catalog: seq<Doc>, ings: seq<IngredientRef>)
    ensures var r := FetchProductsForIngredients(catalog, ings);
      |r| == |ings| <==> AllResolve(catalog, ings)
    ensures var r := FetchProductsForIngredients(catalog, ings);
      forall k :: 0 <= k < |r| ==> ResolvesTo(catalog, ings, r[k])
    ensures var r := FetchProductsForIngredients(catalog, ings);
      forall i :: 0 <= i < |ings| && Resolve(catalog, ings[i]).Some? ==> Resolve(catalog, ings[i]).value in r
  {
    var resolve := ing => Resolve(catalog, ing);
    var r := FetchProductsForIngredients(catalog, ings);
    FetchKeepsResolved(ings, resolve);
    FetchSound(ings, resolve);
    FetchComplete(ings, resolve);
    assert AllResolve(catalog, ings) <==> AllSome(ings, resolve);
    forall k | 0 <= k < |r|
      ensures ResolvesTo(catalog, ings, r[k])
    {
      assert SomeTo(ings, resolve, r[k]);
    }
  }

  /** `resolve` finds every ingredient. */
  predicate AllSome(ings: seq<IngredientRef>, resolve: IngredientRef -> Option<Product>) {
    forall i :: 0 <= i < |ings| ==> resolve(ings[i]).Some?
  }

  /** `resolve` maps some ingredient to `p`. */
  predicate SomeTo(ings: seq<IngredientRef>, resolve: IngredientRef -> Option<Product>, p: Product) {
    exists i :: 0 <= i < |ings| && resolve(ings[i]) == Some(p)
  }

  lemma {:induction false} FetchKeepsResolved(ings: seq<IngredientRef>, resolve: IngredientRef -> Option<Product>)
    ensures |FetchWith(ings, resolve)| == |ings| <==> AllSome(ings, resolve)
    decreases |ings|
  {
    if |ings| > 0 {
      var tail := ings[1..];
      FetchKeepsResolved(tail, resolve);
      assert forall i :: 1 <= i < |ings| ==> ings[i] == tail[i - 1];
      assert AllSome(ings, resolve) <==> resolve(ings[0]).Some? && AllSome(tail, resolve);
    }
  }

  lemma {:induction false} FetchSound(ings: seq<IngredientRef>, resolve: IngredientRef -> Option<Product>)
    ensures forall k :: 0 <= k < |FetchWith(ings, resolve)| ==> SomeTo(ings, resolve, FetchWith(ings, resolve)[k])
    decreases |ings|
  {
    if |ings| > 0 {
      var tail := ings[1..];
      var r := FetchWith(ings, resolve);
      var rest := FetchWith(tail, resolve);
      var head := resolve(ings[0]);
      FetchSound(tail, resolve);
      var shift := if head.Some? then 1 else 0;
      assert r == if head.Some? then [head.value] + rest else rest;
      forall k | 0 <= k < |r|
        ensures SomeTo(ings, resolve, r[k])
      {
        if k < shift {
          assert resolve(ings[0]) == Some(r[k]);
        } else {
          assert r[k] == rest[k - shift];
          assert SomeTo(tail, resolve, rest[k - shift]);
          var i :| 0 <= i < |tail| && resolve(tail[i]) == Some(rest[k - shift]);
          assert resolve(ings[i + 1]) == Some(r[k]);
        }
      }
    }
  }

  lemma {:induction false} FetchComplete(ings: seq<IngredientRef>, resolve: IngredientRef -> Option<Product>)
    ensures var r := FetchWith(ings, resolve);
      forall i :: 0 <= i < |ings| && resolve(ings[i]).Some? ==> resolve(ings[i]).value in r
    decreases |ings|
  {
    if |ings| > 0 {
      var tail := ings[1..];
      FetchComplete(tail, resolve);
      assert forall i :: 1 <= i < |ings| ==> ings[i] == tail[i - 1];
    }
  }

  /** Fetching distributes over concatenation, so ingredient order is kept. */
  lemma {:induction false} FetchAppend(catalog: seq<Doc>, a: seq<IngredientRef>, b: seq<IngredientRef>)
    ensures FetchProductsForIngredients(catalog, a + b)
      == FetchProductsForIngredients(catalog, a) + FetchProductsForIngredients(catalog, b)
  {
    FetchWithAppend(a, b, ing => Resolve(catalog, ing));
  }

  lemma {:induction false} FetchWithAppend(a: seq<IngredientRef>, b: seq<IngredientRef>, resolve: IngredientRef -> Option<Product>)
    ensures FetchWith(a + b, resolve) == FetchWith(a, resolve) + FetchWith(b, resolve)
    decreases |a|
  {
    if |a| > 0 {
      assert (a + b)[1..] == a[1..] + b;
      FetchWithAppend(a[1..], b, resolve);
      var rest := FetchWith(a[1..], resolve);
      var head := resolve(a[0]);
      if head.Some? {
        ConcatAssoc([head.value], rest, FetchWith(b, resolve));
      }
    } else {
      assert a + b == b;
    }
  }

  /** Why `findMatches` throws: a missing `ingredient` entry reaches the driver
      as a null pattern, and the server refuses a pattern that does not compile. */
  datatype MatchError = NullPattern | BadPattern(pattern: string)

  /** The loop of `findMatches` over the ingredient names, `lookup` giving the
      list for one name or refusing it; the first refused name ends the loop,
      and a later duplicate name overwrites an earlier one. */
  function FindMatchesWith(names: seq<Option<string>>, lookup: string -> Result<seq<ProductMap>, QueryError>)
    : Result<map<string, seq<ProductMap>>, MatchError>
    decreases |names|
  {
    if |names| == 0 then Success(map[])
    else
      var n := |names| - 1;
      var prev := FindMatchesWith(names[..n], lookup);
      if prev.Failure? then prev
      else if names[n].None? then Failure(NullPattern)
      else
        var found := lookup(names[n].value);
        if found.Failure? then Failure(BadPattern(names[n].value))
        else Success(prev.value[names[n].value := found.value])
  }

  /** The product maps of the catalog products whose name the pattern `name`
      matches, priced at 1 or more; refused when the pattern does not compile. */
  function MatchList(catalog: seq<Doc>, name: string, regex: RegexEngine): Result<seq<ProductMap>, QueryError> {
    var found := FindByNameContaining(catalog, name, regex);
    if found.Failure? then Failure(found.error) else Success(MapSeq(found.value, ProductToMap))
  }

  /** `findMatches`: each ingredient name mapped to the product maps whose name
      its pattern matches, priced at 1 or more. */
  function FindMatches(catalog: seq<Doc>, names: seq<Option<string>>, regex: RegexEngine)
    : Result<map<string, seq<ProductMap>>, MatchError>
  {
    FindMatchesWith(names, Lookup(catalog, regex))
  }

  /** The lookup `findMatches` runs for each name. */
  function Lookup(catalog: seq<Doc>, regex: RegexEngine): string -> Result<seq<ProductMap>, QueryError> {
    name => MatchList(catalog, name, regex)
  }

  /** Every map in the list has a name the pattern matches and a price of 1 or more. */
  predicate AllMatch(ms: seq<ProductMap>, name: string, regex: RegexEngine) {
    forall k :: 0 <= k < |ms| ==>
      ms[k].fields.name.Some? && regex.matches(name, ms[k].fields.name.value)
      && ms[k].fields.currentPrice.Some? && ms[k].fields.currentPrice.value >= 1.0
  }

  /** The list holds the map of every catalog product the pattern matches. */
  predicate HasEveryMatch(catalog: seq<Doc>, ms: seq<ProductMap>, name: string, regex: RegexEngine) {
    forall j :: 0 <= j < |catalog| && NameMatches(catalog[j], name, regex) ==>
      ProductToMap(DocumentToProduct(catalog[j])) in ms
  }

  /** The list holds one map per matching document, in catalog order. */
  predicate InCatalogOrder(catalog: seq<Doc>, ms: seq<ProductMap>, name: string, regex: RegexEngine) {
    var pos := Positions(catalog, NameTest(name, regex));
    |ms| == |pos| && forall k :: 0 <= k < |ms| ==> ms[k] == ProductToMap(DocumentToProduct(catalog[pos[k]]))
  }

  /** The lookup for one name: refused iff the pattern does not compile, and
      otherwise exactly the matching products, as maps, in catalog order. */
  lemma {:induction false} MatchListMeaning(catalog: seq<Doc>, name: string, regex: RegexEngine)
    ensures MatchList(catalog, name, regex).Failure? <==> !regex.compiles(name)
    ensures var ms := MatchList(catalog, name, regex);
      ms.Success? ==> AllMatch(ms.value, name, regex) && HasEveryMatch(catalog, ms.value, name, regex)
                      && InCatalogOrder(catalog, ms.value, name, regex)
  {
    var found := FindByNameContaining(catalog, name, regex);
    if found.Success? {
      var ms := MapSeq(found.value, ProductToMap);
      forall j | 0 <= j < |catalog| && NameMatches(catalog[j], name, regex)
        ensures ProductToMap(DocumentToProduct(catalog[j])) in ms
      {
        MapSeqMember(found.value, ProductToMap, DocumentToProduct(catalog[j]));
      }
    }
  }

  /** The lookup refuses this name: it is null, or the lookup refuses its pattern. */
  predicate Refused(n: Option<string>, lookup: string -> Result<seq<ProductMap>, QueryError>) {
    n.None? || lookup(n.value).Failure?
  }

  /** The error reported for a refused name. */
  function ErrorFor(n: Option<string>): MatchError {
    if n.None? then NullPattern else BadPattern(n.value)
  }

  /** The name at `i` is the first refused one. */
  predicate FirstRefused(names: seq<Option<string>>, lookup: string -> Result<seq<ProductMap>, QueryError>, i: int) {
    0 <= i < |names| && Refused(names[i], lookup) && forall k :: 0 <= k < i ==> !Refused(names[k], lookup)
  }

  /** The loop fails exactly when some name is refused, and then with the error
      for the first refused name; otherwise its keys are exactly the names and
      each key holds its own lookup. */
  lemma {:induction false} FindMatchesWithShape(names: seq<Option<string>>, lookup: string -> Result<seq<ProductMap>, QueryError>)
    ensures FindMatchesWith(names, lookup).Failure? <==>
      exists i :: 0 <= i < |names| && Refused(names[i], lookup)
    ensures var r := FindMatchesWith(names, lookup);
      r.Failure? ==> exists i :: FirstRefused(names, lookup, i) && r.error == ErrorFor(names[i])
    ensures var r := FindMatchesWith(names, lookup);
      r.Success? ==> forall n :: n in r.value <==> Some(n) in names
    ensures var r := FindMatchesWith(names, lookup);
      r.Success? ==> forall n :: n in r.value ==> lookup(n).Success? && r.value[n] == lookup(n).value
    decreases |names|
  {
    if |names| > 0 {
      var n := |names| - 1;
      var init := names[..n];
      FindMatchesWithShape(init, lookup);
      assert forall i :: 0 <= i < n ==> init[i] == names[i];
      var prev := FindMatchesWith(init, lookup);
      var r := FindMatchesWith(names, lookup);
      if prev.Failure? {
        var i :| FirstRefused(init, lookup, i) && prev.error == ErrorFor(init[i]);
        assert FirstRefused(names, lookup, i);
      } else if Refused(names[n], lookup) {
        assert FirstRefused(names, lookup, n);
      } else {
        assert names == init + [names[n]];
        forall x
          ensures x in r.value <==> Some(x) in names
        {
          assert Some(x) in names <==> Some(x) in init || Some(x) == names[n];
        }
      }
    }
  }

  /** A name `findMatches` cannot look up: null, or a pattern the server refuses. */
  predicate BadName(n: Option<string>, regex: RegexEngine) {
    n.None? || !regex.compiles(n.value)
  }

  /** The name at `i` is the first one `findMatches` cannot look up. */
  predicate FirstBad(names: seq<Option<string>>, regex: RegexEngine, i: int) {
    0 <= i < |names| && BadName(names[i], regex) && forall k :: 0 <= k < i ==> !BadName(names[k], regex)
  }

  /** The lookup refuses exactly the bad names. */
  lemma {:induction false} RefusedIsBad(catalog: seq<Doc>, names: seq<Option<string>>, regex: RegexEngine)
    ensures forall i :: 0 <= i < |names| ==> (Refused(names[i], Lookup(catalog, regex)) <==> BadName(names[i], regex))
  {
    forall i | 0 <= i < |names|
      ensures Refused(names[i], Lookup(catalog, regex)) <==> BadName(names[i], regex)
    {
      if names[i].Some? {
        MatchListMeaning(catalog, names[i].value, regex);
      }
    }
  }

  /** `findMatches` fails exactly when some name is null or does not compile,
      with the error for the first such name; otherwise the keys are exactly
      the names given, and each name's list holds, in catalog order, the maps
      of all the products its pattern matches, and only of those. */
  lemma {:induction false} FindMatchesMeaning(catalog: seq<Doc>, names: seq<Option<string>>, regex: RegexEngine)
    ensures FindMatches(catalog, names, regex).Failure? <==>
      exists i :: 0 <= i < |names| && BadName(names[i], regex)
    ensures var r := FindMatches(catalog, names, regex);
      r.Failure? ==> exists i :: FirstBad(names, regex, i) && r.error == ErrorFor(names[i])
    ensures var r := FindMatches(catalog, names, regex);
      r.Success? ==> forall n :: n in r.value <==> Some(n) in names
    ensures var r := FindMatches(catalog, names, regex);
      r.Success? ==> forall n :: n in r.value ==>
        AllMatch(r.value[n], n, regex) && HasEveryMatch(catalog, r.value[n], n, regex)
        && InCatalogOrder(catalog, r.value[n], n, regex)
  {
    var lookup := Lookup(catalog, regex);
    FindMatchesWithShape(names, lookup);
    RefusedIsBad(catalog, names, regex);
    var r := FindMatches(catalog, names, regex);
    if r.Failure? {
      var i :| FirstRefused(names, lookup, i) && r.error == ErrorFor(names[i]);
      assert FirstBad(names, regex, i);
    } else {
      forall n | n in r.value
        ensures AllMatch(r.value[n], n, regex) && HasEveryMatch(catalog, r.value[n], n, regex)
                && InCatalogOrder(catalog, r.value[n], n, regex)
      {
        assert r.value[n] == MatchList(catalog, n, regex).value;
        MatchListMeaning(catalog, n, regex);
      }
    }
  }
}

=== FILE: recipes.dfy ===
/** Recipe pricing and the owner-only recipe operations (`RecipeService`):
    ingredient prices summed from the catalog, rounding HALF_UP to cents, the
    five-percent rule that decides when the stored price follows the current
    one, partial update, and the choice of sort and query for recipe search.
    Prices are exact reals; the caller's identity, the clock and fresh
    identifiers are parameters. */
module Recipes {
  import opened Wrappers
  import opened Text
  import opened Catalog
  import ProductSearch

  datatype IngredientUnit =
    Gram | Kilogram | Milliliter | Liter | Piece | Tablespoon | Teaspoon | Pinch | Slice | Cup

  /** One ingredient as a request carries it. */
  datatype IngredientDto = IngredientDto(
    name: string, amount: real, unit: IngredientUnit,
    ean: Option<string>, storeCode: Option<string>, image: Option<string>)

  /** One stored ingredient. */
  datatype Ingredient = Ingredient(
    id: string, recipeId: string, name: string, amount: real, unit: IngredientUnit,
    ean: Option<string>, storeCode: Option<string>, image: Option<string>)

  /** A stored recipe; times are abstract instants. */
  datatype Recipe = Recipe(
    id: string, userId: string, name: string, description: string, instructions: string,
    tags: seq<string>, ingredients: seq<Ingredient>, imageUrl: Option<string>,
    createdAt: int, storedPrice: real, currentPrice: real, priceLastUpdated: Option<int>,
    isPublic: bool)

  datatype CreateRecipeDto = CreateRecipeDto(
    name: string, description: string, instructions: string, tags: seq<string>,
    ingredients: seq<IngredientDto>, imageUrl: Option<string>)

  /** Every field may be absent (null), which leaves the recipe's value alone. */
  datatype UpdateRecipeDto = UpdateRecipeDto(
    name: Option<string>, description: Option<string>, instructions: Option<string>,
    tags: Option<seq<string>>, ingredients: Option<seq<IngredientDto>>, imageUrl: Option<string>)

  /** The recipes table, by id. */
  type Recipes = map<string, Recipe>

  /** The HTTP statuses the operations raise. */
  datatype Status = Unauthorized | NotFound | Forbidden

  // ---------------------------------------------------------------- pricing

  /** The catalog lookup an ingredient is priced by. */
  function RefOf(dto: IngredientDto): ProductSearch.IngredientRef {
    ProductSearch.IngredientRef(dto.ean, dto.storeCode)
  }

  function RefsOf(dtos: seq<IngredientDto>): (r: seq<ProductSearch.IngredientRef>)
    ensures |r| == |dtos|
    ensures forall k :: 0 <= k < |r| ==> r[k] == RefOf(dtos[k])
  {
    if |dtos| == 0 then [] else [RefOf(dtos[0])] + RefsOf(dtos[1..])
  }

  function StoredRefs(ings: seq<Ingredient>): (r: seq<ProductSearch.IngredientRef>)
    ensures |r| == |ings|
    ensures forall k :: 0 <= k < |r| ==> r[k] == ProductSearch.IngredientRef(ings[k].ean, ings[k].storeCode)
  {
    if |ings| == 0 then []
    else [ProductSearch.IngredientRef(ings[0].ean, ings[0].storeCode)] + StoredRefs(ings[1..])
  }

  /** What an ingredient adds to a recipe total: its product's price, or
      nothing when its (ean, store code) finds no product. */
  function PriceOf(catalog: seq<Doc>, ref: ProductSearch.IngredientRef): real {
    var p := ProductSearch.Resolve(catalog, ref);
    if p.Some? then p.value.currentPrice else 0.0
  }

  /** The running total built while the ingredients are mapped, in order. */
  function Total(catalog: seq<Doc>, refs: seq<ProductSearch.IngredientRef>): real
    decreases |refs|
  {
    if |refs| == 0 then 0.0 else PriceOf(catalog, refs[0]) + Total(catalog, refs[1..])
  }

  /** The sum of the products' current prices, accumulated left to right. */
  function SumPrices(ps: seq<Product>): real
    decreases |ps|
  {
    if |ps| == 0 then 0.0 else SumPrices(ps[..|ps| - 1]) + ps[|ps| - 1].currentPrice
  }

  lemma {:induction false} SumPricesAppend(a: seq<Product>, b: seq<Product>)
    ensures SumPrices(a + b) == SumPrices(a) + SumPrices(b)
    decreases |b|
  {
    if |b| == 0 {
      assert a + b == a;
    } else {
      var last := |b| - 1;
      assert (a + b)[..|a + b| - 1] == a + b[..last];
      SumPricesAppend(a, b[..last]);
    }
  }

  /** `calculateCurrentPrice`: the products' prices added up in order. */
  method CalculateCurrentPrice(ps: seq<Product>) returns (total: real)
    ensures total == SumPrices(ps)
  {
    total := 0.0;
    var i := 0;
    while i < |ps|
      invariant 0 <= i <= |ps|
      invariant total == SumPrices(ps[..i])
    {
      assert ps[..i + 1][..i] == ps[..i];
      total := total + ps[i].currentPrice;
      i := i + 1;
    }
    assert ps[..|ps|] == ps;
  }

  /** The total the create and update paths build equals the sum of the
      products `fetchProductsForIngredients` finds: unresolved ingredients
      add nothing. */
  lemma {:induction false} TotalIsFetchedSum(catalog: seq<Doc>, refs: seq<ProductSearch.IngredientRef>)
    ensures Total(catalog, refs) == SumPrices(ProductSearch.FetchProductsForIngredients(catalog, refs))
    decreases |refs|
  {
    if |refs| > 0 {
      TotalIsFetchedSum(catalog, refs[1..]);
      var rest := ProductSearch.FetchProductsForIngredients(catalog, refs[1..]);
      var head := ProductSearch.Resolve(catalog, refs[0]);
      if head.Some? {
        SumPricesAppend([head.value], rest);
        assert [head.value][..0] == [];
      }
    }
  }

  /** Every product found is priced at 1 or more, so the sum is at least the
      number of ingredients that resolve. */
  lemma {:induction false} FetchedSumAtLeastCount(catalog: seq<Doc>, refs: seq<ProductSearch.IngredientRef>)
    ensures SumPrices(ProductSearch.FetchProductsForIngredients(catalog, refs))
      >= |ProductSearch.FetchProductsForIngredients(catalog, refs)| as real
  {
    var ps := ProductSearch.FetchProductsForIngredients(catalog, refs);
    ProductSearch.FetchMeaning(catalog, refs);
    forall k | 0 <= k < |ps|
      ensures ps[k].currentPrice >= 1.0
    {
      var i :| 0 <= i < |refs| && ProductSearch.Resolve(catalog, refs[i]) == Some(ps[k]);
    }
    SumAtLeastCount(ps);
  }

  lemma {:induction false} SumAtLeastCount(ps: seq<Product>)
    requires forall k :: 0 <= k < |ps| ==> ps[k].currentPrice >= 1.0
    ensures SumPrices(ps) >= |ps| as real
    decreases |ps|
  {
    if |ps| > 0 {
      SumAtLeastCount(ps[..|ps| - 1]);
    }
  }

  // --------------------------------------------------------------- rounding

  function Abs(x: real): real {
    if x < 0.0 then -x else x
  }

  /** The real is a whole number of cents. */
  predicate WholeCents(x: real) {
    (x * 100.0).Floor as real == x * 100.0
  }

  /** `roundToTwoDecimalPlaces`: scale 2, HALF_UP, which rounds a tie away
      from zero. */
  function Round2(x: real): (r: real)
    ensures WholeCents(r)
    ensures Abs(r - x) <= 0.005
    ensures r - x == 0.005 ==> x >= 0.0
    ensures x - r == 0.005 ==> x < 0.0
  {
    if x >= 0.0 then
      var n := HalfUpCents(x);
      CentsAreWhole(n);
      n as real / 100.0
    else
      var n := HalfUpCents(-x);
      CentsAreWhole(-n);
      -n as real / 100.0
  }

  /** The number of cents nearest to a non-negative `y`, a tie rounded up. */
  function HalfUpCents(y: real): (n: int)
    requires y >= 0.0
    ensures n as real <= y * 100.0 + 0.5 < n as real + 1.0
  {
    (y * 100.0 + 0.5).Floor
  }

  lemma {:induction false} CentsAreWhole(n: int)
    ensures WholeCents(n as real / 100.0)
  {
    assert n as real / 100.0 * 100.0 == n as real;
  }

  /** The three properties of `Round2` single out its result: any whole number
      of cents within half a cent of `x`, with ties broken away from zero, is
      `Round2(x)`. */
  lemma {:induction false} Round2Unique(x: real, m: real)
    requires WholeCents(m)
    requires Abs(m - x) <= 0.005
    requires m - x == 0.005 ==> x >= 0.0
    requires x - m == 0.005 ==> x < 0.0
    ensures m == Round2(x)
  {
    var r := Round2(x);
    var a := (m * 100.0).Floor;
    var b := (r * 100.0).Floor;
    assert a as real == m * 100.0;
    assert b as real == r * 100.0;
    assert a == b;
  }

  /** Rounding twice rounds once. */
  lemma {:induction false} Round2Idempotent(x: real)
    ensures Round2(Round2(x)) == Round2(x)
  {
    Round2Unique(Round2(x), Round2(x));
  }

  /** A whole number of cents is left as it is. */
  lemma {:induction false} Round2KeepsCents(x: real)
    requires WholeCents(x)
    ensures Round2(x) == x
  {
    Round2Unique(x, x);
  }

  // ---------------------------------------------------------- refresh rule

  /** The stored price follows the current one when it is 0 or more than 5%
      away from it. */
  predicate NeedsRefresh(stored: real, current: real) {
    stored == 0.0 || Abs(current - stored) > stored * 0.05
  }

  /** The stored price after a recomputation of the current price `current`;
      `replacement` is what it becomes when it follows. */
  function Refreshed(stored: real, current: real, replacement: real): real {
    if NeedsRefresh(stored, current) then replacement else stored
  }

  /** After a refresh by the exact total the stored price is either that total,
      or a non-zero price within 5% of it. */
  lemma {:induction false} RefreshedWithinTolerance(stored: real, current: real)
    ensures var s := Refreshed(stored, current, current);
      s == current || (s != 0.0 && Abs(current - s) <= s * 0.05)
  {
  }

  /** Recomputing with an unchanged total leaves the stored price alone. */
  lemma {:induction false} RefreshedIdempotent(stored: real, current: real)
    ensures var s := Refreshed(stored, current, current);
      Refreshed(s, current, current) == s
  {
  }

  // ----------------------------------------------------- recipe operations

  /** The ingredient entities built from the request, one per entry, with the
      fresh identifiers `ids`. */
  function BuildIngredients(recipeId: string, dtos: seq<IngredientDto>, ids: seq<string>): (r: seq<Ingredient>)
    requires |ids| == |dtos|
    ensures |r| == |dtos|
    ensures forall k :: 0 <= k < |r| ==>
      r[k] == Ingredient(ids[k], recipeId, dtos[k].name, dtos[k].amount, dtos[k].unit,
                         dtos[k].ean, dtos[k].storeCode, dtos[k].image)
    ensures StoredRefs(r) == RefsOf(dtos)
  {
    if |dtos| == 0 then []
    else
      var d := dtos[0];
      [Ingredient(ids[0], recipeId, d.name, d.amount, d.unit, d.ean, d.storeCode, d.image)]
        + BuildIngredients(recipeId, dtos[1..], ids[1..])
  }

  /** A non-null, non-empty image URL replaces the old one. */
  function NewImageUrl(current: Option<string>, given: Option<string>): (r: Option<string>)
    ensures given.Some? && given.value != "" ==> r == given
    ensures !(given.Some? && given.value != "") ==> r == current
  {
    if given.Some? && given.value != "" then given else current
  }

  /** `createRecipe`: an anonymous caller is refused; otherwise the caller
      owns a new recipe whose current and stored prices are both the total of
      its ingredients' prices. */
  function CreateRecipe(recipes: Recipes, catalog: seq<Doc>, caller: Option<string>,
                        dto: CreateRecipeDto, recipeId: string, ingredientIds: seq<string>, now: int)
    : (r: Result<(Recipes, Recipe), Status>)
    requires |ingredientIds| == |dto.ingredients|
    ensures caller.None? <==> r == Failure(Unauthorized)
    ensures r.Success? <==> caller.Some?
    ensures r.Success? ==> r.value.0 == recipes[recipeId := r.value.1]
    ensures r.Success? ==>
      var rec := r.value.1;
      var total := SumPrices(ProductSearch.FetchProductsForIngredients(catalog, RefsOf(dto.ingredients)));
      && rec.id == recipeId && rec.userId == caller.value
      && rec.name == dto.name && rec.description == dto.description
      && rec.instructions == dto.instructions && rec.tags == dto.tags
      && |rec.ingredients| == |dto.ingredients|
      && (forall k :: 0 <= k < |rec.ingredients| ==>
            var d := dto.ingredients[k];
            rec.ingredients[k] == Ingredient(ingredientIds[k], recipeId, d.name, d.amount, d.unit, d.ean, d.storeCode, d.image))
      && rec.currentPrice == total && rec.storedPrice == total
      && rec.priceLastUpdated == Some(now) && rec.createdAt == now && !rec.isPublic
      && rec.imageUrl == (if dto.imageUrl.Some? && dto.imageUrl.value != "" then dto.imageUrl else None)
  {
    if caller.None? then Failure(Unauthorized)
    else
      var total := Total(catalog, RefsOf(dto.ingredients));
      TotalIsFetchedSum(catalog, RefsOf(dto.ingredients));
      var rec := Recipe(recipeId, caller.value, dto.name, dto.description, dto.instructions,
                        dto.tags, BuildIngredients(recipeId, dto.ingredients, ingredientIds),
                        NewImageUrl(None, dto.imageUrl), now, total, total, Some(now), false);
      Success((recipes[recipeId := rec], rec))
  }

  /** The owner check shared by update and delete: anonymous callers, missing
      recipes and other users' recipes are refused, in that order. */
  function Authorize(recipes: Recipes, caller: Option<string>, id: string): (r: Result<Recipe, Status>)
    ensures r == Failure(Unauthorized) <==> caller.None?
    ensures r == Failure(NotFound) <==> caller.Some? && id !in recipes
    ensures r == Failure(Forbidden) <==> caller.Some? && id in recipes && recipes[id].userId != caller.value
    ensures r.Success? <==> caller.Some? && id in recipes && recipes[id].userId == caller.value
    ensures r.Success? ==> r.value == recipes[id]
  {
    if caller.None? then Failure(Unauthorized)
    else if id !in recipes then Failure(NotFound)
    else if recipes[id].userId != caller.value then Failure(Forbidden)
    else Success(recipes[id])
  }

  /** The recipe after the request's fields are applied: absent fields keep
      their value; new ingredients replace the old ones and reprice the recipe. */
  function ApplyUpdate(rec: Recipe, catalog: seq<Doc>, dto: UpdateRecipeDto, ingredientIds: seq<string>, now: int)
    : (r: Recipe)
    requires dto.ingredients.Some? ==> |ingredientIds| == |dto.ingredients.value|
    ensures r.id == rec.id && r.userId == rec.userId && r.createdAt == rec.createdAt
    ensures r.isPublic == rec.isPublic
    ensures r.name == dto.name.GetOr(rec.name)
    ensures r.description == dto.description.GetOr(rec.description)
    ensures r.instructions == dto.instructions.GetOr(rec.instructions)
    ensures r.tags == dto.tags.GetOr(rec.tags)
    ensures r.imageUrl == NewImageUrl(rec.imageUrl, dto.imageUrl)
    ensures dto.ingredients.None? ==>
      r.ingredients == rec.ingredients && r.currentPrice == rec.currentPrice
      && r.storedPrice == rec.storedPrice && r.priceLastUpdated == rec.priceLastUpdated
    ensures dto.ingredients.Some? ==>
      var total := SumPrices(ProductSearch.FetchProductsForIngredients(catalog, RefsOf(dto.ingredients.value)));
      && |r.ingredients| == |dto.ingredients.value|
      && (forall k :: 0 <= k < |r.ingredients| ==>
            var d := dto.ingredients.value[k];
            r.ingredients[k] == Ingredient(ingredientIds[k], rec.id, d.name, d.amount, d.unit, d.ean, d.storeCode, d.image))
      && r.currentPrice == total
      && r.storedPrice == (if NeedsRefresh(rec.storedPrice, total) then total else rec.storedPrice)
      && r.priceLastUpdated == Some(now)
  {
    var named := rec.(name := dto.name.GetOr(rec.name),
                      description := dto.description.GetOr(rec.description),
                      instructions := dto.instructions.GetOr(rec.instructions),
                      tags := dto.tags.GetOr(rec.tags));
    var priced :=
      if dto.ingredients.None? then named
      else ReplaceIngredients(named, catalog, dto.ingredients.value, ingredientIds, now);
    priced.(imageUrl := NewImageUrl(rec.imageUrl, dto.imageUrl))
  }

  /** New ingredients replace the old ones; the current price becomes their
      total and the stored price follows it under the five-percent rule. */
  function ReplaceIngredients(rec: Recipe, catalog: seq<Doc>, dtos: seq<IngredientDto>, ids: seq<string>, now: int)
    : (r: Recipe)
    requires |ids| == |dtos|
    ensures r.currentPrice == SumPrices(ProductSearch.FetchProductsForIngredients(catalog, RefsOf(dtos)))
  {
    var total := Total(catalog, RefsOf(dtos));
    TotalIsFetchedSum(catalog, RefsOf(dtos));
    rec.(ingredients := BuildIngredients(rec.id, dtos, ids),
         currentPrice := total,
         storedPrice := Refreshed(rec.storedPrice, total, total),
         priceLastUpdated := Some(now))
  }

  /** `updateRecipe`: only the owner may update; the table changes at that one
      recipe and nowhere else. */
  function UpdateRecipe(recipes: Recipes, catalog: seq<Doc>, caller: Option<string>, id: string,
                        dto: UpdateRecipeDto, ingredientIds: seq<string>, now: int)
    : (r: Result<(Recipes, Recipe), Status>)
    requires dto.ingredients.Some? ==> |ingredientIds| == |dto.ingredients.value|
    ensures r.Failure? <==> Authorize(recipes, caller, id).Failure?
    ensures r.Failure? ==> r.error == Authorize(recipes, caller, id).error
    ensures r.Success? ==>
      && id in recipes
      && r.value.1 == ApplyUpdate(recipes[id], catalog, dto, ingredientIds, now)
      && r.value.0 == recipes[id := r.value.1]
  {
    var owned := Authorize(recipes, caller, id);
    if owned.Failure? then Failure(owned.error)
    else
      var rec := ApplyUpdate(owned.value, catalog, dto, ingredientIds, now);
      Success((recipes[id := rec], rec))
  }

  /** A request with every field absent changes nothing. */
  lemma {:induction false} EmptyUpdateIsIdentity(rec: Recipe, catalog: seq<Doc>, ids: seq<string>, now: int)
    ensures ApplyUpdate(rec, catalog, UpdateRecipeDto(None, None, None, None, None, None), ids, now) == rec
  {
  }

  /** Sending the same request twice has the effect of sending it once. */
  lemma {:induction false} UpdateIdempotent(rec: Recipe, catalog: seq<Doc>, dto: UpdateRecipeDto, ids: seq<string>, now: int)
    requires dto.ingredients.Some? ==> |ids| == |dto.ingredients.value|
    ensures var once := ApplyUpdate(rec, catalog, dto, ids, now);
      ApplyUpdate(once, catalog, dto, ids, now) == once
  {
    var once := ApplyUpdate(rec, catalog, dto, ids, now);
    var twice := ApplyUpdate(once, catalog, dto, ids, now);
    if dto.ingredients.Some? {
      var total := SumPrices(ProductSearch.FetchProductsForIngredients(catalog, RefsOf(dto.ingredients.value)));
      RefreshedIdempotent(rec.storedPrice, total);
      assert twice.ingredients == once.ingredients;
    }
  }

  /** `deleteRecipe`: only the owner may delete; the recipe, and nothing else,
      leaves the table. */
  function DeleteRecipe(recipes: Recipes, caller: Option<string>, id: string): (r: Result<Recipes, Status>)
    ensures r.Failure? <==> Authorize(recipes, caller, id).Failure?
    ensures r.Failure? ==> r.error == Authorize(recipes, caller, id).error
    ensures r.Success? ==> id !in r.value && r.value.Keys == recipes.Keys - {id}
    ensures r.Success? ==> forall k :: k in r.value ==> r.value[k] == recipes[k]
  {
    var owned := Authorize(recipes, caller, id);
    if owned.Failure? then Failure(owned.error) else Success(recipes - {id})
  }

  /** The creator may delete what they created, and that restores the table
      when the new id was unused. */
  lemma {:induction false} CreateThenDelete(recipes: Recipes, catalog: seq<Doc>, caller: string,
                                            dto: CreateRecipeDto, id: string, ids: seq<string>, now: int)
    requires |ids| == |dto.ingredients|
    requires id !in recipes
    ensures var created := CreateRecipe(recipes, catalog, Some(caller), dto, id, ids, now);
      created.Success? && DeleteRecipe(created.value.0, Some(caller), id) == Success(recipes)
  {
    var created := CreateRecipe(recipes, catalog, Some(caller), dto, id, ids, now);
    assert created.value.0 - {id} == recipes;
  }

  /** `getRecipeById` with `updateRecipePrice`: the current price is the
      rounded sum of the ingredients' products; the stored price follows it,
      rounded, under the five-percent rule applied to the unrounded sum. */
  function GetRecipeById(recipes: Recipes, catalog: seq<Doc>, id: string, now: int)
    : (r: Result<(Recipes, Recipe), Status>)
    ensures r.Failure? <==> id !in recipes
    ensures r.Failure? ==> r.error == NotFound
    ensures r.Success? ==>
      var before := recipes[id];
      var sum := SumPrices(ProductSearch.FetchProductsForIngredients(catalog, StoredRefs(before.ingredients)));
      var rec := r.value.1;
      && rec == before.(currentPrice := rec.currentPrice, storedPrice := rec.storedPrice, priceLastUpdated := Some(now))
      && rec.currentPrice == Round2(sum)
      && (NeedsRefresh(before.storedPrice, sum) ==> rec.storedPrice == Round2(sum))
      && (!NeedsRefresh(before.storedPrice, sum) ==> rec.storedPrice == before.storedPrice)
      && r.value.0 == recipes[id := rec]
  {
    if id !in recipes then Failure(NotFound)
    else
      var rec := UpdateRecipePrice(recipes[id], catalog, now);
      Success((recipes[id := rec], rec))
  }

  /** `updateRecipePrice`. */
  function UpdateRecipePrice(rec: Recipe, catalog: seq<Doc>, now: int): Recipe {
    var sum := SumPrices(ProductSearch.FetchProductsForIngredients(catalog, StoredRefs(rec.ingredients)));
    rec.(currentPrice := Round2(sum),
         storedPrice := Refreshed(rec.storedPrice, sum, Round2(sum)),
         priceLastUpdated := Some(now))
  }

  /** Repricing again against the same catalog changes nothing: a stored price
      that followed the sum is its rounding, which either still needs a refresh
      (and is set to the same value) or is kept. */
  lemma {:induction false} RepriceStable(rec: Recipe, catalog: seq<Doc>, now: int)
    ensures var once := UpdateRecipePrice(rec, catalog, now);
      UpdateRecipePrice(once, catalog, now) == once
  {
    var sum := SumPrices(ProductSearch.FetchProductsForIngredients(catalog, StoredRefs(rec.ingredients)));
    var once := UpdateRecipePrice(rec, catalog, now);
    if NeedsRefresh(rec.storedPrice, sum) && NeedsRefresh(once.storedPrice, sum) {
      assert once.storedPrice == Round2(sum);
    }
  }

  // ------------------------------------------------------------ recipe search

  datatype SortKey = ByStoredPrice | ByCreatedAt
  datatype Sort = Sort(key: SortKey, descending: bool)
  datatype SortError = InvalidSortBy

  /** `"literal".equalsIgnoreCase(s)` for a lower-case literal; null is never equal. */
  predicate EqualsIgnoreCase(literal: string, s: Option<string>) {
    s.Some? && Lower(s.value) == literal
  }

  /** The sort of `searchRecipes`: "price" sorts by stored price and "date" by
      creation time, descending exactly for "desc", ignoring case; anything
      else is refused. */
  function ChooseSort(sortBy: Option<string>, direction: Option<string>): (r: Result<Sort, SortError>)
    ensures r.Success? <==> EqualsIgnoreCase("price", sortBy) || EqualsIgnoreCase("date", sortBy)
    ensures r.Success? ==> (r.value.key == ByStoredPrice <==> EqualsIgnoreCase("price", sortBy))
    ensures r.Success? ==> (r.value.descending <==> EqualsIgnoreCase("desc", direction))
  {
    var descending := EqualsIgnoreCase("desc", direction);
    if EqualsIgnoreCase("price", sortBy) then Success(Sort(ByStoredPrice, descending))
    else if EqualsIgnoreCase("date", sortBy) then Success(Sort(ByCreatedAt, descending))
    else Failure(InvalidSortBy)
  }

  /** The choice depends on the letters and not on their case. */
  lemma {:induction false} ChooseSortIgnoresCase(sortBy: string, direction: string)
    ensures ChooseSort(Some(sortBy), Some(direction)) == ChooseSort(Some(Lower(sortBy)), Some(Lower(direction)))
  {
    LowerIdempotent(sortBy);
    LowerIdempotent(direction);
  }

  /** Java's `trim`: every leading and trailing character up to U+0020 removed. */
  function Trim(s: string): (r: string)
    ensures |r| <= |s|
    decreases |s|
  {
    if |s| == 0 then s
    else if s[0] <= ' ' then Trim(s[1..])
    else if s[|s| - 1] <= ' ' then Trim(s[..|s| - 1])
    else s
  }

  /** A query that trims to nothing. */
  predicate Blank(q: string) {
    forall k :: 0 <= k < |q| ==> q[k] <= ' '
  }

  lemma {:induction false} TrimEmptyIffBlank(s: string)
    ensures Trim(s) == "" <==> Blank(s)
    decreases |s|
  {
    if |s| > 0 {
      if s[0] <= ' ' {
        TrimEmptyIffBlank(s[1..]);
        assert forall k :: 1 <= k < |s| ==> s[k] == s[1..][k - 1];
      } else if s[|s| - 1] <= ' ' {
        TrimEmptyIffBlank(s[..|s| - 1]);
        assert !Blank(s[..|s| - 1]) by {
          assert s[..|s| - 1][0] == s[0];
        }
        assert !Blank(s);
      } else {
        assert !Blank(s);
      }
    }
  }

  /** The two repository queries behind `searchRecipes`. */
  datatype RecipeQuery = PriceFilterOnly | NameOrTags(query: string)

  /** A null or blank query filters by price alone; any other query also
      searches names and tags. */
  function ChooseQuery(query: Option<string>): (r: RecipeQuery)
    ensures r == PriceFilterOnly <==> query.None? || Blank(query.value)
    ensures r.NameOrTags? ==> r.query == query.value
  {
    if query.None? then PriceFilterOnly
    else
      TrimEmptyIffBlank(query.value);
      if Trim(query.value) == "" then PriceFilterOnly else NameOrTags(query.value)
  }
}

=== FILE: seqs.dfy ===
/** Sequence operations the services use: stream filtering, `List.remove`,
    de-duplication, slicing and mapping. */
module Seqs {

  /** `a` is obtained from `b` by deleting elements, keeping the order of the rest. */
  predicate IsSubseq<T(==)>(a: seq<T>, b: seq<T>)
    decreases |b|
  {
    if |a| == 0 then true
    else if |b| == 0 then false
    else (a[0] == b[0] && IsSubseq(a[1..], b[1..])) || IsSubseq(a, b[1..])
  }

  lemma {:induction false} SubseqRefl<T>(a: seq<T>)
    ensures IsSubseq(a, a)
    decreases |a|
  {
    if |a| > 0 {
      SubseqRefl(a[1..]);
    }
  }

  lemma {:induction false} SubseqTrans<T>(a: seq<T>, b: seq<T>, c: seq<T>)
    requires IsSubseq(a, b) && IsSubseq(b, c)
    ensures IsSubseq(a, c)
    decreases |c|
  {
    if |a| > 0 {
      if IsSubseq(b, c[1..]) {
        SubseqTrans(a, b, c[1..]);
      } else if a[0] == b[0] && IsSubseq(a[1..], b[1..]) {
        SubseqTrans(a[1..], b[1..], c[1..]);
      } else {
        SubseqTrans(a, b[1..], c[1..]);
      }
    }
  }

  /** `xs.stream().filter(p)`: the elements satisfying `p`, in their original order. */
  function Filter<T(==)>(xs: seq<T>, p: T -> bool): (r: seq<T>)
    ensures |r| <= |xs|
    ensures forall k :: 0 <= k < |r| ==> r[k] in xs && p(r[k])
    ensures forall k :: 0 <= k < |xs| && p(xs[k]) ==> xs[k] in r
    ensures IsSubseq(r, xs)
    decreases |xs|
  {
    if |xs| == 0 then []
    else
      var rest := Filter(xs[1..], p);
      assert forall k :: 0 < k < |xs| ==> xs[k] == xs[1..][k - 1];
      if p(xs[0]) then [xs[0]] + rest else rest
  }

  lemma {:induction false} ConcatAssoc<T>(a: seq<T>, b: seq<T>, c: seq<T>)
    ensures a + (b + c) == (a + b) + c
  {
  }

  /** Indexing past the first part of a concatenation lands in the second. */
  lemma {:induction false} IndexAfter<T>(whole: seq<T>, a: seq<T>, b: seq<T>, y: nat)
    requires whole == a + b
    requires y < |b|
    ensures |a| + y < |whole|
    ensures whole[|a| + y] == b[y]
  {
  }

  /** An element survives the filter exactly when it occurs and passes. */
  lemma {:induction false} FilterMember<T>(xs: seq<T>, p: T -> bool, x: T)
    ensures x in Filter(xs, p) <==> x in xs && p(x)
  {
    var r := Filter(xs, p);
    if x in r {
      var k :| 0 <= k < |r| && r[k] == x;
    }
    if x in xs && p(x) {
      var k :| 0 <= k < |xs| && xs[k] == x;
    }
  }

  /** How often `x` occurs in a filtered sequence. */
  lemma {:induction false} FilterCount<T>(xs: seq<T>, p: T -> bool, x: T)
    ensures multiset(Filter(xs, p))[x] == if p(x) then multiset(xs)[x] else 0
    decreases |xs|
  {
    if |xs| > 0 {
      var tail := xs[1..];
      var rest := Filter(tail, p);
      FilterCount(tail, p, x);
      assert xs == [xs[0]] + tail;
      assert multiset(xs) == multiset{xs[0]} + multiset(tail);
      if p(xs[0]) {
        assert Filter(xs, p) == [xs[0]] + rest;
        assert multiset(Filter(xs, p)) == multiset{xs[0]} + multiset(rest);
      } else {
        assert Filter(xs, p) == rest;
      }
    }
  }

  /** The indices at or after `from` whose elements satisfy `p`, in increasing order. */
  function PositionsFrom<T>(xs: seq<T>, p: T -> bool, from: nat): (r: seq<nat>)
    requires from <= |xs|
    ensures forall k :: 0 <= k < |r| ==> from <= r[k] < |xs| && p(xs[r[k]])
    ensures forall k, l :: 0 <= k < l < |r| ==> r[k] < r[l]
    ensures forall i :: from <= i < |xs| && p(xs[i]) ==> i in r
    decreases |xs| - from
  {
    if from == |xs| then []
    else
      var rest := PositionsFrom(xs, p, from + 1);
      if p(xs[from]) then [from] + rest else rest
  }

  /** The indices of the elements satisfying `p`: each such index once, in increasing order. */
  function Positions<T>(xs: seq<T>, p: T -> bool): (r: seq<nat>)
    ensures forall k :: 0 <= k < |r| ==> r[k] < |xs| && p(xs[r[k]])
    ensures forall k, l :: 0 <= k < l < |r| ==> r[k] < r[l]
    ensures forall i :: 0 <= i < |xs| && p(xs[i]) ==> i in r
  {
    PositionsFrom(xs, p, 0)
  }

  /** `f` lists the elements of `xs` at the indices `pos`, in order. */
  ghost predicate ElementsAt<T>(f: seq<T>, xs: seq<T>, pos: seq<nat>) {
    |f| == |pos| && forall k :: 0 <= k < |f| ==> pos[k] < |xs| && f[k] == xs[pos[k]]
  }

  /** Putting an element in front of a listing and its index in front of the indices. */
  lemma {:induction false} ElementsAtCons<T>(f: seq<T>, xs: seq<T>, pos: seq<nat>, i: nat)
    requires ElementsAt(f, xs, pos) && i < |xs|
    ensures ElementsAt([xs[i]] + f, xs, [i] + pos)
  {
    var g, q := [xs[i]] + f, [i] + pos;
    forall k | 0 < k < |g|
      ensures q[k] < |xs| && g[k] == xs[q[k]]
    {
      assert g[k] == f[k - 1] && q[k] == pos[k - 1];
    }
  }

  /** The filter of a suffix holds the elements at the suffix's passing positions, in order. */
  lemma {:induction false} FilterAtPositionsFrom<T>(xs: seq<T>, p: T -> bool, from: nat)
    requires from <= |xs|
    ensures ElementsAt(Filter(xs[from..], p), xs, PositionsFrom(xs, p, from))
    decreases |xs| - from
  {
    if from < |xs| {
      var ys := xs[from..];
      var rest := Filter(xs[from + 1..], p);
      var prest := PositionsFrom(xs, p, from + 1);
      FilterAtPositionsFrom(xs, p, from + 1);
      assert ys[1..] == xs[from + 1..];
      assert ys[0] == xs[from];
      if p(xs[from]) {
        ElementsAtCons(rest, xs, prest, from);
        assert Filter(ys, p) == [xs[from]] + rest;
      } else {
        assert Filter(ys, p) == rest;
      }
    }
  }

  /** A filter keeps one element per passing position, in the order of the positions. */
  lemma {:induction false} FilterAtPositions<T>(xs: seq<T>, p: T -> bool)
    ensures ElementsAt(Filter(xs, p), xs, Positions(xs, p))
  {
    FilterAtPositionsFrom(xs, p, 0);
    assert xs[0..] == xs;
  }

  /** Filtering with a predicate that holds everywhere changes nothing. */
  lemma {:induction false} FilterAll<T>(xs: seq<T>, p: T -> bool)
    requires forall k :: 0 <= k < |xs| ==> p(xs[k])
    ensures Filter(xs, p) == xs
    decreases |xs|
  {
    if |xs| > 0 {
      FilterAll(xs[1..], p);
      assert xs == [xs[0]] + xs[1..];
    }
  }

  /** Filtering with a predicate that holds nowhere leaves nothing. */
  lemma {:induction false} FilterNone<T>(xs: seq<T>, p: T -> bool)
    requires forall k :: 0 <= k < |xs| ==> !p(xs[k])
    ensures Filter(xs, p) == []
    decreases |xs|
  {
    if |xs| > 0 {
      FilterNone(xs[1..], p);
    }
  }

  /** Two predicates that agree on every element filter alike. */
  lemma {:induction false} FilterCongruent<T>(xs: seq<T>, p: T -> bool, q: T -> bool)
    requires forall k :: 0 <= k < |xs| ==> p(xs[k]) == q(xs[k])
    ensures Filter(xs, p) == Filter(xs, q)
    decreases |xs|
  {
    if |xs| > 0 {
      FilterCongruent(xs[1..], p, q);
    }
  }

  /** `List.remove(Object)`: deletes the first occurrence of `x`, if any. */
  function RemoveFirst<T(==)>(xs: seq<T>, x: T): (r: seq<T>)
    ensures multiset(r) == multiset(xs) - multiset{x}
    ensures IsSubseq(r, xs)
    ensures x in xs ==> |r| == |xs| - 1
    ensures x !in xs ==> r == xs
    ensures x in xs ==> exists i :: FirstAt(xs, x, i) && r == xs[..i] + xs[i + 1..]
    decreases |xs|
  {
    if |xs| == 0 then []
    else if xs[0] == x then
      assert xs == [xs[0]] + xs[1..];
      SubseqRefl(xs[1..]);
      assert FirstAt(xs, x, 0) && xs[1..] == xs[..0] + xs[1..];
      xs[1..]
    else
      var rest := RemoveFirst(xs[1..], x);
      RemoveFirstCons(xs, x, rest);
      [xs[0]] + rest
  }

  /** `x` occurs at `i` and nowhere before. */
  predicate FirstAt<T(==)>(xs: seq<T>, x: T, i: int) {
    0 <= i < |xs| && xs[i] == x && x !in xs[..i]
  }

  /** A first occurrence in the tail, shifted past a head that differs from `x`. */
  lemma {:induction false} FirstAtCons<T>(xs: seq<T>, x: T, i: int, rest: seq<T>)
    requires |xs| > 0 && xs[0] != x
    requires FirstAt(xs[1..], x, i) && rest == xs[1..][..i] + xs[1..][i + 1..]
    ensures FirstAt(xs, x, i + 1) && [xs[0]] + rest == xs[..i + 1] + xs[i + 2..]
  {
    assert xs[..i + 1] == [xs[0]] + xs[1..][..i];
    assert xs[i + 2..] == xs[1..][i + 1..];
  }

  /** Keeping the head in front of what the tail lost keeps the contracts. */
  lemma {:induction false} RemoveFirstCons<T>(xs: seq<T>, x: T, rest: seq<T>)
    requires |xs| > 0 && xs[0] != x
    requires multiset(rest) == multiset(xs[1..]) - multiset{x}
    requires IsSubseq(rest, xs[1..])
    requires x in xs[1..] ==> |rest| == |xs| - 2
    requires x !in xs[1..] ==> rest == xs[1..]
    requires x in xs[1..] ==> exists i :: FirstAt(xs[1..], x, i) && rest == xs[1..][..i] + xs[1..][i + 1..]
    ensures multiset([xs[0]] + rest) == multiset(xs) - multiset{x}
    ensures IsSubseq([xs[0]] + rest, xs)
    ensures x in xs ==> |[xs[0]] + rest| == |xs| - 1
    ensures x !in xs ==> [xs[0]] + rest == xs
    ensures x in xs ==> exists i :: FirstAt(xs, x, i) && [xs[0]] + rest == xs[..i] + xs[i + 1..]
  {
    if x in xs[1..] {
      var i :| FirstAt(xs[1..], x, i) && rest == xs[1..][..i] + xs[1..][i + 1..];
      FirstAtCons(xs, x, i, rest);
    }
    var ys := [xs[0]] + rest;
    assert xs == [xs[0]] + xs[1..];
    assert ys[1..] == rest;
    assert ys[0] == xs[0];
    assert multiset(xs) == multiset{xs[0]} + multiset(xs[1..]);
    assert multiset(ys) == multiset{xs[0]} + multiset(rest);
    MultisetConsDiff(xs[0], multiset(xs[1..]), x);
    assert x in xs <==> x in xs[1..];
  }

  /** Adding an element other than `x` commutes with taking one `x` away. */
  lemma {:induction false} MultisetConsDiff<T>(a: T, m: multiset<T>, x: T)
    requires a != x
    ensures multiset{a} + (m - multiset{x}) == (multiset{a} + m) - multiset{x}
  {
    forall y
      ensures (multiset{a} + (m - multiset{x}))[y] == ((multiset{a} + m) - multiset{x})[y]
    {
    }
  }

  /** Removes the first occurrence of each element of `ys` in turn. */
  function RemoveEach<T(==)>(xs: seq<T>, ys: seq<T>): (r: seq<T>)
    ensures multiset(r) == multiset(xs) - multiset(ys)
    ensures IsSubseq(r, xs)
    decreases |ys|
  {
    if |ys| == 0 then
      SubseqRefl(xs);
      xs
    else
      var once := RemoveFirst(xs, ys[0]);
      var r := RemoveEach(once, ys[1..]);
      RemoveEachStep(xs, ys, once, r);
      r
  }

  lemma {:induction false} RemoveEachStep<T>(xs: seq<T>, ys: seq<T>, once: seq<T>, r: seq<T>)
    requires |ys| > 0
    requires multiset(once) == multiset(xs) - multiset{ys[0]} && IsSubseq(once, xs)
    requires multiset(r) == multiset(once) - multiset(ys[1..]) && IsSubseq(r, once)
    ensures multiset(r) == multiset(xs) - multiset(ys)
    ensures IsSubseq(r, xs)
  {
    assert ys == [ys[0]] + ys[1..];
    assert multiset(ys) == multiset{ys[0]} + multiset(ys[1..]);
    MultisetDiffTwice(multiset(xs), multiset{ys[0]}, multiset(ys[1..]));
    SubseqTrans(r, once, xs);
  }

  /** Each removal deletes at most one element. */
  lemma {:induction false} RemoveEachLength<T>(xs: seq<T>, ys: seq<T>)
    ensures |xs| - |ys| <= |RemoveEach(xs, ys)| <= |xs|
    decreases |ys|
  {
    if |ys| > 0 {
      var once := RemoveFirst(xs, ys[0]);
      RemoveEachLength(once, ys[1..]);
      if ys[0] !in xs {
        assert once == xs;
      }
    }
  }

  lemma {:induction false} MultisetDiffTwice<T>(a: multiset<T>, b: multiset<T>, c: multiset<T>)
    ensures a - b - c == a - (b + c)
  {
    forall x
      ensures (a - b - c)[x] == (a - (b + c))[x]
    {
    }
  }

  /** No element occurs twice. */
  predicate Distinct<T(==)>(xs: seq<T>) {
    forall i, j :: 0 <= i < j < |xs| ==> xs[i] != xs[j]
  }

  /** The first occurrence of each element, in order of first appearance. */
  function Dedupe<T(==)>(xs: seq<T>): (r: seq<T>)
    ensures forall k :: 0 <= k < |r| ==> r[k] in xs
    ensures forall k :: 0 <= k < |xs| ==> xs[k] in r
    ensures Distinct(r)
    decreases |xs|
  {
    if |xs| == 0 then []
    else
      var init := xs[..|xs| - 1];
      var d := Dedupe(init);
      assert xs == init + [xs[|xs| - 1]];
      if xs[|xs| - 1] in d then d else d + [xs[|xs| - 1]]
  }

  /** `xs.stream().map(f)`. */
  function MapSeq<A, B>(xs: seq<A>, f: A -> B): (r: seq<B>)
    ensures |r| == |xs|
    ensures forall k :: 0 <= k < |xs| ==> r[k] == f(xs[k])
  {
    seq(|xs|, k requires 0 <= k < |xs| => f(xs[k]))
  }

  /** The image of an element occurs in the image of the sequence. */
  lemma {:induction false} MapSeqMember<A, B>(xs: seq<A>, f: A -> B, x: A)
    requires x in xs
    ensures f(x) in MapSeq(xs, f)
  {
    var k :| 0 <= k < |xs| && xs[k] == x;
    assert MapSeq(xs, f)[k] == f(x);
  }

  function Min(a: int, b: int): int {
    if a <= b then a else b
  }

  /** `skip(start).limit(len)`: at most `len` elements starting at index `start`. */
  function Slice<T>(xs: seq<T>, start: nat, len: nat): (r: seq<T>)
    ensures |r| == if start >= |xs| then 0 else Min(len, |xs| - start)
    ensures forall k :: 0 <= k < |r| ==> start + k < |xs| && r[k] == xs[start + k]
  {
    if start >= |xs| then [] else xs[start..Min(start + len, |xs|)]
  }
}

=== FILE: substrings.dfy ===
/** `generateSubstrings`: every contiguous run of query words, as one string,
    ordered by start index and then by end index. The services glue a run
    together in two ways, and the two agree unless the first word is empty.

    The order is stated on index pairs: the list is the run glued at each
    pair (i, j), i <= j, taken by start index and then by end index. */
module Spans {
  import opened Text
  import opened Seqs

  /** `String.join(" ", …)`, or the `StringBuilder` loop that inserts a space
      only when the buffer is already non-empty. */
  datatype Glue = JoinWithSpace | AppendToBuilder

  /** The builder's contents after appending the words in order. */
  function BuilderText(ws: seq<string>): string
    decreases |ws|
  {
    if |ws| == 0 then ""
    else
      var acc := BuilderText(ws[..|ws| - 1]);
      if |acc| > 0 then acc + " " + ws[|ws| - 1] else acc + ws[|ws| - 1]
  }

  function Glued(g: Glue, ws: seq<string>): string {
    match g
    case JoinWithSpace => Join(ws)
    case AppendToBuilder => BuilderText(ws)
  }

  /** The words `ws[i]` through `ws[j]`, glued. */
  function Run(g: Glue, ws: seq<string>, i: nat, j: nat): string
    requires i <= j < |ws|
  {
    Glued(g, ws[i..j + 1])
  }

  /** The index pair of a run: its first and its last word. */
  datatype Span = Span(first: int, last: int)

  /** The run at index pair `p`, or "" for a pair that names no run. */
  function RunAt(g: Glue, ws: seq<string>, p: Span): string {
    if 0 <= p.first <= p.last < |ws| then Run(g, ws, p.first, p.last) else ""
  }

  /** The runs at the given index pairs, in order. */
  function Runs(g: Glue, ws: seq<string>, ps: seq<Span>): seq<string> {
    seq(|ps|, k requires 0 <= k < |ps| => RunAt(g, ws, ps[k]))
  }

  /** The pairs (i, j), (i, j + 1), …, (i, n - 1). */
  function RowPairs(n: nat, i: nat, j: nat): seq<Span>
    requires j <= n
    decreases n - j
  {
    if j == n then [] else [Span(i, j)] + RowPairs(n, i, j + 1)
  }

  /** The pairs (i, j) with s <= i <= j < n, by start index and then by end index. */
  function PairsFrom(n: nat, s: nat): seq<Span>
    requires s <= n
    decreases n - s
  {
    if s == n then [] else RowPairs(n, s, s) + PairsFrom(n, s + 1)
  }

  /** The pairs whose start lies in [s, i), in order. */
  function PairsBetween(n: nat, s: nat, i: nat): seq<Span>
    requires s <= i <= n
    decreases i - s
  {
    if s == i then [] else RowPairs(n, s, s) + PairsBetween(n, s + 1, i)
  }

  /** The list `generateSubstrings` returns for the words `ws`. */
  function Substrings(g: Glue, ws: seq<string>): seq<string> {
    Runs(g, ws, PairsFrom(|ws|, 0))
  }

  /** The substrings of a raw query: lower-cased, split on `\s+`, joined with spaces. */
  function QuerySubstrings(query: string): seq<string> {
    Substrings(JoinWithSpace, QueryWords(query))
  }

  /** The triangular number m(m+1)/2, the number of runs among m words. */
  function Tri(m: nat): nat {
    if m == 0 then 0 else m + Tri(m - 1)
  }

  lemma {:induction false} TriClosedForm(m: nat)
    ensures Tri(m) == m * (m + 1) / 2
  {
    if m > 0 {
      TriClosedForm(m - 1);
    }
  }

  /** The number of pairs whose start lies in [s, i). */
  function Off(n: nat, s: nat, i: nat): nat
    requires s <= i <= n
    decreases i - s
  {
    if s == i then 0 else (n - s) + Off(n, s + 1, i)
  }

  lemma {:induction false} OffIsTriDifference(n: nat, s: nat, i: nat)
    requires s <= i <= n
    ensures Off(n, s, i) == Tri(n - s) - Tri(n - i)
    decreases i - s
  {
    if s < i {
      OffIsTriDifference(n, s + 1, i);
    }
  }

  // The order of the index pairs.

  lemma {:induction false} RowPairsAt(n: nat, i: nat, j: nat)
    requires j <= n
    ensures |RowPairs(n, i, j)| == n - j
    ensures forall k :: 0 <= k < n - j ==> RowPairs(n, i, j)[k] == Span(i, j + k)
    decreases n - j
  {
    if j < n {
      RowPairsAt(n, i, j + 1);
      var rest := RowPairs(n, i, j + 1);
      assert RowPairs(n, i, j) == [Span(i, j)] + rest;
      forall k | 0 < k < n - j
        ensures RowPairs(n, i, j)[k] == Span(i, j + k)
      {
        assert RowPairs(n, i, j)[k] == rest[k - 1];
      }
    }
  }

  lemma {:induction false} PairsFromLength(n: nat, s: nat)
    requires s <= n
    ensures |PairsFrom(n, s)| == Tri(n - s)
    decreases n - s
  {
    if s < n {
      RowPairsAt(n, s, s);
      PairsFromLength(n, s + 1);
    }
  }

  /** The pairs starting in [s, i) come before those starting at `i` or later. */
  lemma {:induction false} PairsFromSplit(n: nat, s: nat, i: nat)
    requires s <= i <= n
    ensures PairsFrom(n, s) == PairsBetween(n, s, i) + PairsFrom(n, i)
    decreases i - s
  {
    if s < i {
      PairsFromSplit(n, s + 1, i);
      ConcatAssoc(RowPairs(n, s, s), PairsBetween(n, s + 1, i), PairsFrom(n, i));
    }
  }

  lemma {:induction false} PairsBetweenLength(n: nat, s: nat, i: nat)
    requires s <= i <= n
    ensures |PairsBetween(n, s, i)| == Off(n, s, i)
    decreases i - s
  {
    if s < i {
      RowPairsAt(n, s, s);
      PairsBetweenLength(n, s + 1, i);
    }
  }

  /** Pair (i, j) sits at position Off(n, s, i) + (j - i) among the pairs
      starting at `s` or later. */
  lemma {:induction false} PairsAt(n: nat, s: nat, i: nat, j: nat)
    requires s <= i <= j < n
    ensures Off(n, s, i) + (j - i) < |PairsFrom(n, s)|
    ensures PairsFrom(n, s)[Off(n, s, i) + (j - i)] == Span(i, j)
  {
    PairsFromAtStart(n, i, j);
    PairsSkip(n, s, i, j - i);
  }

  /** The pairs starting at `i` sit, in order, after the Off(n, s, i) pairs
      that start in [s, i). */
  lemma {:induction false} PairsSkip(n: nat, s: nat, i: nat, y: nat)
    requires s <= i <= n
    requires y < |PairsFrom(n, i)|
    ensures Off(n, s, i) + y < |PairsFrom(n, s)|
    ensures PairsFrom(n, s)[Off(n, s, i) + y] == PairsFrom(n, i)[y]
  {
    PairsFromSplit(n, s, i);
    PairsBetweenLength(n, s, i);
    IndexAfter(PairsFrom(n, s), PairsBetween(n, s, i), PairsFrom(n, i), y);
  }

  /** The row starting at `i` comes first among the pairs starting at `i` or later. */
  lemma {:induction false} PairsFromAtStart(n: nat, i: nat, j: nat)
    requires i <= j < n
    ensures j - i < |PairsFrom(n, i)|
    ensures PairsFrom(n, i)[j - i] == Span(i, j)
  {
    var row := RowPairs(n, i, i);
    RowPairsAt(n, i, i);
    assert PairsFrom(n, i) == row + PairsFrom(n, i + 1);
    assert row[j - i] == Span(i, j);
  }

  /** Every pair lies on the triangle s <= i <= j < n. */
  lemma {:induction false} PairsFromInTriangle(n: nat, s: nat)
    requires s <= n
    ensures forall k :: 0 <= k < |PairsFrom(n, s)| ==>
      s <= PairsFrom(n, s)[k].first <= PairsFrom(n, s)[k].last < n
    decreases n - s
  {
    if s < n {
      RowPairsAt(n, s, s);
      PairsFromInTriangle(n, s + 1);
      var row, rest := RowPairs(n, s, s), PairsFrom(n, s + 1);
      assert PairsFrom(n, s) == row + rest;
      forall k | 0 <= k < |PairsFrom(n, s)|
        ensures s <= PairsFrom(n, s)[k].first <= PairsFrom(n, s)[k].last < n
      {
        if k >= |row| {
          assert PairsFrom(n, s)[k] == rest[k - |row|];
        }
      }
    }
  }

  // Gluing the runs at a list of pairs.

  /** Gluing one more pair appends its run. */
  lemma {:induction false} RunsSnoc(g: Glue, ws: seq<string>, ps: seq<Span>, p: Span)
    ensures Runs(g, ws, ps + [p]) == Runs(g, ws, ps) + [RunAt(g, ws, p)]
  {
    var longer, appended := Runs(g, ws, ps + [p]), Runs(g, ws, ps) + [RunAt(g, ws, p)];
    forall k | 0 <= k < |longer|
      ensures longer[k] == appended[k]
    {
      if k < |ps| {
        assert (ps + [p])[k] == ps[k];
      }
    }
  }

  // The substrings of a list of words.

  /** For n words there are exactly n(n+1)/2 substrings. */
  lemma {:induction false} SubstringsCount(g: Glue, ws: seq<string>)
    ensures |Substrings(g, ws)| == |ws| * (|ws| + 1) / 2
  {
    PairsFromLength(|ws|, 0);
    TriClosedForm(|ws|);
  }

  /** Run (i, j) sits at position Off(n, 0, i) + (j - i), where Off(n, 0, i) =
      Tri(n) - Tri(n - i) counts the runs with a smaller start: runs are
      ordered by start index, then by end index. */
  lemma {:induction false} SubstringsAt(g: Glue, ws: seq<string>, i: nat, j: nat)
    requires i <= j < |ws|
    ensures Off(|ws|, 0, i) + (j - i) < |Substrings(g, ws)|
    ensures Substrings(g, ws)[Off(|ws|, 0, i) + (j - i)] == Glued(g, ws[i..j + 1])
  {
    var ps, p := PairsFrom(|ws|, 0), Off(|ws|, 0, i) + (j - i);
    PairsAt(|ws|, 0, i, j);
    RunsIndex(g, ws, ps, p, i, j);
  }

  /** The run at a position holding pair (i, j) is words i through j, glued. */
  lemma {:induction false} RunsIndex(g: Glue, ws: seq<string>, ps: seq<Span>, p: nat, i: nat, j: nat)
    requires i <= j < |ws|
    requires p < |ps| && ps[p] == Span(i, j)
    ensures p < |Runs(g, ws, ps)|
    ensures Runs(g, ws, ps)[p] == Glued(g, ws[i..j + 1])
  {
  }

  lemma {:induction false} RunAtSpan(g: Glue, ws: seq<string>, i: nat, j: nat)
    requires i <= j < |ws|
    ensures RunAt(g, ws, Span(i, j)) == Glued(g, ws[i..j + 1])
  {
  }

  lemma {:induction false} OffFromStart(n: nat, i: nat)
    requires i <= n
    ensures Off(n, 0, i) == Tri(n) - Tri(n - i)
  {
    OffIsTriDifference(n, 0, i);
  }

  /** Every substring is some run of words glued together. */
  lemma {:induction false} SubstringsMembers(g: Glue, ws: seq<string>, x: string)
    requires x in Substrings(g, ws)
    ensures exists i, j :: 0 <= i <= j < |ws| && x == Run(g, ws, i, j)
  {
    var ps := PairsFrom(|ws|, 0);
    PairsFromInTriangle(|ws|, 0);
    var k :| 0 <= k < |Substrings(g, ws)| && Substrings(g, ws)[k] == x;
    assert x == Run(g, ws, ps[k].first, ps[k].last);
  }

  /** Every single word, and the whole query joined by single spaces, is a substring. */
  lemma {:induction false} WordsAndWholeAreSubstrings(ws: seq<string>)
    ensures forall k :: 0 <= k < |ws| ==> ws[k] in Substrings(JoinWithSpace, ws)
    ensures |ws| > 0 ==> Join(ws) in Substrings(JoinWithSpace, ws)
  {
    forall k | 0 <= k < |ws|
      ensures ws[k] in Substrings(JoinWithSpace, ws)
    {
      SubstringsAt(JoinWithSpace, ws, k, k);
      assert ws[k..k + 1] == [ws[k]];
    }
    if |ws| > 0 {
      SubstringsAt(JoinWithSpace, ws, 0, |ws| - 1);
      assert ws[0..|ws|] == ws;
    }
  }

  /** Every substring is contained in the whole query joined by single spaces. */
  lemma {:induction false} SubstringsInWhole(ws: seq<string>, x: string)
    requires x in Substrings(JoinWithSpace, ws)
    ensures Contains(Join(ws), x)
  {
    SubstringsMembers(JoinWithSpace, ws, x);
    var i, j :| 0 <= i <= j < |ws| && x == Run(JoinWithSpace, ws, i, j);
    JoinSpanContained(ws, i, j);
  }

  /** No words, no substrings. */
  lemma {:induction false} SubstringsEmpty(g: Glue, ws: seq<string>)
    ensures Substrings(g, ws) == [] <==> ws == []
  {
    SubstringsCount(g, ws);
  }

  /** The empty query yields the single substring "". */
  lemma {:induction false} EmptyQuerySubstrings()
    ensures QuerySubstrings("") == [""]
  {
    var ws := [""];
    assert Lower("") == "";
    assert QueryWords("") == ws;
    assert PairsFrom(1, 0) == [Span(0, 0)];
    assert ws[0..1] == ws;
    assert RunAt(JoinWithSpace, ws, Span(0, 0)) == "";
    assert [Span(0, 0)][1..] == [];
  }

  /** The builder text equals the join when the first word is non-empty. */
  lemma {:induction false} BuilderTextIsJoin(ws: seq<string>)
    requires |ws| > 0 ==> ws[0] != ""
    ensures BuilderText(ws) == Join(ws)
    ensures |ws| > 0 ==> |BuilderText(ws)| > 0
    decreases |ws|
  {
    if |ws| > 1 {
      var init := ws[..|ws| - 1];
      BuilderTextIsJoin(init);
      assert ws == init + [ws[|ws| - 1]];
      JoinAppend(init, [ws[|ws| - 1]]);
    } else if |ws| == 1 {
      assert ws[..0] == [];
    }
  }

  /** The two `generateSubstrings` variants agree when no word is empty ... */
  lemma {:induction false} GluesAgree(ws: seq<string>)
    requires forall k :: 0 <= k < |ws| ==> ws[k] != ""
    ensures Substrings(AppendToBuilder, ws) == Substrings(JoinWithSpace, ws)
  {
    var ps := PairsFrom(|ws|, 0);
    PairsFromInTriangle(|ws|, 0);
    forall k | 0 <= k < |ps|
      ensures RunAt(AppendToBuilder, ws, ps[k]) == RunAt(JoinWithSpace, ws, ps[k])
    {
      BuilderTextIsJoin(ws[ps[k].first..ps[k].last + 1]);
    }
    assert Runs(AppendToBuilder, ws, ps) == Runs(JoinWithSpace, ws, ps);
  }

  /** A text that does not start with a separator splits into a non-empty first word. */
  lemma {:induction false} SplitFirstWord(s: string)
    requires |s| > 0 && !IsSpace(s[0])
    ensures |Split(s)| > 0 && Split(s)[0] != ""
  {
    if FirstSpace(s) < |s| {
      PiecesHead(s);
      var p := Pieces(s);
      var r := DropTrailingEmpty(p);
      assert p[0] != "";
      assert |r| > 0;
      assert r[0] == p[0];
    } else {
      assert s[..FirstSpace(s)] == s;
    }
  }

  /** For the words of a query that does not start with white space, the
      empty query included, the `StringBuilder` variant gives the same spans
      as the `String.join` variant. */
  lemma {:induction false} QueryGluesAgree(query: string)
    requires query == "" || !IsSpace(query[0])
    ensures Substrings(AppendToBuilder, QueryWords(query)) == QuerySubstrings(query)
  {
    var ws := QueryWords(query);
    if query == "" {
      EmptyQuerySubstrings();
      assert ws == [""];
      assert PairsFrom(1, 0) == [Span(0, 0)];
      assert ws[0..1] == ws;
      assert BuilderText(ws[..0]) == "";
      assert RunAt(AppendToBuilder, ws, Span(0, 0)) == "";
    } else {
      LowerKeepsSpaces(query);
      SplitFirstWord(Lower(query));
      SplitWellSplit(Lower(query));
      GluesAgree(ws);
    }
  }

  /** ... but not for the words of a query with leading whitespace, whose first
      word is empty: the join keeps a leading space that the builder omits. */
  lemma {:induction false} GluesDisagreeOnLeadingSpace()
    ensures QueryWords(" a") == ["", "a"]
    ensures |Substrings(AppendToBuilder, ["", "a"])| == |Substrings(JoinWithSpace, ["", "a"])| == 3
    ensures Substrings(AppendToBuilder, ["", "a"])[1] == "a"
    ensures Substrings(JoinWithSpace, ["", "a"])[1] == " a"
  {
    LeadingSpaceWords();
    SubstringsCount(AppendToBuilder, ["", "a"]);
    SubstringsCount(JoinWithSpace, ["", "a"]);
    BuilderSkipsEmptyWord();
    JoinKeepsEmptyWord();
  }

  lemma {:induction false} BuilderSkipsEmptyWord()
    ensures 1 < |Substrings(AppendToBuilder, ["", "a"])|
    ensures Substrings(AppendToBuilder, ["", "a"])[1] == "a"
  {
    var ws := ["", "a"];
    SubstringsAt(AppendToBuilder, ws, 0, 1);
    assert ws[0..2] == ws;
    assert ws[..1] == [""];
    assert BuilderText([""]) == "";
  }

  lemma {:induction false} JoinKeepsEmptyWord()
    ensures 1 < |Substrings(JoinWithSpace, ["", "a"])|
    ensures Substrings(JoinWithSpace, ["", "a"])[1] == " a"
  {
    var ws := ["", "a"];
    SubstringsAt(JoinWithSpace, ws, 0, 1);
    assert ws[0..2] == ws;
    assert ws[1..] == ["a"];
  }

  lemma {:induction false} LeadingSpaceWords()
    ensures QueryWords(" a") == ["", "a"]
  {
    var s := " a";
    assert Lower(s) == s;
    assert FirstSpace(s) == 0;
    assert SkipSpaces(s, 1) == 1;
    assert s[1..] == "a";
    assert FirstSpace("a") == 1;
    assert Pieces("a") == ["a"];
    assert Pieces(s) == ["", "a"];
  }

  // The two nested loops, step by step.

  /** Gluing the runs at two lists of pairs one after the other. */
  lemma {:induction false} RunsAppend(g: Glue, ws: seq<string>, ps: seq<Span>, qs: seq<Span>)
    ensures Runs(g, ws, ps + qs) == Runs(g, ws, ps) + Runs(g, ws, qs)
  {
    var longer, appended := Runs(g, ws, ps + qs), Runs(g, ws, ps) + Runs(g, ws, qs);
    forall k | 0 <= k < |longer|
      ensures longer[k] == appended[k]
    {
      if k < |ps| {
        assert (ps + qs)[k] == ps[k];
      } else {
        assert (ps + qs)[k] == qs[k - |ps|];
      }
    }
  }

  /** Emitting pair (i, j) moves the inner loop one end index on. */
  lemma {:induction false} RowStep(n: nat, i: nat, j: nat, done: seq<Span>, row: seq<Span>)
    requires i <= j < n
    requires done + RowPairs(n, i, j) == row
    ensures (done + [Span(i, j)]) + RowPairs(n, i, j + 1) == row
  {
    var next := RowPairs(n, i, j + 1);
    assert RowPairs(n, i, j) == [Span(i, j)] + next;
    ConcatAssoc(done, [Span(i, j)], next);
  }

  /** Leaving the inner loop: the row of start index i is complete. */
  lemma {:induction false} RowDone(n: nat, i: nat, done: seq<Span>, row: seq<Span>)
    requires i <= n
    requires done + RowPairs(n, i, n) == row
    ensures done == row
  {
    assert RowPairs(n, i, n) == [];
    assert done + RowPairs(n, i, n) == done;
  }

  /** Emitting the run at (i, j) extends the runs glued so far by that pair. */
  lemma {:induction false} EmitStep(g: Glue, ws: seq<string>, i: nat, j: nat, done: seq<Span>,
                                    subs: seq<string>, run: string)
    requires i <= j < |ws|
    requires subs == Runs(g, ws, done)
    requires run == Glued(g, ws[i..j + 1])
    ensures subs + [run] == Runs(g, ws, done + [Span(i, j)])
  {
    RunsSnoc(g, ws, done, Span(i, j));
    RunAtSpan(g, ws, i, j);
  }

  /** Emitting a whole row moves the outer loop one start index on. */
  lemma {:induction false} RowsStep(g: Glue, ws: seq<string>, i: nat, done: seq<Span>, all: seq<Span>,
                                    subs: seq<string>, row: seq<string>)
    requires i < |ws|
    requires done + PairsFrom(|ws|, i) == all
    requires subs == Runs(g, ws, done)
    requires row == Runs(g, ws, RowPairs(|ws|, i, i))
    ensures (done + RowPairs(|ws|, i, i)) + PairsFrom(|ws|, i + 1) == all
    ensures subs + row == Runs(g, ws, done + RowPairs(|ws|, i, i))
  {
    assert PairsFrom(|ws|, i) == RowPairs(|ws|, i, i) + PairsFrom(|ws|, i + 1);
    ConcatAssoc(done, RowPairs(|ws|, i, i), PairsFrom(|ws|, i + 1));
    RunsAppend(g, ws, done, RowPairs(|ws|, i, i));
  }

  /** The inner loop of `generateSubstrings(String)`: the runs starting at
      word i, each glued with `String.join`. */
  method JoinedRow(ws: seq<string>, i: nat) returns (row: seq<string>)
    requires i < |ws|
    ensures row == Runs(JoinWithSpace, ws, RowPairs(|ws|, i, i))
  {
    ghost var done: seq<Span> := [];
    row := [];
    var j := i;
    while j < |ws|
      invariant i <= j <= |ws|
      invariant done + RowPairs(|ws|, i, j) == RowPairs(|ws|, i, i)
      invariant row == Runs(JoinWithSpace, ws, done)
    {
      RowStep(|ws|, i, j, done, RowPairs(|ws|, i, i));
      var run := Join(ws[i..j + 1]);
      EmitStep(JoinWithSpace, ws, i, j, done, row, run);
      row := row + [run];
      done := done + [Span(i, j)];
      j := j + 1;
    }
    RowDone(|ws|, i, done, RowPairs(|ws|, i, i));
  }

  /** `generateSubstrings(String)` with `String.join`: one row per start index. */
  method GenerateJoined(ws: seq<string>) returns (subs: seq<string>)
    ensures subs == Substrings(JoinWithSpace, ws)
  {
    ghost var all := PairsFrom(|ws|, 0);
    ghost var done: seq<Span> := [];
    subs := [];
    var i := 0;
    while i < |ws|
      invariant 0 <= i <= |ws|
      invariant subs == Runs(JoinWithSpace, ws, done)
      invariant done + PairsFrom(|ws|, i) == all
    {
      var row := JoinedRow(ws, i);
      RowsStep(JoinWithSpace, ws, i, done, all, subs, row);
      subs := subs + row;
      done := done + RowPairs(|ws|, i, i);
      i := i + 1;
    }
    assert done + [] == done;
  }

  /** Appending word j to the builder holding words i .. j - 1. */
  lemma {:induction false} BuilderStep(ws: seq<string>, i: nat, j: nat, acc: string, sb: string)
    requires i <= j < |ws|
    requires acc == BuilderText(ws[i..j])
    requires sb == if |acc| > 0 then acc + " " + ws[j] else acc + ws[j]
    ensures sb == Glued(AppendToBuilder, ws[i..j + 1])
  {
    assert ws[i..j + 1][..j - i] == ws[i..j];
  }

  /** The inner loop of `generateSubstrings(String[])`: the runs starting at
      word i, built up in one `StringBuilder`. */
  method BuiltRow(ws: seq<string>, i: nat) returns (row: seq<string>)
    requires i < |ws|
    ensures row == Runs(AppendToBuilder, ws, RowPairs(|ws|, i, i))
  {
    ghost var done: seq<Span> := [];
    row := [];
    var sb := "";
    var j := i;
    assert ws[i..i] == [];
    while j < |ws|
      invariant i <= j <= |ws|
      invariant sb == BuilderText(ws[i..j])
      invariant done + RowPairs(|ws|, i, j) == RowPairs(|ws|, i, i)
      invariant row == Runs(AppendToBuilder, ws, done)
    {
      RowStep(|ws|, i, j, done, RowPairs(|ws|, i, i));
      ghost var acc := sb;
      if |sb| > 0 {
        sb := sb + " ";
      }
      sb := sb + ws[j];
      BuilderStep(ws, i, j, acc, sb);
      EmitStep(AppendToBuilder, ws, i, j, done, row, sb);
      row := row + [sb];
      done := done + [Span(i, j)];
      j := j + 1;
    }
    RowDone(|ws|, i, done, RowPairs(|ws|, i, i));
  }

  /** `generateSubstrings(String[])` with a `StringBuilder`: one row per start index. */
  method GenerateBuilt(ws: seq<string>) returns (subs: seq<string>)
    ensures subs == Substrings(AppendToBuilder, ws)
  {
    ghost var all := PairsFrom(|ws|, 0);
    ghost var done: seq<Span> := [];
    subs := [];
    var i := 0;
    while i < |ws|
      invariant 0 <= i <= |ws|
      invariant subs == Runs(AppendToBuilder, ws, done)
      invariant done + PairsFrom(|ws|, i) == all
    {
      var row := BuiltRow(ws, i);
      RowsStep(AppendToBuilder, ws, i, done, all, subs, row);
      subs := subs + row;
      done := done + RowPairs(|ws|, i, i);
      i := i + 1;
    }
    assert done + [] == done;
  }
}

=== FILE: text.dfy ===
/** Strings as the services see them: ASCII lower-casing, substring containment,
    joining words with single spaces, and Java's `String.split("\\s+")`. */
module Text {

  /** Java's regular-expression class `\s`: space, tab, newline, vertical tab,
      form feed and carriage return. */
  predicate IsSpace(c: char) {
    c == ' ' || c == '\t' || c == '\n' || c == '\U{0B}' || c == '\U{0C}' || c == '\r'
  }

  /** A string with no `\s` character in it. */
  predicate NoSpace(w: string) {
    forall i :: 0 <= i < |w| ==> !IsSpace(w[i])
  }

  /** `Character.toLowerCase`, restricted to ASCII letters. */
  function LowerChar(c: char): char {
    if 'A' <= c <= 'Z' then (c as int + 32) as char else c
  }

  /** `String.toLowerCase`, restricted to ASCII letters. */
  function Lower(s: string): (r: string)
    ensures |r| == |s|
    ensures forall i :: 0 <= i < |s| ==> r[i] == LowerChar(s[i])
  {
    seq(|s|, i requires 0 <= i < |s| => LowerChar(s[i]))
  }

  lemma LowerIdempotent(s: string)
    ensures Lower(Lower(s)) == Lower(s)
  {
  }

  lemma LowerKeepsSpaces(s: string)
    ensures forall i :: 0 <= i < |s| ==> (IsSpace(Lower(s)[i]) <==> IsSpace(s[i]))
  {
  }

  /** `t` occurs in `s` starting at index `k`. */
  predicate OccursAt(s: string, t: string, k: int) {
    0 <= k && k + |t| <= |s| && s[k..k + |t|] == t
  }

  /** `String.contains`: `t` is a contiguous piece of `s`. */
  predicate Contains(s: string, t: string) {
    exists k | 0 <= k <= |s| - |t| :: OccursAt(s, t, k)
  }

  lemma {:induction false} ContainsEmpty(s: string)
    ensures Contains(s, "")
  {
    assert OccursAt(s, "", 0);
  }

  lemma {:induction false} ContainsInEmpty(t: string)
    ensures Contains("", t) <==> t == ""
  {
    if t == "" {
      ContainsEmpty("");
    }
  }

  /** The middle of a concatenation is contained in it. */
  lemma {:induction false} ContainsMiddle(a: string, b: string, c: string)
    ensures Contains(a + b + c, b)
  {
    var s := a + b + c;
    assert s[|a|..|a| + |b|] == b;
    assert OccursAt(s, b, |a|);
  }

  /** Containment is transitive. */
  lemma {:induction false} ContainsTransitive(a: string, b: string, c: string)
    requires Contains(a, b) && Contains(b, c)
    ensures Contains(a, c)
  {
    var i :| 0 <= i <= |a| - |b| && OccursAt(a, b, i);
    var j :| 0 <= j <= |b| - |c| && OccursAt(b, c, j);
    forall k | 0 <= k < |c|
      ensures a[i + j + k] == c[k]
    {
      assert a[i + j + k] == a[i..i + |b|][j + k] == b[j + k];
      assert b[j + k] == b[j..j + |c|][k];
    }
    assert a[i + j..i + j + |c|] == c;
    assert OccursAt(a, c, i + j);
  }

  /** `String.join(" ", ws)`. */
  function Join(ws: seq<string>): string {
    if |ws| == 0 then "" else if |ws| == 1 then ws[0] else ws[0] + " " + Join(ws[1..])
  }

  lemma {:induction false} JoinAppend(a: seq<string>, b: seq<string>)
    requires |a| > 0 && |b| > 0
    ensures Join(a + b) == Join(a) + " " + Join(b)
    decreases |a|
  {
    if |a| == 1 {
      assert (a + b)[1..] == b;
    } else {
      assert (a + b)[1..] == a[1..] + b;
      JoinAppend(a[1..], b);
    }
  }

  /** The words up to `j` are contained in the join of all words. */
  lemma {:induction false} JoinPrefixContained(ws: seq<string>, j: int)
    requires 0 <= j < |ws|
    ensures Contains(Join(ws), Join(ws[..j + 1]))
  {
    var upto, post := ws[..j + 1], ws[j + 1..];
    if j + 1 == |ws| {
      assert upto == ws;
      ContainsMiddle("", Join(ws), "");
      assert "" + Join(ws) + "" == Join(ws);
    } else {
      assert ws == upto + post;
      JoinAppend(upto, post);
      ContainsMiddle("", Join(upto), " " + Join(post));
      assert "" + Join(upto) + (" " + Join(post)) == Join(ws);
    }
  }

  /** The words from `i` on are contained in the join of all words. */
  lemma {:induction false} JoinSuffixContained(ws: seq<string>, i: int)
    requires 0 <= i < |ws|
    ensures Contains(Join(ws), Join(ws[i..]))
  {
    var pre, post := ws[..i], ws[i..];
    if i == 0 {
      assert post == ws;
      ContainsMiddle("", Join(ws), "");
      assert "" + Join(ws) + "" == Join(ws);
    } else {
      assert ws == pre + post;
      JoinAppend(pre, post);
      ContainsMiddle(Join(pre) + " ", Join(post), "");
      assert Join(pre) + " " + Join(post) + "" == Join(ws);
    }
  }

  /** Every contiguous run of words is contained in the whole joined text. */
  lemma {:induction false} JoinSpanContained(ws: seq<string>, i: int, j: int)
    requires 0 <= i <= j < |ws|
    ensures Contains(Join(ws), Join(ws[i..j + 1]))
  {
    var upto := ws[..j + 1];
    assert upto[i..] == ws[i..j + 1];
    JoinPrefixContained(ws, j);
    JoinSuffixContained(upto, i);
    ContainsTransitive(Join(ws), Join(upto), Join(ws[i..j + 1]));
  }

  /** Index of the first `\s` character of `s`, or `|s|` when there is none. */
  function FirstSpace(s: string): (i: nat)
    ensures i <= |s|
    ensures i < |s| ==> IsSpace(s[i])
    ensures forall k :: 0 <= k < i ==> !IsSpace(s[k])
  {
    if |s| == 0 || IsSpace(s[0]) then 0 else 1 + FirstSpace(s[1..])
  }

  /** End of the run of `\s` characters starting at `i`. */
  function SkipSpaces(s: string, i: nat): (j: nat)
    requires i <= |s|
    ensures i <= j <= |s|
    ensures j < |s| ==> !IsSpace(s[j])
    ensures forall k :: i <= k < j ==> IsSpace(s[k])
    decreases |s| - i
  {
    if i == |s| || !IsSpace(s[i]) then i else SkipSpaces(s, i + 1)
  }

  /** The pieces between maximal runs of `\s`, before trailing empty pieces
      are dropped: " a b " gives ["", "a", "b", ""]. */
  function Pieces(s: string): seq<string>
    decreases |s|
  {
    var i := FirstSpace(s);
    if i == |s| then [s]
    else
      var j := SkipSpaces(s, i + 1);
      [s[..i]] + Pieces(s[j..])
  }

  /** Drops empty strings from the end of the sequence. */
  function DropTrailingEmpty(xs: seq<string>): (r: seq<string>)
    ensures |r| <= |xs| && r == xs[..|r|]
    ensures |r| > 0 ==> r[|r| - 1] != ""
    ensures forall k :: |r| <= k < |xs| ==> xs[k] == ""
  {
    if |xs| > 0 && xs[|xs| - 1] == "" then DropTrailingEmpty(xs[..|xs| - 1]) else xs
  }

  /** Java's `s.split("\\s+")`: a string with no separator is returned whole
      (so "" gives [""]), a leading separator gives an empty first word, and
      trailing empty words are dropped (so a string of spaces gives []). */
  function Split(s: string): seq<string> {
    if FirstSpace(s) == |s| then [s] else DropTrailingEmpty(Pieces(s))
  }

  /** Words a lower-cased, split query consists of. */
  function QueryWords(query: string): seq<string> {
    Split(Lower(query))
  }

  /** Words with no separator inside them, all non-empty except possibly the first. */
  predicate WellSplit(ws: seq<string>) {
    && (forall k :: 0 <= k < |ws| ==> NoSpace(ws[k]))
    && (forall k :: 0 < k < |ws| ==> ws[k] != "")
  }

  /** Past the first separator run, the pieces are the first word followed
      by the pieces of the rest. */
  lemma {:induction false} PiecesUnfold(s: string)
    requires FirstSpace(s) < |s|
    ensures var i := FirstSpace(s);
      var j := SkipSpaces(s, i + 1);
      && Pieces(s) == [s[..i]] + Pieces(s[j..])
      && NoSpace(s[..i])
      && (j == |s| ==> Pieces(s[j..]) == [""])
      && (j < |s| ==> |s[j..]| > 0 && !IsSpace(s[j..][0]))
  {
    var i := FirstSpace(s);
    var j := SkipSpaces(s, i + 1);
    assert Pieces(s) == [s[..i]] + Pieces(s[j..]);
    assert forall k :: 0 <= k < i ==> s[..i][k] == s[k];
    if j == |s| {
      assert s[j..] == "";
      assert FirstSpace("") == 0;
    } else {
      assert s[j..][0] == s[j];
    }
  }

  /** The first piece is the text before the first separator. */
  lemma {:induction false} PiecesHead(s: string)
    ensures |Pieces(s)| > 0 && Pieces(s)[0] == s[..FirstSpace(s)]
    ensures |s| > 0 && !IsSpace(s[0]) ==> Pieces(s)[0] != ""
  {
    var i := FirstSpace(s);
    if i == |s| {
      assert s[..i] == s;
    }
  }

  /** No piece holds a separator. */
  lemma {:induction false} PiecesNoSpace(s: string)
    ensures forall k :: 0 <= k < |Pieces(s)| ==> NoSpace(Pieces(s)[k])
    decreases |s|
  {
    var i := FirstSpace(s);
    if i < |s| {
      var j := SkipSpaces(s, i + 1);
      PiecesUnfold(s);
      PiecesNoSpace(s[j..]);
      ConsNoSpace(s[..i], Pieces(s[j..]));
    }
  }

  lemma {:induction false} ConsNoSpace(w: string, q: seq<string>)
    requires NoSpace(w)
    requires forall k :: 0 <= k < |q| ==> NoSpace(q[k])
    ensures forall k :: 0 <= k < |[w] + q| ==> NoSpace(([w] + q)[k])
  {
    var p := [w] + q;
    forall k | 0 < k < |p|
      ensures p[k] == q[k - 1]
    {
    }
  }

  /** Only the first and the last piece can be empty. */
  lemma {:induction false} PiecesInner(s: string)
    ensures forall k :: 0 < k < |Pieces(s)| - 1 ==> Pieces(s)[k] != ""
    decreases |s|
  {
    var i := FirstSpace(s);
    if i < |s| {
      var j := SkipSpaces(s, i + 1);
      var q := Pieces(s[j..]);
      PiecesUnfold(s);
      PiecesInner(s[j..]);
      PiecesHead(s[j..]);
      assert |q| > 1 ==> q[0] != "";
      ConsInner(s[..i], q);
      assert Pieces(s) == [s[..i]] + q;
    }
  }

  lemma {:induction false} ConsInner(w: string, q: seq<string>)
    requires |q| > 0
    requires forall k :: 0 < k < |q| - 1 ==> q[k] != ""
    requires |q| > 1 ==> q[0] != ""
    ensures forall k :: 0 < k < |[w] + q| - 1 ==> ([w] + q)[k] != ""
  {
    var p := [w] + q;
    forall k | 0 < k < |p|
      ensures p[k] == q[k - 1]
    {
    }
  }

  /** Every word `Split` returns is free of separators, and only the first can be empty. */
  lemma {:induction false} SplitWellSplit(s: string)
    ensures WellSplit(Split(s))
  {
    if FirstSpace(s) < |s| {
      PiecesHead(s);
      PiecesNoSpace(s);
      PiecesInner(s);
      var p := Pieces(s);
      var r := DropTrailingEmpty(p);
      forall k | 0 < k < |r|
        ensures r[k] != ""
      {
        if k < |r| - 1 {
          assert r[k] == p[k];
        }
      }
      forall k | 0 <= k < |r|
        ensures NoSpace(r[k])
      {
        assert r[k] == p[k];
      }
    }
  }

  lemma {:induction false} PiecesAllEmpty(s: string)
    requires forall k :: 0 <= k < |Pieces(s)| ==> Pieces(s)[k] == ""
    ensures forall k :: 0 <= k < |s| ==> IsSpace(s[k])
    decreases |s|
  {
    var i := FirstSpace(s);
    if i < |s| {
      var j := SkipSpaces(s, i + 1);
      assert Pieces(s) == [s[..i]] + Pieces(s[j..]);
      assert Pieces(s)[0] == s[..i];
      forall k | 0 <= k < |Pieces(s[j..])|
        ensures Pieces(s[j..])[k] == ""
      {
        assert Pieces(s[j..])[k] == Pieces(s)[k + 1];
      }
      PiecesAllEmpty(s[j..]);
    } else {
      assert Pieces(s) == [s];
      assert s == Pieces(s)[0];
    }
  }

  /** `split` returns no words exactly for a non-empty string of separators. */
  lemma {:induction false} SplitEmpty(s: string)
    ensures Split(s) == [] <==> (|s| > 0 && forall k :: 0 <= k < |s| ==> IsSpace(s[k]))
  {
    if |s| > 0 && forall k :: 0 <= k < |s| ==> IsSpace(s[k]) {
      assert FirstSpace(s) == 0;
      var j := SkipSpaces(s, 1);
      assert j == |s|;
      assert s[j..] == "";
      assert Pieces(s) == [""] + [""];
    } else if FirstSpace(s) < |s| && Split(s) == [] {
      var p := Pieces(s);
      forall k | 0 <= k < |p|
        ensures p[k] == ""
      {
      }
      PiecesAllEmpty(s);
    }
  }

  /** Splitting the single-space join of well-formed words gives the words back. */
  lemma {:induction false} PiecesOfJoin(ws: seq<string>)
    requires |ws| > 0
    requires forall k :: 0 <= k < |ws| ==> ws[k] != "" && NoSpace(ws[k])
    ensures Pieces(Join(ws)) == ws
    decreases |ws|
  {
    if |ws| == 1 {
      assert FirstSpace(ws[0]) == |ws[0]|;
    } else {
      var rest := ws[1..];
      assert Join(ws) == ws[0] + " " + Join(rest);
      assert forall k :: 0 <= k < |rest| ==> rest[k] == ws[k + 1];
      PiecesOfJoin(rest);
      JoinStartsWith(rest);
      PiecesAfterWord(ws[0], Join(rest));
      assert Pieces(Join(ws)) == [ws[0]] + rest;
      assert ws == [ws[0]] + rest;
    }
  }

  lemma {:induction false} JoinStartsWith(ws: seq<string>)
    requires |ws| > 0 && ws[0] != ""
    ensures |Join(ws)| > 0 && Join(ws)[0] == ws[0][0]
  {
  }

  lemma {:induction false} PiecesAfterWord(w: string, rest: string)
    requires w != "" && NoSpace(w)
    requires |rest| > 0 && !IsSpace(rest[0])
    ensures Pieces(w + " " + rest) == [w] + Pieces(rest)
  {
    var s := w + " " + rest;
    assert s == w + (" " + rest);
    FirstSpaceOfPrefix(w, " " + rest);
    assert SkipSpaces(s, |w| + 1) == |w| + 1;
    assert s[..|w|] == w;
    assert s[|w| + 1..] == rest;
  }

  lemma {:induction false} FirstSpaceOfPrefix(w: string, t: string)
    requires NoSpace(w) && |t| > 0 && IsSpace(t[0])
    ensures FirstSpace(w + t) == |w|
    decreases |w|
  {
    if |w| > 0 {
      assert (w + t)[1..] == w[1..] + t;
      FirstSpaceOfPrefix(w[1..], t);
    }
  }

  /** Round trip: `split` undoes the single-space join of non-empty,
      separator-free words. */
  lemma {:induction false} SplitJoin(ws: seq<string>)
    requires |ws| > 0
    requires forall k :: 0 <= k < |ws| ==> ws[k] != "" && NoSpace(ws[k])
    ensures Split(Join(ws)) == ws
  {
    PiecesOfJoin(ws);
    if FirstSpace(Join(ws)) == |Join(ws)| {
      assert Pieces(Join(ws)) == [Join(ws)];
    }
  }
}

=== FILE: votes.dfy ===
/** Up- and down-votes on recipes (`VoteService`): at most one vote per (user,
    recipe) pair, changed by `vote` and counted by `getRecipeWithVotes`. */
module Votes {
  import opened Wrappers

  datatype VoteType = Upvote | Downvote | NoVote

  /** The weight `VoteType.getValue` gives each kind. */
  function Weight(t: VoteType): int {
    match t
    case Upvote => 1
    case Downvote => -1
    case NoVote => 0
  }

  /** A vote is keyed by (user id, recipe id). */
  type Key = (string, string)

  /** The votes table. */
  type Ballots = map<Key, VoteType>

  datatype VoteError = RecipeNotFound | UserNotFound

  /** What `vote` did to the table. */
  datatype Action = Created | Updated | Deleted | Unchanged

  /** A stored vote is never NONE. */
  predicate NoneFree(v: Ballots) {
    forall k :: k in v ==> v[k] != NoVote
  }

  /** `upvote` null, true, false. */
  function Requested(upvote: Option<bool>): (t: VoteType)
    ensures t == NoVote <==> upvote.None?
    ensures t == Upvote <==> upvote == Some(true)
  {
    if upvote.None? then NoVote else if upvote.value then Upvote else Downvote
  }

  /** `vote`: the recipe must exist, then the user; an existing vote is deleted
      by a null request and overwritten otherwise; with no vote a null request
      does nothing and any other creates one. */
  function Vote(v: Ballots, recipes: set<string>, users: set<string>,
                user: string, recipe: string, upvote: Option<bool>)
    : (r: Result<(Ballots, Action), VoteError>)
    ensures r == Failure(RecipeNotFound) <==> recipe !in recipes
    ensures r == Failure(UserNotFound) <==> recipe in recipes && user !in users
    ensures r.Success? <==> recipe in recipes && user in users
    ensures r.Success? ==>
      var after := r.value.0;
      && (upvote.None? ==> (user, recipe) !in after)
      && (upvote.Some? ==> (user, recipe) in after && after[(user, recipe)] == Requested(upvote))
      && (forall k :: k != (user, recipe) ==> (k in after <==> k in v))
      && (forall k :: k != (user, recipe) && k in after ==> after[k] == v[k])
    ensures r.Success? ==>
      (r.value.1 == Created <==> (user, recipe) !in v && upvote.Some?)
      && (r.value.1 == Updated <==> (user, recipe) in v && upvote.Some?)
      && (r.value.1 == Deleted <==> (user, recipe) in v && upvote.None?)
      && (r.value.1 == Unchanged <==> (user, recipe) !in v && upvote.None?)
  {
    if recipe !in recipes then Failure(RecipeNotFound)
    else if user !in users then Failure(UserNotFound)
    else
      var key := (user, recipe);
      var t := Requested(upvote);
      if key in v then
        if t == NoVote then Success((v - {key}, Deleted))
        else Success((v[key := t], Updated))
      else if t != NoVote then Success((v[key := t], Created))
      else Success((v, Unchanged))
  }

  /** `vote` keeps the table free of NONE votes. */
  lemma {:induction false} VoteKeepsNoneFree(v: Ballots, recipes: set<string>, users: set<string>,
                                             user: string, recipe: string, upvote: Option<bool>)
    requires NoneFree(v)
    requires Vote(v, recipes, users, user, recipe, upvote).Success?
    ensures NoneFree(Vote(v, recipes, users, user, recipe, upvote).value.0)
  {
  }

  /** Repeating a vote changes nothing more. */
  lemma {:induction false} VoteIdempotent(v: Ballots, recipes: set<string>, users: set<string>,
                                          user: string, recipe: string, upvote: Option<bool>)
    requires Vote(v, recipes, users, user, recipe, upvote).Success?
    ensures var once := Vote(v, recipes, users, user, recipe, upvote).value.0;
      Vote(once, recipes, users, user, recipe, upvote).Success?
      && Vote(once, recipes, users, user, recipe, upvote).value.0 == once
  {
    var once := Vote(v, recipes, users, user, recipe, upvote).value.0;
    var twice := Vote(once, recipes, users, user, recipe, upvote).value.0;
    assert twice.Keys == once.Keys;
  }

  /** Withdrawing a vote just cast restores the table, when there was none. */
  lemma {:induction false} VoteThenWithdraw(v: Ballots, recipes: set<string>, users: set<string>,
                                            user: string, recipe: string, up: bool)
    requires recipe in recipes && user in users
    requires (user, recipe) !in v
    ensures var cast := Vote(v, recipes, users, user, recipe, Some(up)).value.0;
      Vote(cast, recipes, users, user, recipe, None) == Success((v, Deleted))
  {
    var cast := Vote(v, recipes, users, user, recipe, Some(up)).value.0;
    assert cast - {(user, recipe)} == v;
  }

  /** The keys of the recipe's votes of kind `t`. */
  function VotesOf(v: Ballots, recipe: string, t: VoteType): set<Key> {
    set k | k in v && k.1 == recipe && v[k] == t
  }

  /** `countByRecipeAndVoteType`. */
  function Count(v: Ballots, recipe: string, t: VoteType): nat {
    |VotesOf(v, recipe, t)|
  }

  /** The net score of a recipe: upvotes minus downvotes. */
  function Score(v: Ballots, recipe: string): int {
    Count(v, recipe, Upvote) - Count(v, recipe, Downvote)
  }

  /** The kind of the stored vote, NONE when there is none. */
  function Current(v: Ballots, key: Key): VoteType {
    if key in v then v[key] else NoVote
  }

  datatype RecipeVotes = RecipeVotes(upvotes: nat, downvotes: nat, userVote: VoteType)

  /** `getRecipeWithVotes`: the recipe's up- and down-vote counts, and the
      caller's own vote, NONE for an anonymous caller or one who has not voted. */
  function RecipeWithVotes(v: Ballots, recipes: set<string>, recipe: string, user: Option<string>)
    : (r: Result<RecipeVotes, VoteError>)
    ensures r.Failure? <==> recipe !in recipes
    ensures r.Failure? ==> r.error == RecipeNotFound
    ensures r.Success? ==>
      && r.value.upvotes == |set k | k in v && k.1 == recipe && v[k] == Upvote|
      && r.value.downvotes == |set k | k in v && k.1 == recipe && v[k] == Downvote|
    ensures r.Success? ==>
      (r.value.userVote != NoVote <==> user.Some? && (user.value, recipe) in v && v[(user.value, recipe)] != NoVote)
    ensures r.Success? && r.value.userVote != NoVote ==> r.value.userVote == v[(user.value, recipe)]
  {
    if recipe !in recipes then Failure(RecipeNotFound)
    else
      var mine := if user.Some? then Current(v, (user.value, recipe)) else NoVote;
      Success(RecipeVotes(Count(v, recipe, Upvote), Count(v, recipe, Downvote), mine))
  }

  /** Setting one key changes each count by what leaves and what arrives. */
  lemma {:induction false} CountAfterSet(v: Ballots, key: Key, t': VoteType, recipe: string, t: VoteType)
    ensures Count(v[key := t'], recipe, t)
      == Count(v, recipe, t)
         - (if key in v && key.1 == recipe && v[key] == t then 1 else 0)
         + (if key.1 == recipe && t' == t then 1 else 0)
  {
    var rest := VotesOf(v, recipe, t) - {key};
    SetShape(v, key, t', recipe, t);
    SizeWithout(VotesOf(v, recipe, t), key);
    if key.1 == recipe && t' == t {
      assert |rest + {key}| == |rest| + 1;
    }
  }

  lemma {:induction false} SetShape(v: Ballots, key: Key, t': VoteType, recipe: string, t: VoteType)
    ensures VotesOf(v[key := t'], recipe, t)
      == (VotesOf(v, recipe, t) - {key}) + (if key.1 == recipe && t' == t then {key} else {})
    ensures key in VotesOf(v, recipe, t) <==> key in v && key.1 == recipe && v[key] == t
  {
  }

  lemma {:induction false} SizeWithout(s: set<Key>, x: Key)
    ensures |s - {x}| == |s| - (if x in s then 1 else 0)
  {
    if x in s {
      assert s == (s - {x}) + {x};
    } else {
      assert s - {x} == s;
    }
  }

  /** Removing one key drops each count by what leaves. */
  lemma {:induction false} CountAfterRemove(v: Ballots, key: Key, recipe: string, t: VoteType)
    ensures Count(v - {key}, recipe, t)
      == Count(v, recipe, t) - (if key in v && key.1 == recipe && v[key] == t then 1 else 0)
  {
    var before := VotesOf(v, recipe, t);
    var after := VotesOf(v - {key}, recipe, t);
    assert after == before - {key};
    SizeWithout(before, key);
  }

  /** A vote moves its recipe's score by the weight of the new vote less the
      weight of the old one, and leaves every other recipe's counts alone. */
  lemma {:induction false} VoteMovesScore(v: Ballots, recipes: set<string>, users: set<string>,
                                          user: string, recipe: string, upvote: Option<bool>)
    requires Vote(v, recipes, users, user, recipe, upvote).Success?
    ensures var after := Vote(v, recipes, users, user, recipe, upvote).value.0;
      Score(after, recipe) == Score(v, recipe) + Weight(Requested(upvote)) - Weight(Current(v, (user, recipe)))
    ensures var after := Vote(v, recipes, users, user, recipe, upvote).value.0;
      forall other, t :: other != recipe ==> Count(after, other, t) == Count(v, other, t)
  {
    var key := (user, recipe);
    var t := Requested(upvote);
    var after := Vote(v, recipes, users, user, recipe, upvote).value.0;
    if key in v && t == NoVote {
      assert after == v - {key};
      CountAfterRemove(v, key, recipe, Upvote);
      CountAfterRemove(v, key, recipe, Downvote);
      forall other, t0 | other != recipe
        ensures Count(after, other, t0) == Count(v, other, t0)
      {
        CountAfterRemove(v, key, other, t0);
      }
    } else if t != NoVote {
      assert after == v[key := t];
      CountAfterSet(v, key, t, recipe, Upvote);
      CountAfterSet(v, key, t, recipe, Downvote);
      forall other, t0 | other != recipe
        ensures Count(after, other, t0) == Count(v, other, t0)
      {
        CountAfterSet(v, key, t, other, t0);
      }
    } else {
      assert after == v;
    }
  }
}

=== FILE: wrappers.dfy ===
/** Optional values and error-carrying results, standing in for Java's nullable
    references and thrown exceptions. */
module Wrappers {

  /** A nullable value: `None` is Java's `null` (or an absent document key). */
  datatype Option<+T> = None | Some(value: T) {

    /** The value, or `default` when absent (`Objects.requireNonNullElse`). */
    function GetOr(default: T): T {
      match this
      case Some(v) => v
      case None => default
    }
  }

  /** The outcome of an operation that either returns a value or raises an error. */
  datatype Result<+R, +E> = Success(value: R) | Failure(error: E)
}
